=== FILE: README.md ===
# mhci_binding_predictor — a verified model of its computational core

The repository predicts MHC class I binding of peptides through an external
service and annotates the results with an immunogenicity score. Around that
glue sit a handful of small, deterministic algorithms. Several near-duplicate
drivers copy them, each with its own small differences. This project models
those algorithms in Dafny and proves what each driver computes:

- **The immunogenicity scorer.** This is the position-weighted model of
  Calis et al. (2013). It has a 20-residue scale and a 9-position weight
  vector, extended in the middle for peptides longer than nine. Anchor
  positions are masked from an allele table, from a custom mask, or by the
  default first, second and last positions. There are five copies:
  - `gui.py` and `mhc.py` normalise the allele and truncate the weights;
  - `mhci_binding_predictor/core.py` looks the allele up verbatim, and the
    allele beats a custom mask;
  - `peptide_analysis/immunogenicity.py` validates a batch and sorts its
    output;
  - `add_immunogenicity_scores.py` scores per allele group and maps a
    failure to "Error".
  These are modules `Tables`, `AnchorTable`, `Alleles`, `Scoring`, `Gui`,
  `Mhc`, `Core`, `Immunogenicity` and `AddScores`.
- **The peptide validators.** `gui.py` checks the alphabet and the length;
  `peptide_analysis/immunogenicity.py` checks the alphabet only.
- **The composite score and the category ladder.** These are used by
  `add_immunogenicity_scores.py` and `peptide_analysis/combined_result.py`,
  in modules `Ranking`, `AddScores` and `Combined`.
- **The threshold filters.** These are the `filter_binders` methods (modules
  `Mhc`, `Core` and `Frames`), the main window's `apply_filters` (`Gui`) and
  the list filters of `peptide_analysis/utils.py` (`ResultFilters`).
- **Pattern and variant expansion.** This covers the token windows of
  `gui.py`, the recursive bracket expansion of `mhc.py` and `core.py`
  (`Patterns`), and `peptide_analysis/sequence_variants.py`
  (`SequenceVariants`).
- **The separator settings** of the `core.py` predictor: a class
  `Core.Predictor` with a constructor and `set_csv_format`.

Python's built-ins that these depend on are modelled in `PyText`:
`str.upper`/`lower`, `strip`, `find`, `split`, and `int(...)`/`float(...)`.
Conditional list comprehensions, the stable `sort(key=..., reverse=True)` and
`sorted(set)` are modelled in `Seqs`.

**Numbers.** A score is an exact integer count of 1e-5 units. The scale is
kept in thousandths and the weights (the 0.30 infill included) in hundredths,
so every product weight·scale is exact and `round(score, 5)` is the identity.
Composite scores, percentile ranks and thresholds are Dafny `real`s.
`float(text)` is exact decimal parsing, and `round(x, 4)` rounds half to even
on exact reals.

**Where the code is followed over its documentation.** The documented
behaviour differs from the code in a few places, and the model follows the
code:
- In `add_immunogenicity_scores.py`, an unknown residue raises. The whole
  allele group then gets "Error" rather than 0.0 (`AddScores`).
- In `add_immunogenicity_scores.py`, the default mask `[0, 1, cterm]` takes
  its `cterm` from the last validated peptide and is shared by the whole
  group. The lemma `AddScores.SharedDefaultMask` shows the effect on a
  10-mer.
- The `peptide_analysis/utils.py` filters do not drop a record whose field
  is missing or not a number. They raise `KeyError` or `TypeError`, which is
  modelled as `Err` (`ResultFilters.ByPresentFieldRaises`).

## Model

| member | source | states |
|---|---|---|
| PyText.DigitValue | peptide_analysis/immunogenicity.py:101 | a decimal digit's value is below ten |
| PyText.DigitChar | mhci_binding_predictor/core.py:215 | the digit character of a value below ten is a digit of that value |
| PyText.Upper | peptide_analysis/immunogenicity.py:86 | str.upper keeps the length and upper-cases character by character |
| PyText.Lower | peptide_analysis/utils.py:177 | str.lower keeps the length and lower-cases character by character |
| PyText.UpperIdempotent | peptide_analysis/immunogenicity.py:178 | upper-casing an upper-cased peptide changes nothing |
| PyText.TrimStart | peptide_analysis/immunogenicity.py:86 | the left-stripped text is no longer and does not start with whitespace |
| PyText.TrimEnd | peptide_analysis/immunogenicity.py:86 | the right-stripped text is no longer, does not end with whitespace and keeps the first character |
| PyText.Strip | peptide_analysis/immunogenicity.py:86 | the stripped text neither starts nor ends with whitespace |
| PyText.TrimStartSpec | peptide_analysis/immunogenicity.py:86 | left-stripping removes a prefix made only of whitespace |
| PyText.TrimEndSpec | peptide_analysis/immunogenicity.py:86 | right-stripping removes a suffix made only of whitespace |
| PyText.StripUnchanged | gui.py:131 | text that neither starts nor ends with whitespace is left alone by strip |
| PyText.Find | gui.py:82 | str.find returns -1 or an index at or after the start holding the character |
| PyText.FindFirst | mhc.py:423 | str.find returns the first occurrence, and -1 only when there is none |
| PyText.Split | peptide_analysis/immunogenicity.py:101 | str.split(",") yields at least one part and no part holds the separator |
| PyText.JoinSplit | peptide_analysis/immunogenicity.py:101 | joining the parts of a split with the separator gives the text back |
| PyText.GroupChars | peptide_analysis/immunogenicity.py:101 | a digit group accepted by int() starts with a digit and holds only digits and underscores |
| PyText.DecimalDigits | peptide_analysis/immunogenicity.py:24-40 | the decimal spelling of a number is non-empty and made of digits |
| PyText.DecimalDigitsValue | peptide_analysis/immunogenicity.py:24-40 | the decimal spelling reads back as its number |
| PyText.AllDigitsIsGroup | peptide_analysis/immunogenicity.py:101 | a non-empty run of digits is a digit group int() accepts |
| PyText.DigitsParse | peptide_analysis/immunogenicity.py:101 | int() of a run of digits, with or without a minus sign, is its value |
| PyText.UnsignedDigitsParse | peptide_analysis/immunogenicity.py:101 | int() of a digit group is its value |
| PyText.SignedDigitsParse | peptide_analysis/immunogenicity.py:101 | int() of a minus sign and a digit group is the negated value |
| PyText.FormatIntParses | peptide_analysis/immunogenicity.py:101 | int(str(k)) == k |
| PyText.Pow10 | add_immunogenicity_scores.py:139 | powers of ten are positive |
| PyText.ExponentMark | add_immunogenicity_scores.py:139 | the exponent search returns -1 only when the text holds no 'e' or 'E', else an 'e' or 'E' at or after the start |
| PyText.MantissaRejected | add_immunogenicity_scores.py:139-146 | a mantissa that is empty or starts with neither a digit nor a point is rejected |
| PyText.NotDigitGroup | add_immunogenicity_scores.py:139-146 | text that does not start with a digit is not a digit group |
| PyText.NonNumericText | add_immunogenicity_scores.py:139-146 | float() rejects stripped text that starts with neither a digit, a point nor a sign ("Error", "N/A") |
| PyText.DigitGroupIsPlainFloat | add_immunogenicity_scores.py:139 | float() of a digit group is its value |
| PyText.GroupMarks | add_immunogenicity_scores.py:139 | a digit group holds neither an exponent mark nor a point |
| PyText.ParseIntThenFloat | add_immunogenicity_scores.py:139-140 | text that int() accepts is read by float() as the same number |
| PyText.ParseIntList | peptide_analysis/immunogenicity.py:161-162 | `list(map(int, s.split(",")))`, when no part raises, has one number per part |
| PyText.ParseAll | peptide_analysis/immunogenicity.py:162 | the parts all parse exactly when map(int, ...) does not raise, and then each number is its part's value |
| PyText.FormatIntHasNoComma | peptide_analysis/immunogenicity.py:24-40 | a number's spelling holds no comma |
| PyText.SplitJoin | peptide_analysis/immunogenicity.py:161 | splitting comma-free parts joined by the separator gives the parts back |
| PyText.IntListRoundTrip | peptide_analysis/immunogenicity.py:24-162 | a non-empty list of numbers written "2,5,9" style parses back to itself |
| PyText.ToFloat | add_immunogenicity_scores.py:139-144 | float() of an int or a float is its value; of a string, the decimal literal it spells, or ValueError when it spells none; TypeError exactly for None |
| Frames.Num | mhci_binding_predictor/core.py:456-466 | the numeric reading of a cell, which the threshold comparisons use: a number exactly for an int or a float, None for a missing value or a string |
| Frames.Masked | mhc.py:407 | df[mask] keeps the columns and a subsequence of the rows; with a mask that holds a predicate of each row it is exactly the rows meeting that predicate, in order (the same selection as df[combined_filter] in core.py) |
| Alleles.NormalizeAllele | add_immunogenicity_scores.py:67 | the normalised name is no longer than the input and holds neither '*' nor ':' |
| Alleles.NormalizeAlleleIdempotent | peptide_analysis/immunogenicity.py:120 | normalising twice is normalising once |
| Alleles.KeepsPlainNames | peptide_analysis/immunogenicity.py:120 | a name with neither '*' nor ':' is left unchanged |
| Alleles.NormalizeAlleleAppend | gui.py:55 | normalisation distributes over concatenation (it removes characters one by one) |
| Alleles.NormalizedMaskOfNormalized | mhc.py:203-211 | the mask the normalising scorers pick does not change when the allele was already normalised |
| Tables.ScaleCoversAlphabet | peptide_analysis/immunogenicity.py:43-48 | the immunogenicity scale is defined on exactly the 20 letters the validators accept |
| Tables.ResidueIsCapital | peptide_analysis/immunogenicity.py:90 | every accepted residue is a capital letter, so upper-casing leaves it alone |
| Tables.Repeat | peptide_analysis/immunogenicity.py:191 | `(peplen - 9) * [0.30]`: n copies of the infill weight |
| Tables.Extended | peptide_analysis/immunogenicity.py:190-191 | a peptide longer than 9 gets n weights: the first five base weights, the 0.30 infill, then the last four base weights |
| Tables.Weights | mhc.py:214-217 | the weights a scorer uses have one entry per residue |
| Tables.FullWeights | peptide_analysis/immunogenicity.py:190-193 | the weight vector of length max(n, 9) agrees with Weights(n) on every residue's position |
| Tables.AnchorWeightsZero | peptide_analysis/immunogenicity.py:51 | for 9 or more residues the first, second and last weights are zero |
| Tables.ZeroBased | peptide_analysis/immunogenicity.py:163 | `x - 1` for each 1-based position, same length |
| AnchorTable.MouseWellFormed | peptide_analysis/immunogenicity.py:24-26 | every mouse entry is three positions between 1 and 9 |
| AnchorTable.HlaAWellFormed | peptide_analysis/immunogenicity.py:27-33 | every HLA-A entry is three positions between 1 and 9 |
| AnchorTable.HlaBWellFormed | peptide_analysis/immunogenicity.py:33-39 | every HLA-B entry is three positions between 1 and 9 |
| AnchorTable.TableEntriesWellFormed | peptide_analysis/immunogenicity.py:24-40 | every entry of the 45-allele table is three positions between 1 and 9 |
| AnchorTable.TableTextParses | peptide_analysis/immunogenicity.py:24-40 | each stored text such as "2,5,9" parses back, through split(",") and int(), to its positions |
| AnchorTable.KeyLengths | peptide_analysis/immunogenicity.py:24-40 | every key has six or nine characters |
| AnchorTable.DisplayFormKey | mhci_binding_predictor/core.py:214 | the display form "HLA-A*02:01" is not a key, so core.py, which does not normalise, never finds it |
| AnchorTable.A0201Anchors | peptide_analysis/immunogenicity.py:27 | HLA-A0201 is in the table with anchors 1, 2 and 9 |
| AnchorTable.EmptyNotAllele | peptide_analysis/immunogenicity.py:119-122 | the empty name is not in the table |
| Scoring.GuardedLoop | gui.py:68-74 | gui.py's loop: an unknown residue returns 0.0 at once; otherwise the weighted sum over unmasked positions |
| Scoring.ClampedLoop | mhci_binding_predictor/core.py:231-239 | core.py's loop with `pepweight[min(count, len(pepweight)-1)]` computes the same score, the clamp never firing |
| Scoring.CheckedScore | peptide_analysis/immunogenicity.py:195-211 | the raising scorer succeeds exactly when every residue is on the scale, and then returns the weighted sum |
| Scoring.RaisingLoop | peptide_analysis/immunogenicity.py:197-201 | the loop that raises KeyError on an unknown residue computes CheckedScore |
| Scoring.LookupScore | add_immunogenicity_scores.py:103-106 | the lookup-only-when-unmasked scorer succeeds exactly when every unmasked residue is on the scale |
| Scoring.LookupLoop | add_immunogenicity_scores.py:103-106 | the loop of add_immunogenicity_scores computes LookupScore |
| Scoring.LookupOfResidues | add_immunogenicity_scores.py:103-106 | on a peptide of residues the lookup scorer and the raising scorer agree |
| Scoring.SumAgrees | mhc.py:225-226 | two weight vectors and masks that differ only where a weight is zero give the same sum |
| Scoring.WeightsBeyondIrrelevant | mhci_binding_predictor/core.py:229 | weights past the peptide's end do not change the score (immunoweight[:peplen] against the full nine) |
| Scoring.FullWeightsSameScore | gui.py:63-66 | scoring with the padded nine weights equals scoring with the first peplen |
| Scoring.DefaultMaskInert | peptide_analysis/immunogenicity.py:186-187 | for 9 or more residues the default mask [0, 1, cterm] masks only zero weights, so it gives the unmasked score |
| Scoring.SumMaskedChange | peptide_analysis/immunogenicity.py:200-201 | residues at masked positions do not contribute to the sum |
| Scoring.MaskedResidueIrrelevant | peptide_analysis/immunogenicity.py:200-201 | two peptides that differ only at masked positions score alike |
| AddScores.AllelesInOrder | add_immunogenicity_scores.py:42-48 | the group keys of peptides_by_allele are pairwise distinct |
| AddScores.PeptidesOf | add_immunogenicity_scores.py:43-48 | a group holds at most as many peptides as there are rows |
| AddScores.AllelesInOrderMembers | add_immunogenicity_scores.py:42-48 | an allele has a group exactly when some row carries it, and exactly when its group is non-empty |
| AddScores.GroupByAllele | add_immunogenicity_scores.py:42-48 | the grouping loop yields the alleles in order of first appearance and, per allele, its rows' peptides in row order; the map's keys are exactly those alleles |
| AddScores.ScoreEachSpec | add_immunogenicity_scores.py:91-108 | the scoring loop finishes exactly when no unmasked residue is missing from the scale; it then stores each validated peptide's score under (peptide, allele), and it never touches keys of other peptides or other alleles |
| AddScores.ScoreEachOk | add_immunogenicity_scores.py:103-106 | the loop completes exactly when every validated peptide is scorable (no KeyError on immunoscale) |
| AddScores.ScoreEachFrame | add_immunogenicity_scores.py:108 | only the (peptide, allele) keys of the group's validated peptides are written; other keys keep their presence and value |
| AddScores.ScoreEachValues | add_immunogenicity_scores.py:91-108 | when every peptide is scorable, each validated peptide's key holds its rounded score |
| AddScores.MarkFailedSpec | add_immunogenicity_scores.py:110-114 | the except branch stores "Error" for every peptide of the group and leaves every other key as it was |
| AddScores.ScoreGroupSpec | add_immunogenicity_scores.py:53-114 | one allele's group: when validation succeeds, the mask parses and every peptide scores, each validated peptide maps to its score; otherwise every peptide of the group maps to "Error"; keys of other alleles never change |
| AddScores.SharedDefaultMask | add_immunogenicity_scores.py:84-88 | the default mask is the last validated peptide's [0, 1, cterm]: a 10-mer scored under a 9-mer's mask [0, 1, 8] loses the weight 0.18 of its ninth position instead of the weight 0 of its tenth, so its score is its own-mask score minus 0.18 times the ninth residue's scale value |
| AddScores.ScoreEachLoop | add_immunogenicity_scores.py:91-108 | the nested scoring loop computes exactly the specification ScoreEach (the new score map and whether it ran to the end) |
| AddScores.ScorePeptide | add_immunogenicity_scores.py:92-106 | one pass of the outer loop: the weights for the peptide's length and the masked sum, or the KeyError |
| AddScores.MarkFailedLoop | add_immunogenicity_scores.py:113-114 | the "Error" loop computes MarkFailed |
| AddScores.ScoreGroupStep | add_immunogenicity_scores.py:60-114 | the body of the loop over groups (normalise allele, validate, parse mask, score or mark failed) computes ScoreGroup |
| AddScores.ScoreAllGroups | add_immunogenicity_scores.py:51-118 | the loop over the groups, in key order, computes ScoreGroups from the empty map |
| AddScores.CellValue | add_immunogenicity_scores.py:124 | the cell is "N/A" exactly when the key was never scored, "Error" exactly when it was marked failed, and a float exactly when a score was stored |
| AddScores.Annotated | add_immunogenicity_scores.py:121-124 | one row per input row, each the input row with only its immunogenicity column replaced by its cell |
| AddScores.Annotate | add_immunogenicity_scores.py:121-124 | the annotating loop computes Annotated |
| AddScores.FilterRows | add_immunogenicity_scores.py:136-146 | the filtering loop keeps exactly the qualifying rows, in order |
| AddScores.FilterRowsSpec | add_immunogenicity_scores.py:136-146 | the filtered rows are a subsequence of the rows, and a row is in it exactly when it is a row whose two values parse with percentile_rank < 0.5 and immunogenicity > 0 |
| AddScores.UnscoredRowsDropped | add_immunogenicity_scores.py:114-146 | a row whose immunogenicity is "Error" or "N/A" never passes the filter (float() raises ValueError) |
| AddScores.Entry | add_immunogenicity_scores.py:186-214 | a row is ranked exactly when its three values parse and its immunogenicity is positive, and a ranked entry has positive immunogenicity |
| AddScores.Entries | add_immunogenicity_scores.py:184-214 | the loop yields at most one entry per row |
| AddScores.RankPeptides | add_immunogenicity_scores.py:174-219 | the rank_peptides loop and sort compute Ranked |
| AddScores.RankRow | add_immunogenicity_scores.py:187-214 | one pass of the rank_peptides loop computes the row's Entry |
| AddScores.EntriesMembers | add_immunogenicity_scores.py:195-211 | each entry comes from some row, has positive immunogenicity, the composite 0.5·imm + 0.3·(1 − rank/100) + 0.2·score, and the first category rung it meets |
| AddScores.EntriesComplete | add_immunogenicity_scores.py:186-211 | every row with parsable values and positive immunogenicity is ranked |
| AddScores.RankedSpec | add_immunogenicity_scores.py:216-219 | the ranking is sorted by composite, highest first, holds exactly the entries (as a multiset) and keeps equal composites in row order (stable sort) |
| AddScores.AnnotatedRows | add_immunogenicity_scores.py:120-124 | one output row per input row |
| AddScores.AddImmunogenicityScores | add_immunogenicity_scores.py:10-172 | nothing is produced for a table without rows (rows[0] raises IndexError); otherwise the annotated rows are AnnotatedRows, whose cells the lemmas below characterise |
| AddScores.PeptideInGroup | add_immunogenicity_scores.py:43-48 | every row's peptide is in the group of its allele |
| AddScores.ScoreGroupOther | add_immunogenicity_scores.py:53-114 | a group leaves every key of another allele as it was |
| AddScores.ScoreGroupLocal | add_immunogenicity_scores.py:53-114 | what a group leaves under its own allele depends only on what was there before, not on other alleles' keys |
| AddScores.ScoreGroupsOwn | add_immunogenicity_scores.py:51-118 | since the alleles of the grouping are distinct, the keys of an allele end as that allele's group alone leaves them |
| AddScores.AnnotatedCell | add_immunogenicity_scores.py:120-124 | each output row is its input row with immunogenicity set to the cell its own allele's group, run from an empty map, gives its peptide |
| AddScores.GroupCell | add_immunogenicity_scores.py:70-124 | one group's cell for one of its peptides: the score when validation, the mask and every score succeed and the peptide was validated as written; "N/A" when the group succeeds without it; "Error" when the group fails |
| AddScores.AnnotatedCellCases | add_immunogenicity_scores.py:41-124 | the same three outcomes stated for the immunogenicity cell of each output row |
| AddScores.AddImmunogenicityScoresRun | add_immunogenicity_scores.py:10-172 | the whole script on rows already read computes AddImmunogenicityScores |
| Patterns.Prefix | mhc.py:431-432 | one option prepended to every completion, in order, one result per completion |
| Patterns.PrefixAllSingle | mhc.py:426 | a token with one option prepends that option to every completion |
| Patterns.PrefixAllLength | gui.py:109-110 | a token's options times the completions of the rest: the product of the number of options and the number of completions |
| Patterns.ExpandCount | gui.py:105-112 | generate_combinations over a token list yields the product of the option counts |
| Patterns.PrefixAllMembers | gui.py:109-110 | a string results from one token step exactly when it starts with one of the options and continues with a completion |
| Patterns.ExpandMembers | gui.py:105-112 | a string is a combination of a token list exactly when it has one character per token, each among that token's options |
| Patterns.EmptyTokenNoVariant | gui.py:87-109 | a token with no options (an empty bracket "[]") leaves no combination at all |
| Patterns.PlainTokens | gui.py:90-92 | without brackets every character is its own one-option token |
| Patterns.TokenCountBound | gui.py:77-93 | tokenize_pattern yields at most one token per character |
| Patterns.FindShift | mhc.py:423 | `remaining.find(']')` on a suffix is the find on the whole pattern, shifted |
| Patterns.ExpansionsBracket | mhc.py:421-432 | at a bracket that closes, the completions are each option followed by every completion of what follows the bracket |
| Patterns.SuffixSlices | mhc.py:430-432 | the options and the rest, sliced from the suffix, are the slices of the whole pattern |
| Patterns.ExpansionsLiteral | mhc.py:424-435 | at a literal character, or a bracket that never closes, the completions are that character followed by every completion of the rest |
| Patterns.TokensBracket | gui.py:81-89 | at a bracket that closes, the first token is the bracket's options and tokenizing resumes after the ']' |
| Patterns.TokensLiteral | gui.py:83-92 | at a literal character, or a bracket that never closes, the first token is that character alone |
| Patterns.ExpandCons | gui.py:109-110 | combining a token list is the first token's options prepended to the combinations of the rest |
| Patterns.ExpansionsAreTokenExpansions | gui.py:77-112 | the direct recursion of mhc.py and core.py and gui.py's tokenize-then-combine give the same completions, in the same order |
| Patterns.TokenEnd | gui.py:86-92 | the next token ends after the start, within the pattern |
| Patterns.StepAgrees | gui.py:80-92 | if the two readings agree after the first token, they agree from its start |
| Patterns.BracketAgrees | gui.py:86-89 | the inductive step at a bracket that closes |
| Patterns.LiteralAgrees | gui.py:83-92 | the inductive step at a literal character |
| Patterns.Prepend | mhci_binding_predictor/core.py:519 | the completions collected below a prefix: the prefix joined to each, in order |
| Patterns.PrependAppend | mhci_binding_predictor/core.py:527-531 | collecting below one prefix distributes over concatenation of the completions |
| Patterns.PrependPrefix | mhci_binding_predictor/core.py:528-531 | collecting under `current_seq + option` is collecting under current_seq after prepending the option |
| Patterns.PrependEmpty | mhci_binding_predictor/core.py:540 | collecting below the empty prefix yields the completions themselves |
| Patterns.PrefixAllSnoc | mhci_binding_predictor/core.py:527 | one more option appends its completions after those of the earlier options |
| Patterns.PrependDone | mhci_binding_predictor/core.py:518-520 | an exhausted pattern contributes exactly the current prefix |
| Patterns.PrependLiteral | mhci_binding_predictor/core.py:535-538 | at a literal character the completions are those of the rest under the extended prefix |
| Patterns.ExpansionsOpen | mhci_binding_predictor/core.py:523-532 | at a bracket that closes, the completions are each option followed by every completion after the bracket |
| Patterns.PrependOptionStep | mhci_binding_predictor/core.py:527-531 | one pass of the options loop appends the completions below `current_seq + option` |
| Patterns.ProductZero | gui.py:109 | the number of combinations is zero exactly when some token has no options |
| Patterns.BracketVariantsSpec | mhc.py:437-443 | the fallback to the pattern itself applies exactly when some token is empty; otherwise generate_variants yields the product of the option counts, and a string is a variant exactly when each character is among its token's options |
| Patterns.PlainExpansions | mhc.py:433-435 | a pattern without brackets has exactly itself as completion |
| Patterns.PlainPatternVariant | mhc.py:412-443 | generate_variants of a pattern without brackets is the pattern alone |
| Patterns.PrefixAllIndex | gui.py:109-110 | the options are tried in order: option i with completion j sits at index i times the number of completions plus j |
| Gui.CalculateImmunogenicity | gui.py:48-74 | the scoring loop computes GuiScore: the normalised allele's table mask or [0, 1, cterm], the truncated weights, 0 on an unknown residue |
| Gui.GuiScoreCaseInsensitive | gui.py:49 | scoring is case-insensitive: an upper-cased peptide scores like the original |
| Gui.GuiScoreAlleleForms | gui.py:54-57 | "HLA-A*02:01" and "HLA-A0201" (any name and its normalised form) give the same score |
| Gui.GuiUnknownResidue | gui.py:68-70 | a symbol outside the scale after upper-casing makes the score exactly 0 |
| Gui.GuiDefaultMaskInert | gui.py:30-72 | for 9 or more residues and no table allele the default mask changes nothing: the score is the unmasked weighted sum |
| Gui.GuiMaskedResidue | gui.py:71-72 | changing residues only at masked positions, to other valid residues, leaves the score unchanged |
| Gui.UpperOfResidues | gui.py:49 | a peptide of residues is its own upper-case form |
| Gui.BadCharsEmpty | gui.py:132-133 | the set of invalid characters is empty exactly when every character is one of the 20 residues |
| Gui.ValidatePeptide | gui.py:130-137 | validate_peptide accepts exactly the upper-cased, stripped peptides of residues with 8 to 15 characters and returns that form; the character error comes first and names the invalid characters, the length error gives the length |
| Gui.TokenizePattern | gui.py:77-93 | the tokenizing while-loop computes TokensFrom(pattern, 0) |
| Gui.NextToken | gui.py:81-92 | one pass of the loop: a closed bracket becomes one token of its characters, an unmatched '[' or a plain character a one-character token, and the index advances past it |
| Gui.VariantsBeforeMembers | gui.py:102-112 | after the first k windows a string has been added exactly when it has the requested length and spells one option per token of a window starting before k |
| Gui.LengthVariantsMembers | gui.py:96-114 | generate_variants_for_length holds exactly the strings of the requested length that pick one option per token of some contiguous window |
| Gui.ShortTokensNoVariants | gui.py:98-100 | fewer tokens than the length yield the empty set |
| Gui.CompletesStep | gui.py:109-110 | choosing an option at the current index completes to x exactly when x completes from the current prefix and has that option at that position |
| Gui.Combinations | gui.py:105-110 | the recursive closure adds to the set exactly the completions of the current prefix over the window |
| Gui.CompletesEmpty | gui.py:112 | the completions from the empty prefix are the combinations of the window's tokens |
| Gui.GenerateVariantsForLength | gui.py:96-114 | the windows loop computes LengthVariants |
| Gui.PatternVariantsMembers | gui.py:121-123 | a pattern's variants are the union over the requested lengths |
| Gui.AllVariantsMembers | gui.py:118-123 | all variants are the union over the patterns |
| Gui.GenerateAllVariants | gui.py:117-124 | generate_all_variants returns a strictly sorted (so duplicate-free) list whose elements are exactly the variants of every pattern and length |
| Gui.AllVariantsOrigin | gui.py:117-124 | every variant has one of the requested lengths and picks from a contiguous token window of one of the patterns |
| Gui.StageIsFilter | gui.py:848-868 | a comprehension stage is a filter by its test, an inactive stage keeping everything |
| Gui.StageAfter | gui.py:848-868 | the next stage applied to the rows that passed the first k tests keeps the rows that pass the first k + 1 |
| Gui.FirstStages | gui.py:848-856 | the peptide, allele and el_score stages keep the rows passing those three tests |
| Gui.LastStages | gui.py:858-868 | the percentile, ic50 and immunogenicity stages then keep the rows passing all six tests |
| Gui.FilterRowsIsPasses | gui.py:846-868 | the six comprehensions are one filter by the conjunction of the active tests |
| Gui.FilterRowsSpec | gui.py:846-868 | the filtered list is a subsequence of the results and holds a record exactly when it passes every active test: membership for peptides and alleles, inclusive bounds, None failing each active bound |
| Gui.MainWindow.constructor | gui.py:841-875 | a window holds the results, with no filtered view |
| Gui.MainWindow.ApplyFilters | gui.py:841-875 | with no results nothing changes; otherwise filtered_results becomes the filtered list, is_filtered becomes true and the results are kept |
| Mhc.CalculateImmunogenicityScore | mhc.py:195-232 | mhc.py's scorer computes the same score as gui.py's calculate_immunogenicity for every peptide and allele |
| Mhc.PandasFloat | mhc.py:390 | the number pandas reads from text: float()'s reading when the text has no underscore and no whitespace beyond ASCII, otherwise none |
| Mhc.Coerce | mhc.py:388-390 | pd.to_numeric(errors='coerce') yields a number or a missing value, keeps numbers, and turns a string into pandas' reading of it or a missing value |
| Mhc.UnderscoreIsNaN | mhc.py:390 | text holding an underscore coerces to NaN |
| Mhc.CoerceRow | mhc.py:388-390 | coercing a row keeps its columns |
| Mhc.CoerceRows | mhc.py:388-390 | coercion is applied row by row, keeping the number of rows |
| Mhc.AndColumn | mhc.py:395-405 | `mask &= (df[col] >= t)` (or `<=`): each entry stays true exactly when it was true and the row's value meets the bound, a missing value failing it |
| Mhc.FilterBinders | mhc.py:377-410 | an empty frame comes back unchanged; otherwise the frame keeps its columns and the coerced rows that meet every threshold that applies |
| Mhc.KeepMask | mhc.py:393-405 | the four `mask &=` steps compute, for every row, whether it meets every threshold that is given and whose column exists |
| Mhc.FilteredRowsSpec | mhc.py:393-407 | the filtered rows are a subsequence of the coerced rows, and a coerced row is kept exactly when it meets every applicable threshold |
| Mhc.NaNIsDropped | mhc.py:390-396 | a row whose el_score does not coerce to a number is dropped when the el_score threshold applies |
| Mhc.NoThresholdsKeepsAll | mhc.py:393 | with no thresholds every coerced row is kept |
| Mhc.MissingColumnIgnored | mhc.py:401 | an ic50 threshold has no effect when the frame has no ic50 column |
| Mhc.ExpandPattern | mhc.py:416-435 | the recursive expand_pattern appends to the accumulator `current` joined to every completion of `remaining`, in order |
| Mhc.ExpandOptions | mhc.py:430-432 | the loop over a bracket's options appends, option by option, `current + option` joined to every completion of what follows the bracket |
| Mhc.GenerateVariants | mhc.py:412-443 | generate_variants returns every completion of the pattern in order, or the pattern itself when there is none |
| Core.Predictor.constructor | mhci_binding_predictor/core.py:22-46 | the separators are kept when valid ("," or ";" for columns, "." or "," for decimals) and fall back to "," and "." otherwise |
| Core.Predictor.SetCsvFormat | mhci_binding_predictor/core.py:482-502 | each separator changes only when it is given and valid; otherwise the current setting stays |
| Core.IsInt | mhci_binding_predictor/core.py:80-94 | isint is True exactly when int() accepts the value, False exactly when int() raises ValueError, and the TypeError of None propagates |
| Core.IsIntOfFormatted | mhci_binding_predictor/core.py:80-94 | the spelling of an integer, an int and a float are all accepted by isint |
| Core.CalculateImmunogenicityScore | mhci_binding_predictor/core.py:195-243 | core.py's scorer (table mask, else custom mask, else [0, 1, cterm]; clamped weight index) computes CoreScore, int() on a bad custom mask raising ValueError |
| Core.CoreMaskNum | mhci_binding_predictor/core.py:213-223 | the mask selection computes CoreMask, the allele taking precedence over the custom mask |
| Core.AlleleBeatsCustomMask | mhci_binding_predictor/core.py:214-221 | for an allele of the table the custom mask is ignored and scoring never raises |
| Core.TableMask | mhci_binding_predictor/core.py:214-217 | for an allele of the table the mask is its 0-based anchors |
| Core.DisplayFormNotLookedUp | mhci_binding_predictor/core.py:214 | core.py does not normalise: "HLA-A*02:01" scores as if no allele were given |
| Core.BadCustomMaskRaises | mhci_binding_predictor/core.py:218-221 | a non-empty custom mask with a part int() rejects raises ValueError when no table allele is given |
| Core.CoreUnknownResidue | mhci_binding_predictor/core.py:232-235 | a symbol outside the scale makes the score 0 once the mask is chosen |
| Core.CoreAgreesWithGui | mhci_binding_predictor/core.py:195-243 | for a normalised table allele, core.py's score equals gui.py's |
| Core.CoreDefaultAgreesWithGui | mhci_binding_predictor/core.py:222-237 | with no allele and no custom mask, core.py's score equals gui.py's |
| Core.Criteria | mhci_binding_predictor/core.py:454-466 | at most four filters, one per threshold that is given and whose column exists |
| Core.Series | mhci_binding_predictor/core.py:457 | a comparison raises TypeError exactly when the column holds a string in some row; otherwise the series has one entry per row, each telling whether the row meets the criterion |
| Core.BuildCriteria | mhci_binding_predictor/core.py:454-466 | the filters list built step by step is Criteria |
| Core.EvaluateSeries | mhci_binding_predictor/core.py:456-466 | evaluating the appended comparisons raises TypeError exactly when one of them compares a string; otherwise it gives each criterion's series |
| Core.CombineSeries | mhci_binding_predictor/core.py:471-473 | the &= loop over the filters gives, for every row, whether it meets all of them |
| Core.FilterBinders | mhci_binding_predictor/core.py:436-480 | filter_binders computes Binders: the frame itself when empty or without filters, TypeError when a filter compares a string, else the rows meeting every filter |
| Core.BindersSpec | mhci_binding_predictor/core.py:450-480 | it raises exactly when the frame is non-empty and a filter's column holds a string; otherwise the columns are kept, the rows are a subsequence of the input, each meeting every filter, and every row meeting every filter is kept |
| Core.StringScoreRaises | mhci_binding_predictor/core.py:456-457 | with the default threshold, a string in the score column raises TypeError |
| Core.DefaultKeepsNonNegativeScores | mhci_binding_predictor/core.py:436-457 | with the default threshold 0. every kept row has a numeric score of at least 0 |
| Core.NoCriteriaUnchanged | mhci_binding_predictor/core.py:469-480 | with no filter the frame comes back unchanged |
| Core.GenerateCombinations | mhci_binding_predictor/core.py:517-538 | the recursive generate_combinations appends `current_seq` joined to every completion of the remaining pattern, in order |
| Core.CombineOptions | mhci_binding_predictor/core.py:526-532 | the options loop appends, option by option, the completions under `current_seq + option` |
| Core.GenerateVariants | mhci_binding_predictor/core.py:504-547 | generate_variants returns every completion of the pattern in order, or the pattern itself when there is none |
| Immunogenicity.IsInt | peptide_analysis/immunogenicity.py:53-69 | isint is True exactly when float() accepts the value and it equals its int() truncation, False when float() raises ValueError or the value has a fraction; the TypeError of None propagates |
| Immunogenicity.IsIntOfIntText | peptide_analysis/immunogenicity.py:53-69 | every text int() accepts passes isint |
| Immunogenicity.Cleaned | peptide_analysis/immunogenicity.py:86 | each peptide stripped and upper-cased, in order |
| Immunogenicity.ValidPeptides | peptide_analysis/immunogenicity.py:84-96 | the kept peptides are the cleaned peptides made only of residues; there are at most as many as inputs, and no length check applies |
| Immunogenicity.Max | peptide_analysis/immunogenicity.py:106 | max() of a non-empty list bounds every element and is one of them |
| Immunogenicity.CheckedMask | peptide_analysis/immunogenicity.py:99-116 | the custom mask survives validation or becomes None, and a surviving mask parses |
| Immunogenicity.IsIntCheckRedundant | peptide_analysis/immunogenicity.py:111 | once int() accepted every part, the isint check on them always passes |
| Immunogenicity.Validate | peptide_analysis/immunogenicity.py:71-133 | validate_peptides returns the valid peptides, a mask that parses whenever it is set, and an allele only when it is in the table |
| Immunogenicity.CheckPeptide | peptide_analysis/immunogenicity.py:87-93 | the character loop with break accepts exactly the peptides made of residues |
| Immunogenicity.CollectValid | peptide_analysis/immunogenicity.py:84-96 | the peptide loop computes ValidPeptides |
| Immunogenicity.ValidateMask | peptide_analysis/immunogenicity.py:99-116 | the mask checks, in order, compute CheckedMask |
| Immunogenicity.ValidatePeptides | peptide_analysis/immunogenicity.py:71-133 | the whole validation computes Validate |
| Immunogenicity.AlleleOverridesMask | peptide_analysis/immunogenicity.py:122-128 | a table allele replaces any custom mask with its table entry, so the custom mask makes no difference |
| Immunogenicity.UnknownAlleleDropped | peptide_analysis/immunogenicity.py:129-131 | an allele not in the table becomes None and the checked custom mask is kept |
| Immunogenicity.NegativeMaskRejected | peptide_analysis/immunogenicity.py:102-104 | a mask with a negative value is reset to None |
| Immunogenicity.LongMaskRejected | peptide_analysis/immunogenicity.py:106-109 | a mask whose maximum exceeds some valid peptide's length is reset to None |
| Immunogenicity.GoodMaskKept | peptide_analysis/immunogenicity.py:99-113 | a non-empty mask that parses, has no negative value and fits every valid peptide is kept |
| Immunogenicity.Scored | peptide_analysis/immunogenicity.py:177-211 | at most one result per valid peptide |
| Immunogenicity.ScoreAll | peptide_analysis/immunogenicity.py:154-211 | the loop over the valid peptides computes Scored |
| Immunogenicity.ScoredSnoc | peptide_analysis/immunogenicity.py:177-211 | one more peptide appends its result, if it has one, to the results so far |
| Immunogenicity.CustomMaskNum | peptide_analysis/immunogenicity.py:157-168 | with a custom mask, the numbers are its 0-based positions (or [0, 1, -1] when int() fails) |
| Immunogenicity.ScoreOne | peptide_analysis/immunogenicity.py:178-211 | one pass of the loop: upper-case, mask, weights, then the result or the skipped KeyError |
| Immunogenicity.PredictImmunogenicity | peptide_analysis/immunogenicity.py:135-216 | predict_immunogenicity computes Predict: [] without valid peptides, else the results sorted by score |
| Immunogenicity.ScoredAll | peptide_analysis/immunogenicity.py:177-208 | every valid peptide gets a result, in order, carrying its length and its score under its own mask |
| Immunogenicity.EntryOfResidues | peptide_analysis/immunogenicity.py:197-208 | a valid peptide never raises and gets its prediction |
| Immunogenicity.ScoredMembers | peptide_analysis/immunogenicity.py:204-208 | every result is the prediction of one of the valid peptides |
| Immunogenicity.PredictSpec | peptide_analysis/immunogenicity.py:148-216 | the output is sorted by score descending, is a permutation of the per-peptide results, has one entry per valid peptide, and each entry is a valid peptide with its length and score |
| Immunogenicity.PredictStable | peptide_analysis/immunogenicity.py:214 | results with equal scores keep the input order (stable sort) |
| Immunogenicity.FallbackUnreachable | peptide_analysis/immunogenicity.py:160-168 | after validation the fallback [0, 1, -1] never applies: the mask is the parsed custom mask or the per-peptide default |
| Immunogenicity.TableMaskFor | peptide_analysis/immunogenicity.py:128-163 | the table text of an allele, parsed and made 0-based, is its anchor positions |
| Immunogenicity.TableScoreAgrees | peptide_analysis/immunogenicity.py:186-201 | for a normalised table allele a valid peptide's score equals gui.py's |
| Immunogenicity.TableTextScore | peptide_analysis/immunogenicity.py:190-201 | under a table allele the score is the weighted sum masked at its anchors |
| Immunogenicity.GuiTableScore | gui.py:54-72 | gui.py's score under a table allele is the same weighted sum |
| Immunogenicity.PredictAgreesWithGui | peptide_analysis/immunogenicity.py:135-216 | for a normalised table allele every predicted score equals gui.py's score of that peptide |
| Immunogenicity.GetAvailableAlleles | peptide_analysis/immunogenicity.py:249-256 | get_available_alleles returns the table keys, each once, in sorted order |
| Ranking.CompositeMonotone | add_immunogenicity_scores.py:199 | the composite grows with immunogenicity and binding score and falls with percentile rank |
| Ranking.CompositeBounds | peptide_analysis/combined_result.py:50-55 | with immunogenicity and score in [0, 1] and rank in [0, 100] the composite lies in [0, 1] (weights 0.5, 0.3, 0.2 sum to 1) |
| Ranking.Tier | add_immunogenicity_scores.py:202-209 | the rungs of the ladder are numbered 0 to 3 |
| Ranking.BandsNest | peptide_analysis/combined_result.py:70-75 | the Eccellente conditions imply the Buono conditions, which imply the Da considerare conditions |
| Ranking.LadderCountsBands | add_immunogenicity_scores.py:202-209 | since the bands nest, the first-match rung equals the number of bands the values fall in |
| Ranking.LadderMonotone | peptide_analysis/combined_result.py:70-77 | better values (higher immunogenicity and score, lower rank) never give a lower category |
| Ranking.NonPositiveIsLow | peptide_analysis/combined_result.py:72-77 | non-positive immunogenicity always falls to the last rung |
| Ranking.RoundHalfEven | peptide_analysis/combined_result.py:57 | round-half-even lands within one half of its argument |
| Ranking.RoundHalfEvenMonotone | peptide_analysis/combined_result.py:57 | rounding is monotone |
| Ranking.RoundHalfEvenOfInt | peptide_analysis/combined_result.py:57 | rounding an integer gives it back |
| Ranking.Round4 | peptide_analysis/combined_result.py:57 | round(x, 4) is within 0.00005 of x |
| Ranking.Round4Monotone | peptide_analysis/combined_result.py:57 | round(x, 4) is monotone |
| Ranking.Round4Idempotent | peptide_analysis/combined_result.py:57 | rounding to four decimals twice is rounding once |
| Combined.CompositeOf | peptide_analysis/combined_result.py:36-57 | the composite is None exactly when the immunogenicity is None, and otherwise within 0.00005 of the unrounded formula |
| Combined.CategoryOf | peptide_analysis/combined_result.py:59-77 | the category is 'Non determinato' exactly when the immunogenicity is None, and otherwise the first-match rung of the ladder |
| Combined.MakeCombined | peptide_analysis/combined_result.py:17-34 | the constructor's composite and category are those computed from its fields |
| Combined.CombinedSpec | peptide_analysis/combined_result.py:46-77 | no composite exactly when 'Non determinato', exactly when no immunogenicity; non-positive immunogenicity gives 'Da scartare' |
| Combined.ToDict | peptide_analysis/combined_result.py:79-94 | to_dict has exactly the seven keys |
| Combined.FromDict | peptide_analysis/combined_result.py:96-113 | from_dict, when the fields have usable values, builds a consistent record with the dictionary's peptide and allele |
| Combined.DictRoundTrip | peptide_analysis/combined_result.py:79-113 | from_dict(to_dict(r)) == r, so composite and category come back too |
| Combined.FromResultsList | peptide_analysis/combined_result.py:115-126 | from_results_list converts each dictionary, in order |
| Combined.Dicts | peptide_analysis/combined_result.py:178 | one dictionary per record, in order |
| Combined.ResultsListRoundTrip | peptide_analysis/combined_result.py:115-178 | from_results_list of the dictionaries of records gives the records back |
| Combined.FromResultsListAll | peptide_analysis/combined_result.py:126 | a list whose every dictionary converts gives the converted list |
| Combined.ScoreMap | peptide_analysis/combined_result.py:149 | the generic score map has a key exactly for the predicted peptides |
| Combined.Records | peptide_analysis/combined_result.py:152-175 | one record per input result |
| Combined.RecordsSnoc | peptide_analysis/combined_result.py:153-175 | one more result appends its record |
| Combined.RecordsPointwise | peptide_analysis/combined_result.py:153-175 | the i-th record is the record of the i-th result |
| Combined.CleanOfResidues | peptide_analysis/immunogenicity.py:86 | a peptide of residues is unchanged by strip().upper() |
| Combined.SingleValidated | peptide_analysis/combined_result.py:159 | validating a one-peptide list keeps the cleaned peptide exactly when it is made of residues |
| Combined.FallbackNeverApplies | peptide_analysis/combined_result.py:160-164 | when the allele-specific prediction is empty the generic scores never hold the peptide, so the fallback always yields None |
| Combined.SpecificPrediction | peptide_analysis/combined_result.py:156-161 | the allele-specific prediction is the cleaned peptide's prediction when it is valid, nothing otherwise |
| Combined.SinglePrediction | peptide_analysis/immunogenicity.py:135-216 | the prediction of a one-peptide list is that peptide's prediction when it is valid, nothing otherwise |
| Combined.AtMostOnePrediction | peptide_analysis/immunogenicity.py:177-214 | predictions of a list holding at most one peptide are that peptide's prediction or nothing |
| Combined.ImmunogenicityOfSpec | peptide_analysis/combined_result.py:156-164 | a result's immunogenicity is its cleaned peptide's score under the allele's mask, and None exactly when the cleaned peptide holds a symbol outside the scale |
| Combined.UniqueOrderIrrelevant | peptide_analysis/combined_result.py:143 | the order of list(set(...)) does not change anything the method returns |
| Combined.RecordFields | peptide_analysis/combined_result.py:167-173 | a record carries its result's peptide, allele, score and percentile rank |
| Combined.DictFields | peptide_analysis/combined_result.py:86-94 | to_dict stores peptide, allele, score and percentile_rank under their keys |
| Combined.WithImmunogenicitySpec | peptide_analysis/combined_result.py:152-178 | one dictionary per input result, in order, with its peptide, allele, score and percentile rank |
| Combined.FilteredSpec | peptide_analysis/combined_result.py:180-184 | the filtered records are a subsequence, each with immunogenicity not None and > 0 and rank < 0.5, and all such records |
| Combined.RankedSpec | peptide_analysis/combined_result.py:186-191 | the ranked records are sorted by composite descending, a permutation of the records with a composite, stable on ties |
| Combined.FilteredAreRanked | peptide_analysis/combined_result.py:181-188 | every filtered record is also ranked |
| Combined.ImmunogenicityStep | peptide_analysis/combined_result.py:156-164 | the per-result immunogenicity step computes ImmunogenicityOf |
| Combined.RecordStep | peptide_analysis/combined_result.py:154-173 | one pass of the loop builds RecordOf |
| Combined.GenericStep | peptide_analysis/combined_result.py:143-149 | the generic prediction computes GenericScores |
| Combined.BuildRecords | peptide_analysis/combined_result.py:152-175 | the loop appending CombinedResults computes Records |
| Combined.AddImmunogenicityScoresRun | peptide_analysis/combined_result.py:128-210 | the method computes AddImmunogenicityScores: the dictionaries, the filtered and the ranked lists |
| ResultFilters.Compare | peptide_analysis/utils.py:95-107 | a comparison holds exactly when the field is a number meeting the operator; comparing None or a string with <, <=, > or >= raises TypeError, == never raises |
| ResultFilters.ComprehensionIsFilter | peptide_analysis/utils.py:95 | a comprehension completes exactly when no record raises, and then it is the filter by its condition |
| ResultFilters.ComprehensionSpec | peptide_analysis/utils.py:95 | a completed comprehension is a subsequence holding exactly the records whose condition is true |
| ResultFilters.ComprehensionIdempotent | peptide_analysis/utils.py:95 | running a completed comprehension again on its output changes nothing |
| ResultFilters.Ic50Field | peptide_analysis/utils.py:174-179 | the chosen field is a key whose lower-cased name contains "ic50"; None means no key does |
| ResultFilters.UnknownOperators | peptide_analysis/utils.py:109-206 | an unknown operator behaves as "<" for percentile and ic50 and as ">" for immunogenicity |
| ResultFilters.ByPercentileSpec | peptide_analysis/utils.py:82-114 | filter_results_by_percentile completes exactly when every record has a percentile_rank that can be compared; it then returns the order-preserving sublist meeting the operator |
| ResultFilters.ByPresentFieldSpec | peptide_analysis/utils.py:134-156 | the None-dropping filter returns the order-preserving sublist of records whose field is a number meeting the operator |
| ResultFilters.ByPresentFieldRaises | peptide_analysis/utils.py:134-137 | it raises exactly when some record lacks the field (KeyError) or a present non-number meets an ordering operator (TypeError) |
| ResultFilters.MissingIsUndecided | peptide_analysis/utils.py:134 | the None-dropping comprehension raises exactly when some record lacks the key |
| ResultFilters.UnorderedIsUndecided | peptide_analysis/utils.py:137 | after it, the comparison raises exactly when some kept value is not a number and the operator orders |
| ResultFilters.ByImmunogenicitySpec | peptide_analysis/utils.py:116-156 | an empty list, or one whose first record lacks immunogenicity_score, comes back unchanged; otherwise the result is a subsequence holding exactly the records with a number meeting the operator |
| ResultFilters.ByIc50Spec | peptide_analysis/utils.py:158-208 | an empty list, or one whose first record has no ic50 key, comes back unchanged; otherwise the result is a subsequence holding exactly the records whose ic50 field is a number meeting the operator |
| ResultFilters.CombinedSpec | peptide_analysis/utils.py:210-248 | filter_results_combined, the three filters composed in order, returns a subsequence whose records all meet the percentile condition |
| ResultFilters.CombinedKeeps | peptide_analysis/utils.py:229-241 | the result is the IC50 stage applied to the output of the first two; when it completes, a record of the input is kept exactly when it meets the percentile condition, the immunogenicity condition when that stage filters, and the IC50 condition when that stage filters |
| ResultFilters.SubsequenceMembers | peptide_analysis/utils.py:229-241 | every record of a subsequence is a record of the list |
| ResultFilters.SelectMembers | peptide_analysis/utils.py:95 | every selected record is a record of the list |
| ResultFilters.ByPercentileIdempotent | peptide_analysis/utils.py:94-114 | applying the percentile filter twice with the same threshold and operator is applying it once |
| ResultFilters.ComprehensionKeepsAll | peptide_analysis/utils.py:134 | a comprehension whose condition holds for every record returns them all |
| ResultFilters.ByPresentFieldIdempotent | peptide_analysis/utils.py:134-156 | the None-dropping filter is idempotent |
| ResultFilters.ByImmunogenicityIdempotent | peptide_analysis/utils.py:128-156 | the immunogenicity filter is idempotent |
| ResultFilters.ByIc50Idempotent | peptide_analysis/utils.py:171-208 | the ic50 filter is idempotent on records that share one key order |
| SequenceVariants.Expand | peptide_analysis/sequence_variants.py:27-28 | one partial string extended by each option, in option order |
| SequenceVariants.ExtendLength | peptide_analysis/sequence_variants.py:25-29 | a position multiplies the number of partial strings by its number of options |
| SequenceVariants.ExtendIndex | peptide_analysis/sequence_variants.py:26-28 | partial i with option j lands at index i times the number of options plus j: the earlier positions vary slowest |
| SequenceVariants.MulStep | peptide_analysis/sequence_variants.py:26-28 | the block of partial i ends within the result |
| SequenceVariants.ExtendMembers | peptide_analysis/sequence_variants.py:26-28 | every new string is a partial string followed by an option |
| SequenceVariants.VariantsCount | peptide_analysis/sequence_variants.py:22-31 | the number of variants is the product of the option-list sizes |
| SequenceVariants.EmptyCases | peptide_analysis/sequence_variants.py:22-29 | an empty sequence yields [""], and an empty option list anywhere yields [] |
| SequenceVariants.ProductZero | peptide_analysis/sequence_variants.py:27 | an empty option list makes the product zero |
| SequenceVariants.VariantAtRank | peptide_analysis/sequence_variants.py:24-29 | the variant choosing option js[k] at each position sits at the mixed-radix rank of js: output order is lexicographic in option indices |
| SequenceVariants.SpellSnoc | peptide_analysis/sequence_variants.py:28 | a choice extended by one more option spells the earlier string followed by that option |
| SequenceVariants.VariantIsSpelled | peptide_analysis/sequence_variants.py:24-29 | every variant concatenates one option per position, in position order |
| SequenceVariants.VariantsMembers | peptide_analysis/sequence_variants.py:9-31 | a string is a variant exactly when it spells one option per position |
| SequenceVariants.SpellLength | peptide_analysis/sequence_variants.py:28 | with single-letter options a spelled string has one letter per position |
| SequenceVariants.SingleLetterLength | peptide_analysis/sequence_variants.py:9-31 | with single-letter options every variant's length is the number of positions |
| SequenceVariants.GenerateSequenceVariants | peptide_analysis/sequence_variants.py:9-31 | the nested loops compute Variants |
| SequenceVariants.ExtendLoop | peptide_analysis/sequence_variants.py:25-29 | the inner two loops compute Extend |
| SequenceVariants.AllVariantsCount | peptide_analysis/sequence_variants.py:74-95 | the total is the sum of the per-sequence variant counts |
| SequenceVariants.GenerateAllVariants | peptide_analysis/sequence_variants.py:54-95 | generate_all_variants concatenates the variants of each sequence in order and returns their number |
| Seqs.SortDesc | add_immunogenicity_scores.py:217 | `sort(key=..., reverse=True)`: the result is sorted by key descending and a permutation of the input |
| Seqs.SortDescStable | peptide_analysis/immunogenicity.py:214 | the sort is stable: elements with equal keys keep their order |
| Seqs.SortDescMembers | peptide_analysis/combined_result.py:187-191 | the sorted list has the length and the elements of its input |
| Seqs.FilterIdempotent | peptide_analysis/utils.py:95 | filtering twice by one condition is filtering once |
| Seqs.SortedFromSet | gui.py:124 | sorted(list(set)): strictly increasing, exactly the set's elements, one each |

## Left out

- Network I/O is outside the model. This covers the calls to the IEDB service, subprocess and pexpect calls, and parsing of the service's responses. The filters take the service's results as sequences of records or as a frame of rows.
- The Qt widgets, signals and worker thread of `gui.py` are outside the model. Only `apply_filters`' predicate and the state it writes are kept (`Gui.MainWindow`). `clear_filters` is not modelled.
- CSV, Excel and temporary-file reading and writing are outside the model. This includes the CSV that `predict_peptide_immunogenicity` writes, the output file names of `add_immunogenicity_scores.py`, and the per-sequence CSV files and names of `generate_all_variants` (`peptide_analysis/sequence_variants.py:79-90`). Inputs and outputs are sequences of records.
- `print`, `logger` and `tqdm` side effects are not modelled. `print_available_alleles` is I/O only; `get_available_alleles` is modelled.
- Plotting, the random peptide generator, the command-line drivers and the pandas column renaming heuristics are not modelled.
- The external `Prediction.validate` called by `add_immunogenicity_scores.py` is not part of this model. It becomes a function parameter (`AddScores.Validator`) whose outcome is the validated peptides, the mask text and the allele used, or None when it raises.
- Binary floating point is not modelled. Scores are exact fixed point and composite scores are reals, so binary rounding, `inf` and `nan` do not arise. `float(...)` accepts decimal literals only.
- `str.upper` and `str.lower` act on ASCII letters only; Unicode case mapping is not modelled.
- The order in which Python iterates a set is not modelled. Where the program iterates a set without sorting it, the model takes that order as a parameter. `Combined.UniqueOrderIrrelevant` shows that the result of `add_immunogenicity_scores` does not depend on which order.
- pandas dtypes are not modelled. A frame cell is a number, a string or a missing value. A comparison with a missing value is false, and one with a string raises TypeError (`Core.Series`). `pd.to_numeric(errors='coerce')` in `mhc.py` is exact decimal parsing, with NaN for anything else. Its readings of "inf" and "nan" are not modelled. Columns other than the ones the filters read are not modelled.
- PyText.ParseInt: accepts the ASCII digits only. Python's int() also reads other Unicode decimal digits, such as Arabic-Indic ones, so a mask written in those digits is rejected where Python accepts it.
- PyText.ParseFloat: accepts the ASCII digits only, for the same reason. Python's float() also reads other Unicode decimal digits.
- `Combined.FromDict` accepts only numbers and None in the numeric fields. A Python value of another type, which `from_dict` would pass through unchecked, is not modelled.
- `Combined.CombinedResult` is a datatype, because its fields are only set by the constructor.
- Several loop bodies are modelled as helper methods. Each one is proved against one pass or one branch of the program's loop; it is not a separate operation of the program.
- AddScores.CsvRow: assumes the four input columns are present and that the peptide and the allele are strings. A file without the `allele` or `peptide` column raises KeyError at `add_immunogenicity_scores.py:44-45`. One without `percentile_rank` raises KeyError at line 139, and one without `score` at line 191, since only ValueError and TypeError are caught there. A short row whose allele is None raises AttributeError at line 67, outside the `try`. A None peptide would be written to the temporary file as "None". The model annotates, filters and ranks such rows as usual. A missing trailing `percentile_rank` or `score` (None) is modelled: float() raises TypeError and the row is skipped.
- ResultFilters.Record: `keys` is not tied to `values.Keys`. A Python dict's key order lists exactly its keys, once each, so `Ic50Field(rs[0].keys)` always names a key the first record holds. The model also admits records whose key list disagrees with their map; for such records it promises nothing beyond its stated contracts.
- ResultFilters.ByIc50Idempotent: requires every record to share the first record's key order (`OneSchema`). With records of different schemas, the second pass may pick a different ic50 key, so idempotence is not promised there.

=== FILE: add_scores.dfy ===
/**
 * add_immunogenicity_scores.py: scoring the peptides of a CSV table group by
 * allele, annotating every row, the filter loop, and rank_peptides.
 */
module AddScores {
  import opened Wrappers
  import opened PyText
  import opened Tables
  import opened Alleles
  import opened Scoring
  import opened Seqs
  import opened Ranking

  /**
   * The columns of a row the script reads; immunogenicity is the column the
   * script writes.  The peptide and the allele are always present strings.
   * The percentile rank and the score are what csv.DictReader gives: a
   * string, or None for a missing trailing field.
   */
  datatype CsvRow = CsvRow(
    peptide: string, allele: string, percentileRank: PyValue, score: PyValue, immunogenicity: PyValue)

  // ---------------------------------------------------------------------------
  // Grouping the peptides by allele (lines 41-48)
  // ---------------------------------------------------------------------------

  /** The alleles in order of first appearance: the key order of peptides_by_allele. */
  function AllelesInOrder(rows: seq<CsvRow>): (r: seq<string>)
    ensures forall i, j :: 0 <= i < j < |r| ==> r[i] != r[j]
  {
    if rows == [] then []
    else
      var t := AllelesInOrder(rows[..|rows| - 1]);
      if rows[|rows| - 1].allele in t then t else t + [rows[|rows| - 1].allele]
  }

  /** The peptides of the rows carrying allele a, in row order. */
  function PeptidesOf(rows: seq<CsvRow>, a: string): (r: seq<string>)
    ensures |r| <= |rows|
  {
    if rows == [] then []
    else PeptidesOf(rows[..|rows| - 1], a) + (if rows[|rows| - 1].allele == a then [rows[|rows| - 1].peptide] else [])
  }

  /** Whether some row carries allele a. */
  predicate HasAllele(rows: seq<CsvRow>, a: string) {
    exists i :: 0 <= i < |rows| && rows[i].allele == a
  }

  /** Every allele of the rows has a group, and only those do; no group is empty. */
  lemma {:induction false} AllelesInOrderMembers(rows: seq<CsvRow>, a: string)
    ensures a in AllelesInOrder(rows) <==> HasAllele(rows, a)
    ensures a in AllelesInOrder(rows) <==> PeptidesOf(rows, a) != []
  {
    if rows != [] {
      var init := rows[..|rows| - 1];
      AllelesInOrderMembers(init, a);
      if HasAllele(rows, a) && rows[|rows| - 1].allele != a {
        var i :| 0 <= i < |rows| && rows[i].allele == a;
        assert init[i].allele == a;
      }
      if HasAllele(init, a) {
        var i :| 0 <= i < |init| && init[i].allele == a;
        assert rows[i].allele == a;
      }
    }
  }

  method GroupByAllele(rows: seq<CsvRow>) returns (alleles: seq<string>, groups: map<string, seq<string>>)
    ensures alleles == AllelesInOrder(rows)
    ensures forall a :: a in groups <==> a in alleles
    ensures forall a :: a in groups ==> groups[a] == PeptidesOf(rows, a)
  {
    alleles := [];
    groups := map[];
    var k := 0;
    while k < |rows|
      invariant 0 <= k <= |rows|
      invariant alleles == AllelesInOrder(rows[..k])
      invariant forall a :: a in groups <==> a in alleles
      invariant forall a :: a in groups ==> groups[a] == PeptidesOf(rows[..k], a)
    {
      var allele := rows[k].allele;
      var peptide := rows[k].peptide;
      assert rows[..k + 1][..k] == rows[..k];
      AllelesInOrderMembers(rows[..k], allele);
      if allele !in groups {
        groups := groups[allele := []];
        alleles := alleles + [allele];
      }
      groups := groups[allele := groups[allele] + [peptide]];
      k := k + 1;
    }
    assert rows[..k] == rows;
  }

  // ---------------------------------------------------------------------------
  // Scoring one allele group (lines 53-118)
  // ---------------------------------------------------------------------------

  /** What Prediction.validate returns: validated peptides, the custom mask, the allele used. */
  datatype Validated = Validated(peptides: seq<string>, customMask: Option<string>, alleleUsed: Option<string>)

  /**
   * Prediction.validate, which is not part of this model: given the formatted
   * allele and the group's peptides, its result, or None when it raises.
   */
  type Validator = (string, seq<string>) -> Option<Validated>

  /** A score cell: a computed score in 1e-5 units, or "Error". */
  datatype Cell = Value(units: int) | Failed

  /** The key (peptide, allele) of immunogenicity_scores. */
  type Key = (string, string)

  /**
   * The mask of a group: the parsed custom mask when an allele was used and a
   * mask came back (None when int() raises); otherwise [0, 1, cterm] for the
   * last validated peptide, shared by the whole group.  With no validated
   * peptide the mask is never read.
   */
  function GroupMask(v: Validated): Option<seq<int>> {
    if Truthy(v.alleleUsed) && Truthy(v.customMask) then
      match ParseIntList(v.customMask.value)
      case Some(l) => Some(ZeroBased(l))
      case None => None
    else if v.peptides == [] then Some([])
    else Some(DefaultMask(|v.peptides[|v.peptides| - 1]|))
  }

  /** Whether every validated peptide can be scored: no KeyError at an unmasked position. */
  predicate AllScorable(ps: seq<string>, mask: seq<int>) {
    forall i :: 0 <= i < |ps| ==> ScorableUnder(ps[i], mask, |ps[i]|)
  }

  /** The score of a validated peptide that can be scored. */
  function UnitsOf(p: string, mask: seq<int>): int
    requires ScorableUnder(p, mask, |p|)
  {
    LookupScore(p, FullWeights(|p|), mask).value
  }

  /**
   * The scoring loop over the validated peptides, from the first: each score
   * is stored as it is computed, and the first KeyError stops the loop
   * (false).
   */
  function ScoreEach(scores: map<Key, Cell>, allele: string, ps: seq<string>, mask: seq<int>): (r: (map<Key, Cell>, bool))
    decreases |ps|
  {
    if ps == [] then (scores, true)
    else
      var p := ps[0];
      match LookupScore(p, FullWeights(|p|), mask)
      case None => (scores, false)
      case Some(s) => ScoreEach(scores[(p, allele) := Value(s)], allele, ps[1..], mask)
  }

  /** The except branch: "Error" for every peptide of the group, as the rows spell it. */
  function MarkFailed(scores: map<Key, Cell>, allele: string, ps: seq<string>): map<Key, Cell>
    decreases |ps|
  {
    if ps == [] then scores else MarkFailed(scores[(ps[0], allele) := Failed], allele, ps[1..])
  }

  /** The scores after one group: computed when nothing raised, "Error" for the group otherwise. */
  function ScoreGroup(scores: map<Key, Cell>, allele: string, peptides: seq<string>, validate: Validator): map<Key, Cell> {
    match validate(NormalizeAllele(allele), peptides)
    case None => MarkFailed(scores, allele, peptides)
    case Some(v) =>
      match GroupMask(v)
      case None => MarkFailed(scores, allele, peptides)
      case Some(mask) =>
        var (s2, ok) := ScoreEach(scores, allele, v.peptides, mask);
        if ok then s2 else MarkFailed(s2, allele, peptides)
  }

  /** The loop over the groups, in key order. */
  function ScoreGroups(scores: map<Key, Cell>, alleles: seq<string>, groups: map<string, seq<string>>, validate: Validator): map<Key, Cell>
    requires forall a :: a in alleles ==> a in groups
    decreases |alleles|
  {
    if alleles == [] then scores
    else ScoreGroups(ScoreGroup(scores, alleles[0], groups[alleles[0]], validate), alleles[1..], groups, validate)
  }

  /** Keys of other alleles are untouched. */
  ghost predicate OthersUnchanged(before: map<Key, Cell>, after: map<Key, Cell>, allele: string) {
    forall k: Key :: k.1 != allele ==> (k in after <==> k in before) && (k in before ==> after[k] == before[k])
  }

  lemma {:induction false} ScoreEachSpec(scores: map<Key, Cell>, allele: string, ps: seq<string>, mask: seq<int>)
    ensures ScoreEach(scores, allele, ps, mask).1 <==> AllScorable(ps, mask)
    ensures AllScorable(ps, mask) ==> forall i :: 0 <= i < |ps| ==>
      (ps[i], allele) in ScoreEach(scores, allele, ps, mask).0 &&
      ScoreEach(scores, allele, ps, mask).0[(ps[i], allele)] == Value(UnitsOf(ps[i], mask))
    ensures forall q :: q !in ps ==> ((q, allele) in ScoreEach(scores, allele, ps, mask).0 <==> (q, allele) in scores)
    ensures forall q :: q !in ps && (q, allele) in scores ==> ScoreEach(scores, allele, ps, mask).0[(q, allele)] == scores[(q, allele)]
    ensures OthersUnchanged(scores, ScoreEach(scores, allele, ps, mask).0, allele)
  {
    ScoreEachOk(scores, allele, ps, mask);
    ScoreEachFrame(scores, allele, ps, mask);
    if AllScorable(ps, mask) {
      ScoreEachValues(scores, allele, ps, mask);
    }
  }

  /** The loop runs to the end exactly when every peptide can be scored. */
  lemma {:induction false} ScoreEachOk(scores: map<Key, Cell>, allele: string, ps: seq<string>, mask: seq<int>)
    ensures ScoreEach(scores, allele, ps, mask).1 <==> AllScorable(ps, mask)
    decreases |ps|
  {
    if ps != [] {
      var p := ps[0];
      var tail := ps[1..];
      assert forall i :: 1 <= i < |ps| ==> tail[i - 1] == ps[i];
      match LookupScore(p, FullWeights(|p|), mask)
      case None =>
      case Some(s) =>
        ScoreEachOk(scores[(p, allele) := Value(s)], allele, tail, mask);
    }
  }

  /** The loop writes only the keys of its peptides under its allele. */
  lemma {:induction false} ScoreEachFrame(scores: map<Key, Cell>, allele: string, ps: seq<string>, mask: seq<int>)
    ensures forall q :: q !in ps ==> ((q, allele) in ScoreEach(scores, allele, ps, mask).0 <==> (q, allele) in scores)
    ensures forall q :: q !in ps && (q, allele) in scores ==> ScoreEach(scores, allele, ps, mask).0[(q, allele)] == scores[(q, allele)]
    ensures OthersUnchanged(scores, ScoreEach(scores, allele, ps, mask).0, allele)
    decreases |ps|
  {
    if ps != [] {
      var p := ps[0];
      var tail := ps[1..];
      assert forall q :: q in tail ==> q in ps;
      match LookupScore(p, FullWeights(|p|), mask)
      case None =>
      case Some(s) =>
        ScoreEachFrame(scores[(p, allele) := Value(s)], allele, tail, mask);
    }
  }

  /** When every peptide can be scored, each one's key holds its score. */
  lemma {:induction false} ScoreEachValues(scores: map<Key, Cell>, allele: string, ps: seq<string>, mask: seq<int>)
    requires AllScorable(ps, mask)
    ensures forall i :: 0 <= i < |ps| ==>
      (ps[i], allele) in ScoreEach(scores, allele, ps, mask).0 &&
      ScoreEach(scores, allele, ps, mask).0[(ps[i], allele)] == Value(UnitsOf(ps[i], mask))
    decreases |ps|
  {
    if ps != [] {
      var p := ps[0];
      var tail := ps[1..];
      assert forall i :: 1 <= i < |ps| ==> tail[i - 1] == ps[i];
      assert AllScorable(tail, mask);
      assert ScorableUnder(p, mask, |p|);
      var s := UnitsOf(p, mask);
      var next := scores[(p, allele) := Value(s)];
      assert ScoreEach(scores, allele, ps, mask) == ScoreEach(next, allele, tail, mask);
      ScoreEachValues(next, allele, tail, mask);
      ScoreEachFrame(next, allele, tail, mask);
      var r := ScoreEach(next, allele, tail, mask).0;
      forall i | 0 <= i < |ps|
        ensures (ps[i], allele) in r && r[(ps[i], allele)] == Value(UnitsOf(ps[i], mask))
      {
        if i > 0 {
          assert tail[i - 1] == ps[i];
        } else if p in tail {
          var j :| 0 <= j < |tail| && tail[j] == p;
        }
      }
    }
  }

  lemma {:induction false} MarkFailedSpec(scores: map<Key, Cell>, allele: string, ps: seq<string>)
    ensures forall i :: 0 <= i < |ps| ==> (ps[i], allele) in MarkFailed(scores, allele, ps) && MarkFailed(scores, allele, ps)[(ps[i], allele)] == Failed
    ensures forall q :: q !in ps ==> ((q, allele) in MarkFailed(scores, allele, ps) <==> (q, allele) in scores)
    ensures forall q :: q !in ps && (q, allele) in scores ==> MarkFailed(scores, allele, ps)[(q, allele)] == scores[(q, allele)]
    ensures OthersUnchanged(scores, MarkFailed(scores, allele, ps), allele)
    decreases |ps|
  {
    if ps != [] {
      var next := scores[(ps[0], allele) := Failed];
      MarkFailedSpec(next, allele, ps[1..]);
      forall i | 1 <= i < |ps|
        ensures ps[i] in ps[1..]
      {
        assert ps[1..][i - 1] == ps[i];
      }
      forall q | q in ps[1..]
        ensures q in ps
      {
      }
    }
  }

  /** Validation, the mask and the score of every validated peptide all succeed. */
  predicate GroupSucceeds(v: Option<Validated>) {
    v.Some? && GroupMask(v.value).Some? && AllScorable(v.value.peptides, GroupMask(v.value).value)
  }

  /**
   * A group scores when validation and mask parsing succeed and every
   * validated peptide can be scored: each then maps to its score.  Otherwise
   * every peptide of the group maps to "Error".  Other alleles are untouched.
   */
  lemma ScoreGroupSpec(scores: map<Key, Cell>, allele: string, peptides: seq<string>, validate: Validator)
    ensures OthersUnchanged(scores, ScoreGroup(scores, allele, peptides, validate), allele)
    ensures var v := validate(NormalizeAllele(allele), peptides);
      GroupSucceeds(v) ==>
      forall i :: 0 <= i < |v.value.peptides| ==>
        var m := ScoreGroup(scores, allele, peptides, validate);
        (v.value.peptides[i], allele) in m && m[(v.value.peptides[i], allele)] == Value(UnitsOf(v.value.peptides[i], GroupMask(v.value).value))
    ensures var v := validate(NormalizeAllele(allele), peptides);
      !GroupSucceeds(v) ==>
      forall i :: 0 <= i < |peptides| ==>
        var m := ScoreGroup(scores, allele, peptides, validate);
        (peptides[i], allele) in m && m[(peptides[i], allele)] == Failed
  {
    var v := validate(NormalizeAllele(allele), peptides);
    MarkFailedSpec(scores, allele, peptides);
    if v.Some? && GroupMask(v.value).Some? {
      var mask := GroupMask(v.value).value;
      ScoreEachSpec(scores, allele, v.value.peptides, mask);
      MarkFailedSpec(ScoreEach(scores, allele, v.value.peptides, mask).0, allele, peptides);
    }
  }

  /**
   * The default mask is the last validated peptide's: a 10-mer scored in a
   * group that ends with a 9-mer loses the weight of its ninth position
   * (0.18) instead of its tenth (0).
   */
  lemma SharedDefaultMask(p: string)
    requires |p| == 10 && AllResidues(p)
    ensures Score(p, FullWeights(10), DefaultMask(9)) == Score(p, FullWeights(10), DefaultMask(10)) - 18 * Scale(p[8])
  {
    var w := FullWeights(10);
    assert w[8] == 18 && w[9] == 0;
    SumAgrees(p, w, DefaultMask(9), w, DefaultMask(10), 8);
    assert Sum(p, w, DefaultMask(9), 10) == Sum(p, w, DefaultMask(9), 8);
    assert Sum(p, w, DefaultMask(10), 10) == Sum(p, w, DefaultMask(10), 8) + 18 * Scale(p[8]);
  }

  /** Methods for the scoring loops, each proved against the function it implements. */
  method ScoreEachLoop(scores: map<Key, Cell>, allele: string, ps: seq<string>, mask: seq<int>)
    returns (out: map<Key, Cell>, ok: bool)
    ensures (out, ok) == ScoreEach(scores, allele, ps, mask)
  {
    out := scores;
    var k := 0;
    while k < |ps|
      invariant 0 <= k <= |ps|
      invariant ScoreEach(out, allele, ps[k..], mask) == ScoreEach(scores, allele, ps, mask)
    {
      var peptide := ps[k];
      var r := ScorePeptide(peptide, mask);
      assert ps[k..][0] == peptide && ps[k..][1..] == ps[k + 1..];
      if r.None? {
        return out, false;
      }
      out := out[(peptide, allele) := Value(r.value)];
      k := k + 1;
    }
    return out, true;
  }

  /** The weights for the peptide's length, then the scoring loop. */
  method ScorePeptide(peptide: string, mask: seq<int>) returns (r: Option<int>)
    ensures r == LookupScore(peptide, FullWeights(|peptide|), mask)
  {
    var peplen := |peptide|;
    var pepweight := if peplen > 9 then BaseWeights[..5] + Repeat(InfillWeight, peplen - 9) + BaseWeights[5..]
                     else BaseWeights;
    r := LookupLoop(peptide, pepweight, mask);
  }

  method MarkFailedLoop(scores: map<Key, Cell>, allele: string, ps: seq<string>) returns (out: map<Key, Cell>)
    ensures out == MarkFailed(scores, allele, ps)
  {
    out := scores;
    var k := 0;
    while k < |ps|
      invariant 0 <= k <= |ps|
      invariant MarkFailed(out, allele, ps[k..]) == MarkFailed(scores, allele, ps)
    {
      assert ps[k..][1..] == ps[k + 1..];
      out := out[(ps[k], allele) := Failed];
      k := k + 1;
    }
  }

  method ScoreGroupStep(scores: map<Key, Cell>, allele: string, peptides: seq<string>, validate: Validator)
    returns (out: map<Key, Cell>)
    ensures out == ScoreGroup(scores, allele, peptides, validate)
  {
    var alleleFormatted := NormalizeAllele(allele);
    var v := validate(alleleFormatted, peptides);
    if v.None? {
      out := MarkFailedLoop(scores, allele, peptides);
      return;
    }
    var maskNum := GroupMask(v.value);
    if maskNum.None? {
      out := MarkFailedLoop(scores, allele, peptides);
      return;
    }
    var ok;
    out, ok := ScoreEachLoop(scores, allele, v.value.peptides, maskNum.value);
    if !ok {
      out := MarkFailedLoop(out, allele, peptides);
    }
  }

  method ScoreAllGroups(alleles: seq<string>, groups: map<string, seq<string>>, validate: Validator)
    returns (scores: map<Key, Cell>)
    requires forall a :: a in alleles ==> a in groups
    ensures scores == ScoreGroups(map[], alleles, groups, validate)
  {
    scores := map[];
    var k := 0;
    while k < |alleles|
      invariant 0 <= k <= |alleles|
      invariant ScoreGroups(scores, alleles[k..], groups, validate) == ScoreGroups(map[], alleles, groups, validate)
    {
      assert alleles[k..][1..] == alleles[k + 1..];
      scores := ScoreGroupStep(scores, alleles[k], groups[alleles[k]], validate);
      k := k + 1;
    }
  }

  // ---------------------------------------------------------------------------
  // Annotating the rows (lines 120-124)
  // ---------------------------------------------------------------------------

  /** immunogenicity_scores.get((peptide, allele), "N/A"), as the cell the row receives. */
  function CellValue(scores: map<Key, Cell>, k: Key): (v: PyValue)
    ensures v == PyStr("N/A") <==> k !in scores
    ensures v == PyStr("Error") <==> k in scores && scores[k] == Failed
    ensures v.PyFloat? <==> k in scores && scores[k].Value?
  {
    if k !in scores then PyStr("N/A")
    else match scores[k]
      case Value(u) => PyFloat(u as real / 100000.0)
      case Failed => PyStr("Error")
  }

  function Annotated(rows: seq<CsvRow>, scores: map<Key, Cell>): (r: seq<CsvRow>)
    ensures |r| == |rows|
    ensures forall i :: 0 <= i < |rows| ==>
      r[i] == rows[i].(immunogenicity := CellValue(scores, (rows[i].peptide, rows[i].allele)))
  {
    seq(|rows|, i requires 0 <= i < |rows| => rows[i].(immunogenicity := CellValue(scores, (rows[i].peptide, rows[i].allele))))
  }

  method Annotate(rows: seq<CsvRow>, scores: map<Key, Cell>) returns (out: seq<CsvRow>)
    ensures out == Annotated(rows, scores)
  {
    out := rows;
    var k := 0;
    while k < |out|
      invariant 0 <= k <= |rows| && |out| == |rows|
      invariant forall i :: 0 <= i < k ==> out[i] == Annotated(rows, scores)[i]
      invariant forall i :: k <= i < |rows| ==> out[i] == rows[i]
    {
      var row := out[k];
      out := out[k := row.(immunogenicity := CellValue(scores, (row.peptide, row.allele)))];
      k := k + 1;
    }
  }

  // ---------------------------------------------------------------------------
  // The filter loop (lines 136-146)
  // ---------------------------------------------------------------------------

  /** Both values parse as floats, percentile_rank < 0.5 and immunogenicity > 0. */
  predicate Qualifies(row: CsvRow) {
    ToFloat(row.percentileRank).Ok? && ToFloat(row.immunogenicity).Ok? &&
    ToFloat(row.percentileRank).value < 0.5 && ToFloat(row.immunogenicity).value > 0.0
  }

  method FilterRows(rows: seq<CsvRow>) returns (filtered: seq<CsvRow>)
    ensures filtered == Filter(rows, Qualifies)
  {
    filtered := [];
    var k := 0;
    while k < |rows|
      invariant 0 <= k <= |rows|
      invariant filtered == Filter(rows[..k], Qualifies)
    {
      var row := rows[k];
      assert rows[..k + 1][..k] == rows[..k];
      k := k + 1;
      var pr := ToFloat(row.percentileRank);
      if pr.Err? {
        continue;
      }
      var imm := ToFloat(row.immunogenicity);
      if imm.Err? {
        continue;
      }
      if pr.value < 0.5 && imm.value > 0.0 {
        filtered := filtered + [row];
      }
    }
    assert rows[..k] == rows;
  }

  /** The filtered rows are the qualifying rows, in input order. */
  lemma FilterRowsSpec(rows: seq<CsvRow>)
    ensures IsSubsequence(Filter(rows, Qualifies), rows)
    ensures forall row :: row in Filter(rows, Qualifies) <==> row in rows && Qualifies(row)
  {
    FilterIsSubsequence(rows, Qualifies);
    FilterMembers(rows, Qualifies);
  }

  /** A row whose score is "Error" or "N/A" never passes the filter. */
  lemma UnscoredRowsDropped(row: CsvRow)
    requires row.immunogenicity == PyStr("Error") || row.immunogenicity == PyStr("N/A")
    ensures !Qualifies(row)
  {
    NonNumericText("Error");
    NonNumericText("N/A");
  }

  // ---------------------------------------------------------------------------
  // rank_peptides (lines 174-219)
  // ---------------------------------------------------------------------------

  /** The tuple (peptide, allele, composite, category, immunogenicity, percentile_rank, score). */
  datatype RankedRow = RankedRow(
    peptide: string, allele: string, composite: real, category: string,
    immunogenicity: real, percentileRank: real, score: real)

  /** The category names of this script; the last rung is "Non prioritario". */
  function CategoryName(c: Category): string {
    match c
    case Excellent => "Eccellente"
    case Good => "Buono"
    case Consider => "Da considerare"
    case Low => "Non prioritario"
  }

  /** The entry of one row: None when a value does not parse or immunogenicity <= 0. */
  function Entry(row: CsvRow): (r: Option<RankedRow>)
    ensures r.Some? ==> r.value.immunogenicity > 0.0
    ensures r.Some? <==> ToFloat(row.percentileRank).Ok? && ToFloat(row.score).Ok? && ToFloat(row.immunogenicity).Ok? && ToFloat(row.immunogenicity).value > 0.0
  {
    match (ToFloat(row.percentileRank), ToFloat(row.score), ToFloat(row.immunogenicity))
    case (Ok(pr), Ok(score), Ok(imm)) =>
      if imm <= 0.0 then None
      else Some(RankedRow(row.peptide, row.allele, Composite(imm, pr, score), CategoryName(Ladder(imm, pr, score)), imm, pr, score))
    case _ => None
  }

  /** The entries in row order. */
  function Entries(rows: seq<CsvRow>): (r: seq<RankedRow>)
    ensures |r| <= |rows|
  {
    if rows == [] then []
    else
      var e := Entry(rows[|rows| - 1]);
      Entries(rows[..|rows| - 1]) + (if e.Some? then [e.value] else [])
  }

  function CompositeKey(x: RankedRow): real {
    x.composite
  }

  /** rank_peptides: the entries, highest composite first, ties in row order. */
  function Ranked(rows: seq<CsvRow>): seq<RankedRow> {
    SortDesc(Entries(rows), CompositeKey)
  }

  method RankPeptides(rows: seq<CsvRow>) returns (ranked: seq<RankedRow>)
    ensures ranked == Ranked(rows)
  {
    var rankedPeptides: seq<RankedRow> := [];
    var k := 0;
    while k < |rows|
      invariant 0 <= k <= |rows|
      invariant rankedPeptides == Entries(rows[..k])
    {
      var row := rows[k];
      assert rows[..k + 1][..k] == rows[..k];
      k := k + 1;
      var entry := RankRow(row);
      if entry.Some? {
        rankedPeptides := rankedPeptides + [entry.value];
      }
    }
    assert rows[..k] == rows;
    ranked := SortDesc(rankedPeptides, CompositeKey);
  }

  /** One pass of the rank_peptides loop: the row's entry, or None where the loop continues. */
  method RankRow(row: CsvRow) returns (entry: Option<RankedRow>)
    ensures entry == Entry(row)
  {
    var pr := ToFloat(row.percentileRank);
    var score := ToFloat(row.score);
    var imm := ToFloat(row.immunogenicity);
    if pr.Err? || score.Err? || imm.Err? {
      return None;
    }
    if imm.value <= 0.0 {
      return None;
    }
    var composite := imm.value * 0.5 + (1.0 - pr.value / 100.0) * 0.3 + score.value * 0.2;
    var category: string;
    if imm.value > 0.3 && pr.value < 0.1 && score.value > 0.95 {
      category := "Eccellente";
    } else if imm.value > 0.0 && pr.value < 0.5 && score.value > 0.9 {
      category := "Buono";
    } else if imm.value > 0.0 && pr.value < 1.0 && score.value > 0.8 {
      category := "Da considerare";
    } else {
      category := "Non prioritario";
    }
    return Some(RankedRow(row.peptide, row.allele, composite, category, imm.value, pr.value, score.value));
  }

  /** Each entry comes from a row with its composite and its first-match category. */
  lemma {:induction false} EntriesMembers(rows: seq<CsvRow>, x: RankedRow)
    ensures x in Entries(rows) ==> exists i :: 0 <= i < |rows| && Entry(rows[i]) == Some(x)
    ensures x in Entries(rows) ==>
      x.immunogenicity > 0.0 &&
      x.composite == Composite(x.immunogenicity, x.percentileRank, x.score) &&
      x.category == CategoryName(Ladder(x.immunogenicity, x.percentileRank, x.score))
  {
    if rows != [] {
      var init := rows[..|rows| - 1];
      EntriesMembers(init, x);
      if x in Entries(init) {
        var i :| 0 <= i < |init| && Entry(init[i]) == Some(x);
        assert rows[i] == init[i];
      }
    }
  }

  /** A row whose every value parses and whose immunogenicity is positive is ranked. */
  lemma {:induction false} EntriesComplete(rows: seq<CsvRow>, i: nat)
    requires i < |rows| && Entry(rows[i]).Some?
    ensures Entry(rows[i]).value in Entries(rows)
  {
    var init := rows[..|rows| - 1];
    if i < |init| {
      assert init[i] == rows[i];
      EntriesComplete(init, i);
    }
  }

  /**
   * The ranking is sorted by composite, highest first; it is a permutation of
   * the entries, so every row with parsable values and a positive
   * immunogenicity appears and no other; entries with equal composites keep
   * their row order.
   */
  lemma RankedSpec(rows: seq<CsvRow>, v: real)
    ensures SortedDesc(Ranked(rows), CompositeKey)
    ensures multiset(Ranked(rows)) == multiset(Entries(rows))
    ensures forall x :: x in Ranked(rows) <==> x in Entries(rows)
    ensures Filter(Ranked(rows), KeyIs(CompositeKey, v)) == Filter(Entries(rows), KeyIs(CompositeKey, v))
  {
    var r := Ranked(rows);
    forall x
      ensures x in r <==> x in Entries(rows)
    {
      assert x in r <==> x in multiset(r);
    }
    SortDescStable(Entries(rows), CompositeKey, v);
  }

  // ---------------------------------------------------------------------------
  // The whole script, without its files
  // ---------------------------------------------------------------------------

  /** The annotated rows, the filtered rows and the ranking the script writes. */
  datatype Outcome = Outcome(annotated: seq<CsvRow>, filtered: seq<CsvRow>, ranked: seq<RankedRow>)

  /** The scores after every group has been processed. */
  function AllScores(rows: seq<CsvRow>, validate: Validator): map<Key, Cell> {
    var alleles := AllelesInOrder(rows);
    var groups := map a | a in alleles :: PeptidesOf(rows, a);
    ScoreGroups(map[], alleles, groups, validate)
  }

  /** The rows of the output CSV: each input row with its immunogenicity cell. */
  function AnnotatedRows(rows: seq<CsvRow>, validate: Validator): (r: seq<CsvRow>)
    ensures |r| == |rows|
  {
    Annotated(rows, AllScores(rows, validate))
  }

  /**
   * add_immunogenicity_scores: None when there are no rows, since rows[0]
   * raises IndexError before anything is written.
   */
  function AddImmunogenicityScores(rows: seq<CsvRow>, validate: Validator): (r: Option<Outcome>)
    ensures r.None? <==> rows == []
    ensures r.Some? ==> r.value.annotated == AnnotatedRows(rows, validate)
  {
    if rows == [] then None
    else
      var annotated := AnnotatedRows(rows, validate);
      Some(Outcome(annotated, Filter(annotated, Qualifies), Ranked(annotated)))
  }

  method AddImmunogenicityScoresRun(rows: seq<CsvRow>, validate: Validator) returns (r: Option<Outcome>)
    ensures r == AddImmunogenicityScores(rows, validate)
  {
    var alleles, groups := GroupByAllele(rows);
    assert groups == map a | a in AllelesInOrder(rows) :: PeptidesOf(rows, a);
    var scores := ScoreAllGroups(alleles, groups, validate);
    var annotated := Annotate(rows, scores);
    if |annotated| == 0 {
      return None;
    }
    var filtered := FilterRows(annotated);
    var ranked := RankPeptides(annotated);
    return Some(Outcome(annotated, filtered, ranked));
  }

  // ---------------------------------------------------------------------------
  // The cell each row receives
  // ---------------------------------------------------------------------------

  /** The entries of a score map under one allele. */
  function Own(m: map<Key, Cell>, a: string): (r: map<Key, Cell>)
    ensures forall k :: k in r <==> k in m && k.1 == a
    ensures forall k :: k in r ==> r[k] == m[k]
  {
    map k | k in m && k.1 == a :: m[k]
  }

  /** Storing under an allele's key keeps two maps that agree on that allele in agreement. */
  lemma OwnUpdate(s1: map<Key, Cell>, s2: map<Key, Cell>, a: string, k: Key, x: Cell)
    requires k.1 == a && Own(s1, a) == Own(s2, a)
    ensures Own(s1[k := x], a) == Own(s2[k := x], a)
  {
    var o1, o2 := Own(s1[k := x], a), Own(s2[k := x], a);
    forall j: Key | j.1 == a
      ensures (j in o1 <==> j in o2) && (j in o1 ==> o1[j] == o2[j])
    {
      if j != k {
        assert j in s1 <==> j in Own(s1, a);
        assert j in s2 <==> j in Own(s2, a);
        if j in s1 {
          assert s1[j] == Own(s1, a)[j] == Own(s2, a)[j] == s2[j];
        }
      }
    }
  }

  /** The scoring loop's effect on its allele's keys depends only on those keys. */
  lemma {:induction false} ScoreEachLocal(s1: map<Key, Cell>, s2: map<Key, Cell>, a: string, ps: seq<string>, mask: seq<int>)
    requires Own(s1, a) == Own(s2, a)
    ensures Own(ScoreEach(s1, a, ps, mask).0, a) == Own(ScoreEach(s2, a, ps, mask).0, a)
    ensures ScoreEach(s1, a, ps, mask).1 == ScoreEach(s2, a, ps, mask).1
    decreases |ps|
  {
    if ps != [] {
      var p := ps[0];
      match LookupScore(p, FullWeights(|p|), mask)
      case None =>
      case Some(x) =>
        OwnUpdate(s1, s2, a, (p, a), Value(x));
        ScoreEachLocal(s1[(p, a) := Value(x)], s2[(p, a) := Value(x)], a, ps[1..], mask);
    }
  }

  /** So does the except branch's. */
  lemma {:induction false} MarkFailedLocal(s1: map<Key, Cell>, s2: map<Key, Cell>, a: string, ps: seq<string>)
    requires Own(s1, a) == Own(s2, a)
    ensures Own(MarkFailed(s1, a, ps), a) == Own(MarkFailed(s2, a, ps), a)
    decreases |ps|
  {
    if ps != [] {
      OwnUpdate(s1, s2, a, (ps[0], a), Failed);
      MarkFailedLocal(s1[(ps[0], a) := Failed], s2[(ps[0], a) := Failed], a, ps[1..]);
    }
  }

  /** And a whole group's. */
  lemma ScoreGroupLocal(s1: map<Key, Cell>, s2: map<Key, Cell>, a: string, ps: seq<string>, validate: Validator)
    requires Own(s1, a) == Own(s2, a)
    ensures Own(ScoreGroup(s1, a, ps, validate), a) == Own(ScoreGroup(s2, a, ps, validate), a)
  {
    MarkFailedLocal(s1, s2, a, ps);
    var v := validate(NormalizeAllele(a), ps);
    if v.Some? && GroupMask(v.value).Some? {
      var mask := GroupMask(v.value).value;
      ScoreEachLocal(s1, s2, a, v.value.peptides, mask);
      MarkFailedLocal(ScoreEach(s1, a, v.value.peptides, mask).0, ScoreEach(s2, a, v.value.peptides, mask).0, a, ps);
    }
  }

  /** A group leaves the keys of every other allele as they were. */
  lemma ScoreGroupOther(s: map<Key, Cell>, b: string, ps: seq<string>, validate: Validator, a: string)
    requires b != a
    ensures Own(ScoreGroup(s, b, ps, validate), a) == Own(s, a)
  {
    ScoreGroupSpec(s, b, ps, validate);
    var m := ScoreGroup(s, b, ps, validate);
    assert OthersUnchanged(s, m, b);
    forall k: Key | k.1 == a
      ensures (k in m <==> k in s) && (k in s ==> m[k] == s[k])
    {
    }
  }

  /** Groups of other alleles leave an allele's keys as they were. */
  lemma {:induction false} ScoreGroupsAbsent(s: map<Key, Cell>, alleles: seq<string>, groups: map<string, seq<string>>, validate: Validator, a: string)
    requires forall b :: b in alleles ==> b in groups
    requires a !in alleles
    ensures Own(ScoreGroups(s, alleles, groups, validate), a) == Own(s, a)
    decreases |alleles|
  {
    if alleles != [] {
      var s1 := ScoreGroup(s, alleles[0], groups[alleles[0]], validate);
      ScoreGroupOther(s, alleles[0], groups[alleles[0]], validate, a);
      assert forall b :: b in alleles[1..] ==> b in alleles;
      ScoreGroupsAbsent(s1, alleles[1..], groups, validate, a);
    }
  }

  /** With distinct alleles, an allele's keys end as its own group alone leaves them. */
  lemma {:induction false} ScoreGroupsOwn(s: map<Key, Cell>, alleles: seq<string>, groups: map<string, seq<string>>, validate: Validator, a: string)
    requires forall b :: b in alleles ==> b in groups
    requires forall i, j :: 0 <= i < j < |alleles| ==> alleles[i] != alleles[j]
    requires a in alleles
    ensures Own(ScoreGroups(s, alleles, groups, validate), a) == Own(ScoreGroup(s, a, groups[a], validate), a)
    decreases |alleles|
  {
    var b, rest := alleles[0], alleles[1..];
    var s1 := ScoreGroup(s, b, groups[b], validate);
    assert forall c :: c in rest ==> c in alleles;
    if b == a {
      assert a !in rest;
      ScoreGroupsAbsent(s1, rest, groups, validate, a);
    } else {
      assert forall i, j :: 0 <= i < j < |rest| ==> rest[i] == alleles[i + 1] && rest[j] == alleles[j + 1];
      ScoreGroupsOwn(s1, rest, groups, validate, a);
      ScoreGroupOther(s, b, groups[b], validate, a);
      ScoreGroupLocal(s1, s, a, groups[a], validate);
    }
  }

  /** A row's peptide belongs to its allele's group. */
  lemma {:induction false} PeptideInGroup(rows: seq<CsvRow>, i: nat)
    requires i < |rows|
    ensures rows[i].peptide in PeptidesOf(rows, rows[i].allele)
  {
    var init := rows[..|rows| - 1];
    if i < |init| {
      assert init[i] == rows[i];
      PeptideInGroup(init, i);
    }
  }

  /** The scores of all groups agree, under an allele of the rows, with that group's scores alone. */
  lemma AllScoresOwn(rows: seq<CsvRow>, validate: Validator, a: string)
    requires HasAllele(rows, a)
    ensures Own(AllScores(rows, validate), a) == Own(ScoreGroup(map[], a, PeptidesOf(rows, a), validate), a)
  {
    var alleles := AllelesInOrder(rows);
    var groups := map b | b in alleles :: PeptidesOf(rows, b);
    AllelesInOrderMembers(rows, a);
    ScoreGroupsOwn(map[], alleles, groups, validate, a);
  }

  /** The cell of a key depends only on the entries under the key's allele. */
  lemma CellValueOwn(m1: map<Key, Cell>, m2: map<Key, Cell>, k: Key)
    requires Own(m1, k.1) == Own(m2, k.1)
    ensures CellValue(m1, k) == CellValue(m2, k)
  {
    assert k in m1 <==> k in Own(m1, k.1);
    assert k in m2 <==> k in Own(m2, k.1);
    if k in m1 {
      assert m1[k] == Own(m1, k.1)[k];
    }
  }

  /** Every annotated row carries the outcome of its own allele's group for its peptide. */
  lemma AnnotatedCell(rows: seq<CsvRow>, validate: Validator, i: nat)
    requires i < |rows|
    ensures AnnotatedRows(rows, validate)[i] ==
      rows[i].(immunogenicity := CellValue(ScoreGroup(map[], rows[i].allele, PeptidesOf(rows, rows[i].allele), validate),
                                           (rows[i].peptide, rows[i].allele)))
  {
    var a := rows[i].allele;
    AllScoresOwn(rows, validate, a);
    CellValueOwn(AllScores(rows, validate), ScoreGroup(map[], a, PeptidesOf(rows, a), validate), (rows[i].peptide, a));
  }

  /**
   * The cell one group gives a peptide of the group: its score when
   * validation, the mask and every score succeed and the peptide was
   * validated unchanged; "N/A" when it succeeds but the peptide is not among
   * the validated ones; "Error" when the group fails.
   */
  lemma GroupCell(a: string, ps: seq<string>, validate: Validator, v: Option<Validated>, p: string)
    requires p in ps && v == validate(NormalizeAllele(a), ps)
    ensures GroupSucceeds(v) && p in v.value.peptides ==>
      ScorableUnder(p, GroupMask(v.value).value, |p|) &&
      CellValue(ScoreGroup(map[], a, ps, validate), (p, a)) == PyFloat(UnitsOf(p, GroupMask(v.value).value) as real / 100000.0)
    ensures GroupSucceeds(v) && p !in v.value.peptides ==>
      CellValue(ScoreGroup(map[], a, ps, validate), (p, a)) == PyStr("N/A")
    ensures !GroupSucceeds(v) ==>
      CellValue(ScoreGroup(map[], a, ps, validate), (p, a)) == PyStr("Error")
  {
    ScoreGroupSpec(map[], a, ps, validate);
    var j :| 0 <= j < |ps| && ps[j] == p;
    if GroupSucceeds(v) {
      var mask := GroupMask(v.value).value;
      ScoreEachSpec(map[], a, v.value.peptides, mask);
      if p in v.value.peptides {
        var k :| 0 <= k < |v.value.peptides| && v.value.peptides[k] == p;
        assert ScorableUnder(v.value.peptides[k], mask, |v.value.peptides[k]|);
      }
    }
  }

  /**
   * The three outcomes of a row of the output CSV: the score of its peptide
   * when its allele's group validates, has a mask and scores every peptide,
   * and validation kept the peptide as written; "N/A" when the group succeeds
   * without that peptide; "Error" when the group fails.
   */
  lemma AnnotatedCellCases(rows: seq<CsvRow>, validate: Validator, i: nat, ps: seq<string>, v: Option<Validated>)
    requires i < |rows|
    requires ps == PeptidesOf(rows, rows[i].allele) && v == validate(NormalizeAllele(rows[i].allele), ps)
    ensures GroupSucceeds(v) && rows[i].peptide in v.value.peptides ==>
      ScorableUnder(rows[i].peptide, GroupMask(v.value).value, |rows[i].peptide|) &&
      AnnotatedRows(rows, validate)[i].immunogenicity == PyFloat(UnitsOf(rows[i].peptide, GroupMask(v.value).value) as real / 100000.0)
    ensures GroupSucceeds(v) && rows[i].peptide !in v.value.peptides ==>
      AnnotatedRows(rows, validate)[i].immunogenicity == PyStr("N/A")
    ensures !GroupSucceeds(v) ==>
      AnnotatedRows(rows, validate)[i].immunogenicity == PyStr("Error")
  {
    AnnotatedCell(rows, validate, i);
    PeptideInGroup(rows, i);
    GroupCell(rows[i].allele, ps, validate, v, rows[i].peptide);
  }
}

=== FILE: alleles.dfy ===
/** Normalisation of allele names to the keys of the anchor table. */
module Alleles {
  import opened Wrappers
  import opened Tables
  import opened AnchorTable

  /** allele.replace("*", "").replace(":", ""). */
  function NormalizeAllele(a: string): (r: string)
    ensures |r| <= |a|
    ensures '*' !in r && ':' !in r
  {
    if a == [] then []
    else (if a[0] == '*' || a[0] == ':' then [] else [a[0]]) + NormalizeAllele(a[1..])
  }

  /** Normalising twice is normalising once. */
  lemma {:induction false} NormalizeAlleleIdempotent(a: string)
    ensures NormalizeAllele(NormalizeAllele(a)) == NormalizeAllele(a)
  {
    if a != [] {
      NormalizeAlleleIdempotent(a[1..]);
      var rest := NormalizeAllele(a[1..]);
      if a[0] == '*' || a[0] == ':' {
        assert NormalizeAllele(a) == rest;
      } else {
        assert NormalizeAllele(a) == [a[0]] + rest;
        assert ([a[0]] + rest)[1..] == rest;
      }
    }
  }

  /** A name with no '*' and no ':' is left as it is. */
  lemma {:induction false} KeepsPlainNames(a: string)
    requires '*' !in a && ':' !in a
    ensures NormalizeAllele(a) == a
  {
    if a != [] {
      KeepsPlainNames(a[1..]);
      assert [a[0]] + a[1..] == a;
    }
  }

  /** Normalisation works character by character, so it distributes over concatenation. */
  lemma {:induction false} NormalizeAlleleAppend(a: string, b: string)
    ensures NormalizeAllele(a + b) == NormalizeAllele(a) + NormalizeAllele(b)
  {
    if a == [] {
      assert a + b == b;
    } else {
      assert (a + b)[0] == a[0];
      assert (a + b)[1..] == a[1..] + b;
      NormalizeAlleleAppend(a[1..], b);
    }
  }

  /**
   * The mask of the normalising scorers (gui.py, mhc.py): the table entry of
   * the normalised allele, made 0-based, when there is one; otherwise the
   * first, second and last position.
   */
  function NormalizedMask(allele: Option<string>, n: nat): seq<int> {
    if Truthy(allele) && NormalizeAllele(allele.value) in AlleleTable
    then ZeroBased(AlleleTable[NormalizeAllele(allele.value)])
    else DefaultMask(n)
  }

  /** Normalising the allele first does not change the mask. */
  lemma NormalizedMaskOfNormalized(a: string, n: nat)
    ensures NormalizedMask(Some(NormalizeAllele(a)), n) == NormalizedMask(Some(a), n)
  {
    NormalizeAlleleIdempotent(a);
    EmptyNotAllele();
  }
}

=== FILE: combined.dfy ===
/**
 * peptide_analysis/combined_result.py: the CombinedResult record with its
 * composite score and category, its dictionary form, and
 * add_immunogenicity_scores, which joins binding results with immunogenicity.
 */
module Combined {
  import opened Wrappers
  import opened PyText
  import opened Tables
  import opened Alleles
  import opened Scoring
  import opened Seqs
  import opened Ranking
  import opened Immunogenicity
  import Gui

  // ---------------------------------------------------------------------------
  // CombinedResult (lines 17-77)
  // ---------------------------------------------------------------------------

  /**
   * A CombinedResult.  Its fields are set once, by the constructor, so it is
   * a value; the composite is rounded to four decimals.
   */
  datatype CombinedResult = CombinedResult(
    peptide: string, allele: string, bindingScore: real, percentileRank: real,
    immunogenicityScore: Option<real>, compositeScore: Option<real>, category: string)

  /** The category names of this class; the last rung is "Da scartare". */
  function CategoryLabel(c: Category): string {
    match c
    case Excellent => "Eccellente"
    case Good => "Buono"
    case Consider => "Da considerare"
    case Low => "Da scartare"
  }

  /** _calculate_composite_score: None without an immunogenicity score. */
  function CompositeOf(imm: Option<real>, pr: real, bindingScore: real): (r: Option<real>)
    ensures r.None? <==> imm.None?
    ensures imm.Some? ==> -0.00005 <= r.value - Composite(imm.value, pr, bindingScore) <= 0.00005
  {
    match imm
    case None => None
    case Some(i) => Some(Round4(Composite(i, pr, bindingScore)))
  }

  /** _determine_category: "Non determinato" without an immunogenicity score. */
  function CategoryOf(imm: Option<real>, pr: real, bindingScore: real): (c: string)
    ensures c == "Non determinato" <==> imm.None?
    ensures imm.Some? ==> c == CategoryLabel(Ladder(imm.value, pr, bindingScore))
  {
    match imm
    case None => "Non determinato"
    case Some(i) => CategoryLabel(Ladder(i, pr, bindingScore))
  }

  /** The constructor: the five given fields, the composite and the category derived from them. */
  function MakeCombined(peptide: string, allele: string, bindingScore: real, percentileRank: real, imm: Option<real>): (r: CombinedResult)
    ensures Consistent(r)
  {
    CombinedResult(peptide, allele, bindingScore, percentileRank, imm,
      CompositeOf(imm, percentileRank, bindingScore), CategoryOf(imm, percentileRank, bindingScore))
  }

  /** The record the constructor makes from its own five fields. */
  predicate Consistent(r: CombinedResult) {
    r.compositeScore == CompositeOf(r.immunogenicityScore, r.percentileRank, r.bindingScore) &&
    r.category == CategoryOf(r.immunogenicityScore, r.percentileRank, r.bindingScore)
  }

  /**
   * The composite is None, and the category "Non determinato", exactly when
   * the immunogenicity score is None; a peptide in a higher band never has a
   * lower rung.
   */
  lemma CombinedSpec(r: CombinedResult)
    requires Consistent(r)
    ensures r.compositeScore.None? <==> r.category == "Non determinato"
    ensures r.compositeScore.None? <==> r.immunogenicityScore.None?
    ensures r.immunogenicityScore.Some? && r.immunogenicityScore.value <= 0.0 ==> r.category == "Da scartare"
  {
  }

  // ---------------------------------------------------------------------------
  // to_dict / from_dict (lines 79-126)
  // ---------------------------------------------------------------------------

  type Dict = map<string, PyValue>

  function OptionalFloat(x: Option<real>): PyValue {
    if x.Some? then PyFloat(x.value) else PyNone
  }

  function ToDict(r: CombinedResult): (d: Dict)
    ensures d.Keys == {"peptide", "allele", "score", "percentile_rank", "immunogenicity_score", "punteggio_composito", "categoria"}
  {
    map[
      "peptide" := PyStr(r.peptide),
      "allele" := PyStr(r.allele),
      "score" := PyFloat(r.bindingScore),
      "percentile_rank" := PyFloat(r.percentileRank),
      "immunogenicity_score" := OptionalFloat(r.immunogenicityScore),
      "punteggio_composito" := OptionalFloat(r.compositeScore),
      "categoria" := PyStr(r.category)]
  }

  /** A number as the arithmetic of the class sees it. */
  function AsNumber(v: PyValue): Option<real> {
    match v
    case PyInt(i) => Some(i as real)
    case PyFloat(x) => Some(x)
    case _ => None
  }

  /** data.get('immunogenicity_score'): None when the key is missing or its value is None. */
  function OptionalNumber(d: Dict, key: string): Option<Option<real>> {
    if key !in d || d[key] == PyNone then Some(None)
    else match AsNumber(d[key])
      case Some(x) => Some(Some(x))
      case None => None
  }

  /**
   * from_dict: None where a required key is missing (KeyError) or a value is
   * not of the type the record holds.
   */
  function FromDict(d: Dict): (r: Option<CombinedResult>)
    ensures r.Some? ==> Consistent(r.value)
    ensures r.Some? ==> "peptide" in d && d["peptide"] == PyStr(r.value.peptide)
    ensures r.Some? ==> "allele" in d && d["allele"] == PyStr(r.value.allele)
  {
    if "peptide" !in d || "allele" !in d || "score" !in d || "percentile_rank" !in d then None
    else if !d["peptide"].PyStr? || !d["allele"].PyStr? then None
    else match (AsNumber(d["score"]), AsNumber(d["percentile_rank"]), OptionalNumber(d, "immunogenicity_score"))
      case (Some(bs), Some(pr), Some(imm)) => Some(MakeCombined(d["peptide"].s, d["allele"].s, bs, pr, imm))
      case _ => None
  }

  /**
   * from_dict(to_dict(r)) reproduces r: the five stored fields come back, and
   * with them the same composite and category.
   */
  lemma DictRoundTrip(r: CombinedResult)
    requires Consistent(r)
    ensures FromDict(ToDict(r)) == Some(r)
  {
    var d := ToDict(r);
    assert d["peptide"] == PyStr(r.peptide);
    assert d["allele"] == PyStr(r.allele);
    assert d["score"] == PyFloat(r.bindingScore);
    assert d["percentile_rank"] == PyFloat(r.percentileRank);
    assert d["immunogenicity_score"] == OptionalFloat(r.immunogenicityScore);
  }

  /** from_results_list: None when one of the dictionaries fails. */
  function FromResultsList(l: seq<Dict>): (r: Option<seq<CombinedResult>>)
    ensures r.Some? ==> |r.value| == |l| && forall i :: 0 <= i < |l| ==> FromDict(l[i]) == Some(r.value[i])
  {
    if l == [] then Some([])
    else match (FromResultsList(l[..|l| - 1]), FromDict(l[|l| - 1]))
      case (Some(init), Some(last)) => Some(init + [last])
      case _ => None
  }

  function Dicts(s: seq<CombinedResult>): (d: seq<Dict>)
    ensures |d| == |s| && forall i :: 0 <= i < |s| ==> d[i] == ToDict(s[i])
  {
    seq(|s|, i requires 0 <= i < |s| => ToDict(s[i]))
  }

  /** A list of records survives to_dict and from_results_list. */
  lemma ResultsListRoundTrip(s: seq<CombinedResult>)
    requires forall i :: 0 <= i < |s| ==> Consistent(s[i])
    ensures FromResultsList(Dicts(s)) == Some(s)
  {
    var d := Dicts(s);
    forall i | 0 <= i < |s|
      ensures FromDict(d[i]) == Some(s[i])
    {
      DictRoundTrip(s[i]);
    }
    FromResultsListAll(d, s);
  }

  /** When every dictionary converts, the list converts to those records, in order. */
  lemma {:induction false} FromResultsListAll(l: seq<Dict>, s: seq<CombinedResult>)
    requires |l| == |s| && forall i :: 0 <= i < |l| ==> FromDict(l[i]) == Some(s[i])
    ensures FromResultsList(l) == Some(s)
  {
    if l != [] {
      var n := |l| - 1;
      FromResultsListAll(l[..n], s[..n]);
      assert FromDict(l[n]) == Some(s[n]);
      assert s[..n] + [s[n]] == s;
    }
  }

  // ---------------------------------------------------------------------------
  // add_immunogenicity_scores (lines 129-210)
  // ---------------------------------------------------------------------------

  /** The fields of a binding result the method reads. */
  datatype BindingResult = BindingResult(peptide: string, allele: string, score: real, percentileRank: real)

  /** A score in 1e-5 units as the float round(score, 5) holds. */
  function Units(u: int): real {
    u as real / 100000.0
  }

  /** {r['peptide']: r['score'] for r in immuno_results}: a later entry wins. */
  function ScoreMap(preds: seq<Prediction>): (m: map<string, int>)
    ensures forall p :: p in m <==> exists i :: 0 <= i < |preds| && preds[i].peptide == p
  {
    if preds == [] then map[]
    else
      var init := preds[..|preds| - 1];
      var m := ScoreMap(init);
      assert forall i :: 0 <= i < |init| ==> init[i] == preds[i];
      m[preds[|preds| - 1].peptide := preds[|preds| - 1].score]
  }

  /**
   * The generic scores, predicted for the distinct peptides in the order
   * list(set(...)) gives them, an order Python does not fix.
   */
  function GenericScores(unique: seq<string>): map<string, int> {
    ScoreMap(Predict(unique, None, None))
  }

  /**
   * The immunogenicity of one result: the allele-specific prediction of the
   * peptide alone, else the generic score of the peptide, else None.
   */
  function ImmunogenicityOf(peptide: string, allele: string, generic: map<string, int>): Option<real> {
    var specific := Predict([peptide], None, Some(NormalizeAllele(allele)));
    if specific != [] then Some(Units(specific[0].score))
    else if peptide in generic then Some(Units(generic[peptide]))
    else None
  }

  /** The record built for one binding result. */
  function RecordOf(r: BindingResult, generic: map<string, int>): CombinedResult {
    MakeCombined(r.peptide, r.allele, r.score, r.percentileRank, ImmunogenicityOf(r.peptide, r.allele, generic))
  }

  function Records(results: seq<BindingResult>, generic: map<string, int>): (r: seq<CombinedResult>)
    ensures |r| == |results|
  {
    MapSeq((r: BindingResult) => RecordOf(r, generic), results)
  }

  lemma RecordsSnoc(results: seq<BindingResult>, generic: map<string, int>, k: nat)
    requires k < |results|
    ensures Records(results[..k + 1], generic) == Records(results[..k], generic) + [RecordOf(results[k], generic)]
  {
    MapSeqSnoc((r: BindingResult) => RecordOf(r, generic), results, k);
  }

  /** The i-th record is built from the i-th result. */
  lemma RecordsPointwise(results: seq<BindingResult>, generic: map<string, int>, i: nat)
    requires i < |results|
    ensures Records(results, generic)[i] == RecordOf(results[i], generic)
  {
    MapSeqPointwise((r: BindingResult) => RecordOf(r, generic), results, i);
  }

  /** The filtered records: an immunogenicity score above 0 and a percentile rank below 0.5. */
  predicate Passes(r: CombinedResult) {
    r.immunogenicityScore.Some? && r.immunogenicityScore.value > 0.0 && r.percentileRank < 0.5
  }

  predicate HasComposite(r: CombinedResult) {
    r.compositeScore.Some?
  }

  /** The sort key x['punteggio_composito'], read on records that have a composite. */
  function CompositeKey(r: CombinedResult): real {
    if r.compositeScore.Some? then r.compositeScore.value else 0.0
  }

  /** The three lists the method returns. */
  datatype CombinedOutcome = CombinedOutcome(withImmunogenicity: seq<Dict>, filtered: seq<Dict>, ranked: seq<Dict>)

  /**
   * add_immunogenicity_scores.  The ranked list sorts the records and then
   * converts them, where the program converts and then sorts; the key of a
   * record and of its dictionary are the same composite.
   */
  function AddImmunogenicityScores(results: seq<BindingResult>, unique: seq<string>): CombinedOutcome {
    var records := Records(results, GenericScores(unique));
    CombinedOutcome(
      Dicts(records),
      Dicts(Filter(records, Passes)),
      Dicts(SortDesc(Filter(records, HasComposite), CompositeKey)))
  }

  /** A peptide of residues is its own cleaned form. */
  lemma CleanOfResidues(p: string)
    requires AllResidues(p)
    ensures Clean(p) == p
  {
    if p != [] {
      ResidueIsCapital(p[0]);
      ResidueIsCapital(p[|p| - 1]);
    }
    StripUnchanged(p);
    Gui.UpperOfResidues(p);
  }

  /** The validation of a single peptide keeps its cleaned form exactly when that holds only residues. */
  lemma SingleValidated(p: string)
    ensures ValidPeptides([p]) == if AllResidues(Clean(p)) then [Clean(p)] else []
  {
    assert Cleaned([p]) == [Clean(p)];
    assert Cleaned([p])[..0] == [];
  }

  /**
   * The generic fallback never applies: when the allele-specific prediction
   * of a peptide is empty, the peptide is not a valid peptide, and the keys
   * of the generic scores are all valid cleaned peptides.
   */
  lemma FallbackNeverApplies(peptide: string, allele: string, unique: seq<string>)
    requires Predict([peptide], None, Some(NormalizeAllele(allele))) == []
    ensures peptide !in GenericScores(unique)
  {
    PredictSpec([peptide], None, Some(NormalizeAllele(allele)));
    SingleValidated(peptide);
    var preds := Predict(unique, None, None);
    PredictSpec(unique, None, None);
    if peptide in GenericScores(unique) {
      var i :| 0 <= i < |preds| && preds[i].peptide == peptide;
      assert preds[i] in preds;
      assert AllResidues(peptide);
      CleanOfResidues(peptide);
      assert false;
    }
  }

  /** The mask validate_peptides settles on for one peptide and an allele. */
  function SpecificMask(peptide: string, allele: string): Option<string> {
    Validate([peptide], None, Some(NormalizeAllele(allele))).customMask
  }

  /** The allele-specific prediction holds the cleaned peptide alone when it is valid, nothing otherwise. */
  lemma SpecificPrediction(peptide: string, allele: string)
    ensures Predict([peptide], None, Some(NormalizeAllele(allele))) ==
      if AllResidues(Clean(peptide)) then [PredictionOf(Clean(peptide), SpecificMask(peptide, allele))] else []
  {
    SinglePrediction(peptide, Some(NormalizeAllele(allele)));
  }

  /** The prediction of a one-peptide list under any allele argument. */
  lemma SinglePrediction(peptide: string, a: Option<string>)
    ensures Predict([peptide], None, a) ==
      if AllResidues(Clean(peptide)) then [PredictionOf(Clean(peptide), Validate([peptide], None, a).customMask)] else []
  {
    PredictSpec([peptide], None, a);
    SingleValidated(peptide);
    AtMostOnePrediction(Predict([peptide], None, a), ValidPeptides([peptide]),
      Validate([peptide], None, a).customMask, Clean(peptide), AllResidues(Clean(peptide)));
  }

  /** Predictions, one per valid peptide, of a list holding at most the one peptide c. */
  lemma AtMostOnePrediction(r: seq<Prediction>, valid: seq<string>, m: Option<string>, c: string, kept: bool)
    requires valid == if kept then [c] else []
    requires |r| == |valid|
    requires forall x :: x in r ==> x.peptide in valid && x == PredictionOf(x.peptide, m)
    ensures r == if kept then [PredictionOf(c, m)] else []
  {
    if kept {
      assert r[0] in r;
      assert r == [r[0]];
    }
  }

  /**
   * The immunogenicity of a result is the score of its cleaned peptide under
   * the mask its allele selects, and is None exactly when the cleaned peptide
   * holds a symbol outside the scale.
   */
  lemma ImmunogenicityOfSpec(peptide: string, allele: string, unique: seq<string>)
    ensures ImmunogenicityOf(peptide, allele, GenericScores(unique)) ==
      if AllResidues(Clean(peptide)) then Some(Units(PredictionOf(Clean(peptide), SpecificMask(peptide, allele)).score))
      else None
  {
    SpecificPrediction(peptide, allele);
    if !AllResidues(Clean(peptide)) {
      FallbackNeverApplies(peptide, allele, unique);
    }
  }

  /** The order of the distinct peptides does not change anything the method returns. */
  lemma UniqueOrderIrrelevant(results: seq<BindingResult>, u1: seq<string>, u2: seq<string>)
    ensures AddImmunogenicityScores(results, u1) == AddImmunogenicityScores(results, u2)
  {
    var r1, r2 := Records(results, GenericScores(u1)), Records(results, GenericScores(u2));
    forall i | 0 <= i < |results|
      ensures r1[i] == r2[i]
    {
      RecordsPointwise(results, GenericScores(u1), i);
      RecordsPointwise(results, GenericScores(u2), i);
      ImmunogenicityOfSpec(results[i].peptide, results[i].allele, u1);
      ImmunogenicityOfSpec(results[i].peptide, results[i].allele, u2);
    }
    assert r1 == r2;
  }

  /** A record keeps the fields of its binding result. */
  lemma RecordFields(r: BindingResult, generic: map<string, int>)
    ensures var c := RecordOf(r, generic);
      c.peptide == r.peptide && c.allele == r.allele && c.bindingScore == r.score && c.percentileRank == r.percentileRank
  {
  }

  /** The dictionary of a record holds its fields under their keys. */
  lemma DictFields(c: CombinedResult)
    ensures ToDict(c)["peptide"] == PyStr(c.peptide) && ToDict(c)["allele"] == PyStr(c.allele)
    ensures ToDict(c)["score"] == PyFloat(c.bindingScore) && ToDict(c)["percentile_rank"] == PyFloat(c.percentileRank)
  {
  }

  /** One dictionary per result, in order, carrying its peptide, allele, score and rank. */
  lemma WithImmunogenicitySpec(results: seq<BindingResult>, unique: seq<string>)
    ensures var out := AddImmunogenicityScores(results, unique).withImmunogenicity;
      |out| == |results| &&
      forall i :: 0 <= i < |results| ==>
        out[i]["peptide"] == PyStr(results[i].peptide) && out[i]["allele"] == PyStr(results[i].allele) &&
        out[i]["score"] == PyFloat(results[i].score) && out[i]["percentile_rank"] == PyFloat(results[i].percentileRank)
  {
    var records := Records(results, GenericScores(unique));
    var out := Dicts(records);
    forall i | 0 <= i < |results|
      ensures out[i]["peptide"] == PyStr(results[i].peptide) && out[i]["allele"] == PyStr(results[i].allele)
      ensures out[i]["score"] == PyFloat(results[i].score) && out[i]["percentile_rank"] == PyFloat(results[i].percentileRank)
    {
      assert out[i] == ToDict(records[i]);
      RecordsPointwise(results, GenericScores(unique), i);
      RecordFields(results[i], GenericScores(unique));
      DictFields(records[i]);
    }
  }

  /** The filtered records are exactly those that pass, in their order. */
  lemma FilteredSpec(records: seq<CombinedResult>)
    ensures IsSubsequence(Filter(records, Passes), records)
    ensures forall x :: x in Filter(records, Passes) <==> x in records && Passes(x)
  {
    FilterIsSubsequence(records, Passes);
    FilterMembers(records, Passes);
  }

  /** The ranking holds exactly the records with a composite, highest first, ties in their order. */
  lemma RankedSpec(records: seq<CombinedResult>, v: real)
    ensures SortedDesc(SortDesc(Filter(records, HasComposite), CompositeKey), CompositeKey)
    ensures multiset(SortDesc(Filter(records, HasComposite), CompositeKey)) == multiset(Filter(records, HasComposite))
    ensures forall x :: x in SortDesc(Filter(records, HasComposite), CompositeKey) <==> x in records && x.compositeScore.Some?
    ensures Filter(SortDesc(Filter(records, HasComposite), CompositeKey), KeyIs(CompositeKey, v))
         == Filter(Filter(records, HasComposite), KeyIs(CompositeKey, v))
  {
    FilterMembers(records, HasComposite);
    var ranked := SortDesc(Filter(records, HasComposite), CompositeKey);
    forall x
      ensures x in ranked <==> x in Filter(records, HasComposite)
    {
      assert x in ranked <==> x in multiset(ranked);
    }
    SortDescStable(Filter(records, HasComposite), CompositeKey, v);
  }

  /** A filtered record always has a composite, so it is also ranked. */
  lemma FilteredAreRanked(r: CombinedResult)
    requires Consistent(r) && Passes(r)
    ensures HasComposite(r)
  {
  }

  /** The score of one result: the allele-specific prediction, else the generic score. */
  method ImmunogenicityStep(peptide: string, allele: string, immunoScores: map<string, int>) returns (score: Option<real>)
    ensures score == ImmunogenicityOf(peptide, allele, immunoScores)
  {
    var alleleClean := NormalizeAllele(allele);
    var alleleSpecific := PredictImmunogenicity([peptide], None, Some(alleleClean));
    if alleleSpecific != [] {
      score := Some(Units(alleleSpecific[0].score));
    } else if peptide in immunoScores {
      score := Some(Units(immunoScores[peptide]));
    } else {
      score := None;
    }
  }

  /** The CombinedResult of one result. */
  method RecordStep(r: BindingResult, immunoScores: map<string, int>) returns (combined: CombinedResult)
    ensures combined == RecordOf(r, immunoScores)
  {
    var immunogenicityScore := ImmunogenicityStep(r.peptide, r.allele, immunoScores);
    combined := MakeCombined(r.peptide, r.allele, r.score, r.percentileRank, immunogenicityScore);
  }

  /** immuno_scores: the generic predictions of the distinct peptides, by peptide. */
  method GenericStep(unique: seq<string>) returns (immunoScores: map<string, int>)
    ensures immunoScores == GenericScores(unique)
  {
    var immunoResults := PredictImmunogenicity(unique, None, None);
    immunoScores := ScoreMap(immunoResults);
  }

  /** The loop that builds combined_results. */
  method BuildRecords(results: seq<BindingResult>, immunoScores: map<string, int>) returns (combinedResults: seq<CombinedResult>)
    ensures combinedResults == Records(results, immunoScores)
  {
    combinedResults := [];
    var k := 0;
    while k < |results|
      invariant 0 <= k <= |results|
      invariant combinedResults == Records(results[..k], immunoScores)
    {
      var combined := RecordStep(results[k], immunoScores);
      RecordsSnoc(results, immunoScores, k);
      combinedResults := combinedResults + [combined];
      k := k + 1;
    }
    assert results[..k] == results;
  }

  method AddImmunogenicityScoresRun(results: seq<BindingResult>, unique: seq<string>) returns (out: CombinedOutcome)
    ensures out == AddImmunogenicityScores(results, unique)
  {
    var immunoScores := GenericStep(unique);
    var combinedResults := BuildRecords(results, immunoScores);
    var resultsWithImmuno := Dicts(combinedResults);
    var filteredResults := Dicts(Filter(combinedResults, Passes));
    var rankedResults := Dicts(SortDesc(Filter(combinedResults, HasComposite), CompositeKey));
    return CombinedOutcome(resultsWithImmuno, filteredResults, rankedResults);
  }
}

=== FILE: core.dfy ===
/**
 * The computational core of mhci_binding_predictor/core.py's
 * IEDBBindingPredictor: the separator settings, isint, the scorer with a
 * verbatim allele lookup and a custom mask, the threshold filter and the
 * recursive variant generator.
 */
module Core {
  import opened Wrappers
  import opened PyText
  import opened Tables
  import opened AnchorTable
  import opened Alleles
  import opened Scoring
  import opened Patterns
  import opened Seqs
  import opened Frames
  import Gui

  // ---------------------------------------------------------------------------
  // __init__ and set_csv_format: the CSV settings
  // ---------------------------------------------------------------------------

  predicate ValidCsvSeparator(s: string) { s == "," || s == ";" }
  predicate ValidDecimalSeparator(s: string) { s == "." || s == "," }

  /** The CSV settings of a predictor; the output directory and method are not modelled. */
  class Predictor {
    var csvSeparator: string
    var decimalSeparator: string

    predicate Valid()
      reads this
    {
      ValidCsvSeparator(csvSeparator) && ValidDecimalSeparator(decimalSeparator)
    }

    /** An invalid separator falls back to "," and an invalid decimal separator to ".". */
    constructor (csv: string, decimal: string)
      ensures Valid()
      ensures csvSeparator == (if ValidCsvSeparator(csv) then csv else ",")
      ensures decimalSeparator == (if ValidDecimalSeparator(decimal) then decimal else ".")
    {
      if csv == "," || csv == ";" {
        csvSeparator := csv;
      } else {
        csvSeparator := ",";
      }
      if decimal == "." || decimal == "," {
        decimalSeparator := decimal;
      } else {
        decimalSeparator := ".";
      }
    }

    /** A supplied valid value replaces the setting; None or an invalid value keeps it. */
    method SetCsvFormat(csv: Option<string>, decimal: Option<string>)
      requires Valid()
      modifies this
      ensures Valid()
      ensures csvSeparator == (if csv.Some? && ValidCsvSeparator(csv.value) then csv.value else old(csvSeparator))
      ensures decimalSeparator == (if decimal.Some? && ValidDecimalSeparator(decimal.value) then decimal.value else old(decimalSeparator))
    {
      if csv.Some? {
        if csv.value == "," || csv.value == ";" {
          csvSeparator := csv.value;
        }
      }
      if decimal.Some? {
        if decimal.value == "." || decimal.value == "," {
          decimalSeparator := decimal.value;
        }
      }
    }
  }

  // ---------------------------------------------------------------------------
  // isint
  // ---------------------------------------------------------------------------

  /** isint: True when int(value) succeeds, False on ValueError; the TypeError of int(None) propagates. */
  function IsInt(value: PyValue): (r: Result<bool, PyError>)
    ensures r == Ok(true) <==> ToInt(value).Ok?
    ensures r == Ok(false) <==> ToInt(value) == Err(ValueError)
    ensures r.Err? <==> value.PyNone?
  {
    match ToInt(value)
    case Ok(_) => Ok(true)
    case Err(ValueError) => Ok(false)
    case Err(TypeError) => Err(TypeError)
  }

  /** The text of any integer is an integer; so is any number. */
  lemma IsIntOfFormatted(k: int, x: real)
    ensures IsInt(PyStr(FormatInt(k))) == Ok(true)
    ensures IsInt(PyInt(k)) == Ok(true) && IsInt(PyFloat(x)) == Ok(true)
  {
    FormatIntParses(k);
  }

  // ---------------------------------------------------------------------------
  // calculate_immunogenicity_score
  // ---------------------------------------------------------------------------

  /**
   * The mask: the table entry when the allele is a key as given (no
   * normalisation), else the parsed custom mask, else the default; a custom
   * mask entry that is not an integer raises ValueError.
   */
  function CoreMask(n: nat, customMask: Option<string>, allele: Option<string>): Result<seq<int>, PyError> {
    if Truthy(allele) && allele.value in AlleleTable then Ok(ZeroBased(AlleleTable[allele.value]))
    else if Truthy(customMask) then
      match ParseIntList(customMask.value)
      case Some(l) => Ok(ZeroBased(l))
      case None => Err(ValueError)
    else Ok(DefaultMask(n))
  }

  /** The score calculate_immunogenicity_score returns or the error it raises. */
  function CoreScore(peptide: string, customMask: Option<string>, allele: Option<string>): Result<int, PyError> {
    var p := Upper(peptide);
    match CoreMask(|p|, customMask, allele)
    case Ok(mask) => Ok(Score(p, FullWeights(|p|), mask))
    case Err(e) => Err(e)
  }

  method CalculateImmunogenicityScore(peptide: string, customMask: Option<string>, allele: Option<string>)
    returns (r: Result<int, PyError>)
    ensures r == CoreScore(peptide, customMask, allele)
  {
    var p := Upper(peptide);
    var peplen := |p|;
    var mask := CoreMaskNum(peplen, customMask, allele);
    if mask.Err? {
      return Err(mask.error);
    }
    var maskNum := mask.value;
    var pepweight := if peplen > 9 then BaseWeights[..5] + Repeat(InfillWeight, peplen - 9) + BaseWeights[5..]
                     else BaseWeights;
    var score := ClampedLoop(p, pepweight, maskNum);
    return Ok(score);
  }

  /** The mask_num branches of calculate_immunogenicity_score; int() on a bad entry raises ValueError. */
  method CoreMaskNum(peplen: nat, customMask: Option<string>, allele: Option<string>) returns (mask: Result<seq<int>, PyError>)
    ensures mask == CoreMask(peplen, customMask, allele)
  {
    var cterm := peplen - 1;
    if Truthy(allele) && allele.value in AlleleTable {
      TableTextParses(allele.value);
      var parsed := ParseIntList(AlleleTableText(allele.value));
      return Ok(ZeroBased(parsed.value));
    } else if Truthy(customMask) {
      var parsed := ParseIntList(customMask.value);
      if parsed.None? {
        return Err(ValueError);
      }
      return Ok(ZeroBased(parsed.value));
    } else {
      return Ok([0, 1, cterm]);
    }
  }

  /** A table allele decides the mask whatever custom mask is given. */
  lemma AlleleBeatsCustomMask(peptide: string, c1: Option<string>, c2: Option<string>, allele: string)
    requires allele in AlleleTable
    ensures CoreScore(peptide, c1, Some(allele)) == CoreScore(peptide, c2, Some(allele))
    ensures CoreScore(peptide, c1, Some(allele)).Ok?
  {
    var n := |Upper(peptide)|;
    TableMask(n, c1, allele);
    TableMask(n, c2, allele);
  }

  /** A table allele's mask is its entry, made 0-based. */
  lemma TableMask(n: nat, customMask: Option<string>, allele: string)
    requires allele in AlleleTable
    ensures CoreMask(n, customMask, Some(allele)) == Ok(ZeroBased(AlleleTable[allele]))
  {
    EmptyNotAllele();
  }

  /** The lookup is verbatim: the display form "HLA-A*02:01" is not found and the custom mask is used. */
  lemma DisplayFormNotLookedUp(peptide: string, customMask: Option<string>)
    ensures CoreScore(peptide, customMask, Some("HLA-A*02:01")) == CoreScore(peptide, customMask, None)
  {
    DisplayFormKey();
  }

  /** A custom mask that does not parse raises, whatever the peptide holds. */
  lemma BadCustomMaskRaises(peptide: string, customMask: string, allele: Option<string>)
    requires customMask != "" && ParseIntList(customMask).None?
    requires !Truthy(allele) || allele.value !in AlleleTable
    ensures CoreScore(peptide, Some(customMask), allele) == Err(ValueError)
  {
  }

  /** With a mask that parses, a symbol outside the scale makes the score 0. */
  lemma CoreUnknownResidue(peptide: string, customMask: Option<string>, allele: Option<string>, i: nat)
    requires CoreMask(|peptide|, customMask, allele).Ok?
    requires i < |peptide| && !IsResidue(UpperChar(peptide[i]))
    ensures CoreScore(peptide, customMask, allele) == Ok(0)
  {
    assert Upper(peptide)[i] == UpperChar(peptide[i]);
  }

  /**
   * The clamp and the full 9-entry weights change nothing: for a table allele
   * written without '*' and ':' the score is the desktop scorer's.
   */
  lemma CoreAgreesWithGui(peptide: string, customMask: Option<string>, allele: string)
    requires allele in AlleleTable
    requires '*' !in allele && ':' !in allele
    ensures CoreScore(peptide, customMask, Some(allele)) == Ok(Gui.GuiScore(peptide, Some(allele)))
  {
    EmptyNotAllele();
    KeepsPlainNames(allele);
    var p := Upper(peptide);
    FullWeightsSameScore(p, ZeroBased(AlleleTable[allele]));
  }

  /** Without allele and custom mask both scorers use the default mask and agree. */
  lemma CoreDefaultAgreesWithGui(peptide: string)
    ensures CoreScore(peptide, None, None) == Ok(Gui.GuiScore(peptide, None))
  {
    FullWeightsSameScore(Upper(peptide), DefaultMask(|Upper(peptide)|));
  }

  // ---------------------------------------------------------------------------
  // filter_binders
  // ---------------------------------------------------------------------------

  /** The thresholds of filter_binders; None when passed as None. */
  datatype Thresholds = Thresholds(
    score: Option<real>, rank: Option<real>, ic50: Option<real>, immunogenicity: Option<real>)

  /** The defaults: threshold=0., the others None. */
  const DefaultThresholds: Thresholds := Thresholds(Some(0.0), None, None, None)

  /** One entry of the filters list: `df[column] >= bound` or `df[column] <= bound`. */
  datatype Criterion = Criterion(column: string, atLeast: bool, bound: real)

  predicate Meets(row: Row, c: Criterion) {
    if c.atLeast then AtLeast(Cell(row, c.column), c.bound) else AtMost(Cell(row, c.column), c.bound)
  }

  predicate MeetsAll(row: Row, cs: seq<Criterion>) {
    forall k :: 0 <= k < |cs| ==> Meets(row, cs[k])
  }

  /**
   * Whether `df[column] >= bound` can be evaluated: pandas compares a missing
   * value as false, but a string against a float raises TypeError.
   */
  predicate Comparable(rows: seq<Row>, c: Criterion) {
    forall i :: 0 <= i < |rows| ==> !(c.column in rows[i] && rows[i][c.column].PyStr?)
  }

  predicate AllComparable(rows: seq<Row>, cs: seq<Criterion>) {
    forall k :: 0 <= k < |cs| ==> Comparable(rows, cs[k])
  }

  /** The criteria whose column exists and whose threshold is not None, in the program's order. */
  function Criteria(columns: seq<string>, t: Thresholds): (cs: seq<Criterion>)
    ensures |cs| <= 4
  {
    (if "score" in columns && t.score.Some? then [Criterion("score", true, t.score.value)] else []) +
    (if "percentile_rank" in columns && t.rank.Some? then [Criterion("percentile_rank", false, t.rank.value)] else []) +
    (if "ic50" in columns && t.ic50.Some? then [Criterion("ic50", false, t.ic50.value)] else []) +
    (if "immunogenicity" in columns && t.immunogenicity.Some? then [Criterion("immunogenicity", true, t.immunogenicity.value)] else [])
  }

  /**
   * The frame filter_binders returns: unchanged when empty, TypeError when a
   * criterion's column holds a string, unchanged without criteria, else the
   * rows meeting every criterion.
   */
  function Binders(df: Frame, t: Thresholds): Result<Frame, PyError> {
    if Empty(df) then Ok(df)
    else if !AllComparable(df.rows, Criteria(df.columns, t)) then Err(TypeError)
    else if Criteria(df.columns, t) == [] then Ok(df)
    else Ok(Frame(df.columns, Filter(df.rows, row => MeetsAll(row, Criteria(df.columns, t)))))
  }

  /** The boolean series of one criterion, or the TypeError of comparing a string. */
  function Series(rows: seq<Row>, c: Criterion): (s: Result<seq<bool>, PyError>)
    ensures s.Err? <==> !Comparable(rows, c)
    ensures s.Err? ==> s.error == TypeError
    ensures s.Ok? ==> |s.value| == |rows| && forall i :: 0 <= i < |rows| ==> s.value[i] == Meets(rows[i], c)
  {
    if Comparable(rows, c) then Ok(seq(|rows|, i requires 0 <= i < |rows| => Meets(rows[i], c)))
    else Err(TypeError)
  }

  /** The filters list, built one criterion at a time. */
  method BuildCriteria(columns: seq<string>, t: Thresholds) returns (criteria: seq<Criterion>)
    ensures criteria == Criteria(columns, t)
  {
    criteria := [];
    if "score" in columns && t.score.Some? {
      criteria := criteria + [Criterion("score", true, t.score.value)];
    }
    if "percentile_rank" in columns && t.rank.Some? {
      criteria := criteria + [Criterion("percentile_rank", false, t.rank.value)];
    }
    if "ic50" in columns && t.ic50.Some? {
      criteria := criteria + [Criterion("ic50", false, t.ic50.value)];
    }
    if "immunogenicity" in columns && t.immunogenicity.Some? {
      criteria := criteria + [Criterion("immunogenicity", true, t.immunogenicity.value)];
    }
  }

  /**
   * The series of the filters list, each evaluated as filter_binders appends
   * it; the first that compares a string raises TypeError.
   */
  method EvaluateSeries(rows: seq<Row>, criteria: seq<Criterion>) returns (filters: Result<seq<seq<bool>>, PyError>)
    ensures filters.Err? <==> !AllComparable(rows, criteria)
    ensures filters.Err? ==> filters.error == TypeError
    ensures filters.Ok? ==> |filters.value| == |criteria|
    ensures filters.Ok? ==> forall k :: 0 <= k < |criteria| ==> Series(rows, criteria[k]) == Ok(filters.value[k])
  {
    var done: seq<seq<bool>> := [];
    var k := 0;
    while k < |criteria|
      invariant 0 <= k <= |criteria| && |done| == k
      invariant forall j :: 0 <= j < k ==> Series(rows, criteria[j]) == Ok(done[j])
    {
      var f := Series(rows, criteria[k]);
      if f.Err? {
        return Err(TypeError);
      }
      done := done + [f.value];
      k := k + 1;
    }
    return Ok(done);
  }

  /** `combined = filters[0]; for f in filters[1:]: combined &= f`. */
  method CombineSeries(rows: seq<Row>, criteria: seq<Criterion>, filters: seq<seq<bool>>) returns (combined: seq<bool>)
    requires |criteria| > 0 && |filters| == |criteria|
    requires forall k :: 0 <= k < |criteria| ==> Series(rows, criteria[k]) == Ok(filters[k])
    ensures |combined| == |rows|
    ensures forall i :: 0 <= i < |rows| ==> combined[i] == MeetsAll(rows[i], criteria)
  {
    combined := filters[0];
    var k := 1;
    while k < |criteria|
      invariant 1 <= k <= |criteria|
      invariant |combined| == |rows|
      invariant forall i :: 0 <= i < |rows| ==> combined[i] == MeetsAll(rows[i], criteria[..k])
    {
      var f := filters[k];
      assert Series(rows, criteria[k]) == Ok(f);
      assert criteria[..k + 1] == criteria[..k] + [criteria[k]];
      combined := seq(|combined|, i requires 0 <= i < |combined| => combined[i] && f[i]);
      k := k + 1;
    }
    assert criteria[..k] == criteria;
  }

  method FilterBinders(df: Frame, t: Thresholds) returns (r: Result<Frame, PyError>)
    ensures r == Binders(df, t)
  {
    if Empty(df) {
      return Ok(df);
    }
    var criteria := BuildCriteria(df.columns, t);
    var filters := EvaluateSeries(df.rows, criteria);
    if filters.Err? {
      return Err(TypeError);
    }
    if criteria == [] {
      return Ok(df);
    }
    var combined := CombineSeries(df.rows, criteria, filters.value);
    r := Ok(Masked(df, combined));
  }

  /**
   * filter_binders raises exactly when a criterion's column holds a string;
   * otherwise the kept rows are input rows, in order, meeting every criterion.
   */
  lemma BindersSpec(df: Frame, t: Thresholds)
    ensures Binders(df, t).Err? <==> !Empty(df) && !AllComparable(df.rows, Criteria(df.columns, t))
    ensures Binders(df, t).Ok? ==> Binders(df, t).value.columns == df.columns
    ensures Binders(df, t).Ok? ==> IsSubsequence(Binders(df, t).value.rows, df.rows)
    ensures Binders(df, t).Ok? ==> forall row :: row in Binders(df, t).value.rows ==> row in df.rows && MeetsAll(row, Criteria(df.columns, t))
    ensures Binders(df, t).Ok? && !Empty(df) ==>
      forall row :: row in df.rows && MeetsAll(row, Criteria(df.columns, t)) ==> row in Binders(df, t).value.rows
  {
    if Empty(df) || Criteria(df.columns, t) == [] {
      SubsequenceReflexive(df.rows);
    } else if AllComparable(df.rows, Criteria(df.columns, t)) {
      var p := row => MeetsAll(row, Criteria(df.columns, t));
      assert Binders(df, t).value.rows == Filter(df.rows, p);
      FilterIsSubsequence(df.rows, p);
      FilterMembers(df.rows, p);
    }
  }

  /** A string in the score column raises TypeError under the default threshold. */
  lemma StringScoreRaises(df: Frame, i: nat)
    requires !Empty(df) && "score" in df.columns
    requires i < |df.rows| && "score" in df.rows[i] && df.rows[i]["score"].PyStr?
    ensures Binders(df, DefaultThresholds) == Err(TypeError)
  {
    assert Criteria(df.columns, DefaultThresholds)[0] == Criterion("score", true, 0.0);
    assert !Comparable(df.rows, Criteria(df.columns, DefaultThresholds)[0]);
  }

  /** With the default threshold a frame with a score column keeps only rows whose score is at least 0. */
  lemma DefaultKeepsNonNegativeScores(df: Frame, row: Row)
    requires !Empty(df) && "score" in df.columns
    requires Binders(df, DefaultThresholds).Ok? && row in Binders(df, DefaultThresholds).value.rows
    ensures Cell(row, "score").Some? && Cell(row, "score").value >= 0.0
  {
    BindersSpec(df, DefaultThresholds);
    assert Criteria(df.columns, DefaultThresholds)[0] == Criterion("score", true, 0.0);
  }

  /** Passing None for every threshold returns the frame unchanged. */
  lemma NoCriteriaUnchanged(df: Frame)
    ensures Binders(df, Thresholds(None, None, None, None)) == Ok(df)
  {
  }

  // ---------------------------------------------------------------------------
  // generate_variants
  // ---------------------------------------------------------------------------

  /** generate_combinations: appends current_seq + each completion of remaining to acc. */
  method GenerateCombinations(currentSeq: string, remaining: string, acc: seq<string>) returns (out: seq<string>)
    ensures out == acc + Prepend(currentSeq, Expansions(remaining))
    decreases |remaining|
  {
    if remaining == [] {
      PrependDone(currentSeq);
      return acc + [currentSeq];
    }
    if remaining[0] == '[' {
      var closeBracket := Find(remaining, ']', 0);
      if closeBracket > 0 {
        ExpansionsOpen(remaining);
        out := CombineOptions(currentSeq, remaining[1..closeBracket], remaining[closeBracket + 1..], acc);
        return;
      }
    }
    out := GenerateCombinations(currentSeq + [remaining[0]], remaining[1..], acc);
    PrependLiteral(currentSeq, remaining);
  }

  /** The `for option in options` loop of generate_combinations, over the text after the bracket. */
  method CombineOptions(currentSeq: string, options: string, after: string, acc: seq<string>) returns (out: seq<string>)
    ensures out == acc + Prepend(currentSeq, PrefixAll(options, Expansions(after)))
    decreases |after| + 1
  {
    ghost var rest := Expansions(after);
    out := acc;
    var k := 0;
    while k < |options|
      invariant 0 <= k <= |options|
      invariant out == acc + Prepend(currentSeq, PrefixAll(options[..k], rest))
    {
      out := GenerateCombinations(currentSeq + [options[k]], after, out);
      PrependOptionStep(currentSeq, options, k, rest);
      k := k + 1;
    }
    assert options[..k] == options;
  }

  method GenerateVariants(sequencePattern: string) returns (variants: seq<string>)
    ensures variants == BracketVariants(sequencePattern)
  {
    variants := GenerateCombinations("", sequencePattern, []);
    PrependEmpty(Expansions(sequencePattern));
    if variants == [] {
      variants := [sequencePattern];
    }
  }
}

=== FILE: frames.dfy ===
/**
 * The part of a pandas DataFrame the filters touch: named columns and rows of
 * cells.  A missing value (None, NaN) is PyNone; a comparison with it is false.
 */
module Frames {
  import opened Wrappers
  import opened PyText
  import opened Seqs

  type Row = map<string, PyValue>

  datatype Frame = Frame(columns: seq<string>, rows: seq<Row>)

  /** Every row has exactly the frame's columns. */
  predicate WellFormed(df: Frame) {
    forall i :: 0 <= i < |df.rows| ==> df.rows[i].Keys == Elements(df.columns)
  }

  /** df.empty: no rows or no columns. */
  predicate Empty(df: Frame) {
    |df.rows| == 0 || |df.columns| == 0
  }

  /** The numeric value of a cell; None for a missing value or a string. */
  function Num(v: PyValue): (r: Option<real>)
    ensures r.Some? <==> v.PyInt? || v.PyFloat?
  {
    match v
    case PyInt(i) => Some(i as real)
    case PyFloat(x) => Some(x)
    case _ => None
  }

  /** The numeric value of a row's cell in column c. */
  function Cell(row: Row, c: string): Option<real> {
    if c in row then Num(row[c]) else None
  }

  /** `value >= t`, false for a missing value. */
  predicate AtLeast(v: Option<real>, t: real) { v.Some? && v.value >= t }

  /** `value <= t`, false for a missing value. */
  predicate AtMost(v: Option<real>, t: real) { v.Some? && v.value <= t }

  /** df[mask] for a boolean mask over the rows. */
  function Masked(df: Frame, mask: seq<bool>): (r: Frame)
    requires |mask| == |df.rows|
    ensures r.columns == df.columns && IsSubsequence(r.rows, df.rows)
    ensures forall p: Row -> bool :: (forall i :: 0 <= i < |mask| ==> mask[i] == p(df.rows[i])) ==> r.rows == Filter(df.rows, p)
  {
    SelectFilters(df.rows, mask);
    Frame(df.columns, Select(df.rows, mask))
  }
}

=== FILE: gui.dfy ===
/**
 * The computational core of the desktop front end (gui.py): the scorer with
 * allele normalisation and truncated weights, the peptide validator, the
 * token-window variant generator and the result filter of the main window.
 */
module Gui {
  import opened Wrappers
  import opened PyText
  import opened Tables
  import opened AnchorTable
  import opened Alleles
  import opened Scoring
  import opened Patterns
  import opened Seqs
  import Frames

  // ---------------------------------------------------------------------------
  // calculate_immunogenicity
  // ---------------------------------------------------------------------------

  /** The score calculate_immunogenicity returns, in units of 1e-5. */
  function GuiScore(peptide: string, allele: Option<string>): int {
    var p := Upper(peptide);
    Score(p, Weights(|p|), NormalizedMask(allele, |p|))
  }

  method CalculateImmunogenicity(peptide: string, allele: Option<string>) returns (score: int)
    ensures score == GuiScore(peptide, allele)
  {
    var p := Upper(peptide);
    var n := |p|;
    var cterm := n - 1;
    var mask: seq<int>;
    if Truthy(allele) {
      var clean := NormalizeAllele(allele.value);
      if clean in AlleleTable {
        mask := ZeroBased(AlleleTable[clean]);
      } else {
        mask := [0, 1, cterm];
      }
    } else {
      mask := [0, 1, cterm];
    }
    var weights := if n > 9 then BaseWeights[..5] + Repeat(InfillWeight, n - 9) + BaseWeights[5..] else BaseWeights[..n];
    score := GuardedLoop(p, weights, mask);
  }

  /** Scoring is case-insensitive: the peptide is upper-cased first. */
  lemma GuiScoreCaseInsensitive(peptide: string, allele: Option<string>)
    ensures GuiScore(Upper(peptide), allele) == GuiScore(peptide, allele)
  {
    UpperIdempotent(peptide);
  }

  /** The display form of an allele ("HLA-A*02:01") scores as its table form ("HLA-A0201"). */
  lemma GuiScoreAlleleForms(peptide: string, allele: string)
    ensures GuiScore(peptide, Some(NormalizeAllele(allele))) == GuiScore(peptide, Some(allele))
  {
    NormalizedMaskOfNormalized(allele, |peptide|);
  }

  /** A symbol outside the scale, after upper-casing, makes the score 0. */
  lemma GuiUnknownResidue(peptide: string, allele: Option<string>, i: nat)
    requires i < |peptide| && !IsResidue(UpperChar(peptide[i]))
    ensures GuiScore(peptide, allele) == 0
  {
    assert Upper(peptide)[i] == UpperChar(peptide[i]);
  }

  /** Without a known allele a peptide of 9 or more residues is scored on every position. */
  lemma GuiDefaultMaskInert(peptide: string, allele: Option<string>)
    requires |peptide| >= 9
    requires !Truthy(allele) || NormalizeAllele(allele.value) !in AlleleTable
    ensures GuiScore(peptide, allele) == Score(Upper(peptide), Weights(|peptide|), [])
  {
    DefaultMaskInert(Upper(peptide));
  }

  /** Changing a masked residue to another residue of the scale leaves the score unchanged. */
  lemma GuiMaskedResidue(p: string, q: string, allele: Option<string>)
    requires |p| == |q| && AllResidues(p) && AllResidues(q)
    requires forall i :: 0 <= i < |p| && i !in NormalizedMask(allele, |p|) ==> p[i] == q[i]
    ensures GuiScore(p, allele) == GuiScore(q, allele)
  {
    UpperOfResidues(p);
    UpperOfResidues(q);
    MaskedResidueIrrelevant(p, q, Weights(|p|), NormalizedMask(allele, |p|));
  }

  lemma UpperOfResidues(p: string)
    requires AllResidues(p)
    ensures Upper(p) == p
  {
    forall i | 0 <= i < |p|
      ensures Upper(p)[i] == p[i]
    {
      ResidueIsCapital(p[i]);
    }
  }

  // ---------------------------------------------------------------------------
  // validate_peptide
  // ---------------------------------------------------------------------------

  datatype ValidationError = InvalidCharacters(chars: set<char>) | InvalidLength(length: nat)

  /** The characters of p outside the 20 residues. */
  function BadChars(p: string): set<char> {
    set c | c in p && !IsResidue(c)
  }

  lemma BadCharsEmpty(p: string)
    ensures BadChars(p) == {} <==> AllResidues(p)
  {
    if !AllResidues(p) {
      var i :| 0 <= i < |p| && !IsResidue(p[i]);
      assert p[i] in BadChars(p);
    }
  }

  /**
   * validate_peptide: the upper-cased, stripped peptide when it uses only the
   * 20 residues and has 8 to 15 of them; otherwise the offending characters,
   * reported before a wrong length.
   */
  function ValidatePeptide(peptide: string): (r: Result<string, ValidationError>)
    ensures r.Ok? <==> AllResidues(Strip(Upper(peptide))) && 8 <= |Strip(Upper(peptide))| <= 15
    ensures r.Ok? ==> r.value == Strip(Upper(peptide))
    ensures (r.Err? && r.error.InvalidCharacters?) <==> !AllResidues(Strip(Upper(peptide)))
    ensures r.Err? && r.error.InvalidCharacters? ==> r.error.chars == BadChars(Strip(Upper(peptide)))
    ensures r.Err? && r.error.InvalidLength? ==> r.error.length == |Strip(Upper(peptide))|
  {
    var p := Strip(Upper(peptide));
    BadCharsEmpty(p);
    if BadChars(p) != {} then Err(InvalidCharacters(BadChars(p)))
    else if |p| < 8 || |p| > 15 then Err(InvalidLength(|p|))
    else Ok(p)
  }

  // ---------------------------------------------------------------------------
  // tokenize_pattern, generate_variants_for_length, generate_all_variants
  // ---------------------------------------------------------------------------

  method TokenizePattern(pattern: string) returns (tokens: seq<Token>)
    ensures tokens == TokensFrom(pattern, 0)
  {
    tokens := [];
    var i := 0;
    while i < |pattern|
      invariant 0 <= i <= |pattern|
      invariant tokens + TokensFrom(pattern, i) == TokensFrom(pattern, 0)
      decreases |pattern| - i
    {
      var token, next := NextToken(pattern, i);
      assert (tokens + [token]) + TokensFrom(pattern, next) == tokens + ([token] + TokensFrom(pattern, next));
      tokens := tokens + [token];
      i := next;
    }
  }

  /** One pass of the tokenize_pattern loop: the token starting at i and the index after it. */
  method NextToken(pattern: string, i: nat) returns (token: Token, next: nat)
    requires i < |pattern|
    ensures i < next <= |pattern|
    ensures TokensFrom(pattern, i) == [token] + TokensFrom(pattern, next)
  {
    if pattern[i] == '[' {
      var close := Find(pattern, ']', i + 1);
      if close == -1 {
        TokensLiteral(pattern, i);
        return [pattern[i]], i + 1;
      } else {
        TokensBracket(pattern, i, close);
        return pattern[i + 1..close], close + 1;
      }
    } else {
      TokensLiteral(pattern, i);
      return [pattern[i]], i + 1;
    }
  }

  /** The tokens[start:start + length] window. */
  function Window(tokens: seq<Token>, start: nat, length: nat): seq<Token>
    requires start + length <= |tokens|
  {
    tokens[start..start + length]
  }

  /** The variants of the windows starting before k. */
  function VariantsBefore(tokens: seq<Token>, length: nat, k: nat): set<string>
    requires k + length <= |tokens| + 1
  {
    if k == 0 then {}
    else VariantsBefore(tokens, length, k - 1) + Elements(Expand(Window(tokens, k - 1, length)))
  }

  /** The variants of every window of `length` consecutive tokens. */
  function LengthVariants(tokens: seq<Token>, length: nat): set<string> {
    if |tokens| < length then {} else VariantsBefore(tokens, length, |tokens| - length + 1)
  }

  /** s picks, in order, one option of each of the tokens from start on. */
  predicate PicksFrom(s: string, tokens: seq<Token>, start: nat) {
    start + |s| <= |tokens| && forall i :: 0 <= i < |s| ==> s[i] in tokens[start + i]
  }

  lemma {:induction false} VariantsBeforeMembers(tokens: seq<Token>, length: nat, k: nat, s: string)
    requires k + length <= |tokens| + 1
    ensures s in VariantsBefore(tokens, length, k) <==>
      |s| == length && exists start: nat :: start < k && PicksFrom(s, tokens, start)
  {
    if k > 0 {
      VariantsBeforeMembers(tokens, length, k - 1, s);
      var w := Window(tokens, k - 1, length);
      ExpandMembers(w, s);
      if |s| == length && PicksFrom(s, tokens, k - 1) {
        assert forall i :: 0 <= i < |w| ==> s[i] in w[i];
      }
      if s in Expand(w) {
        assert forall i :: 0 <= i < |s| ==> s[i] in tokens[k - 1 + i] by {
          forall i | 0 <= i < |s| ensures s[i] in tokens[k - 1 + i] {
            assert w[i] == tokens[k - 1 + i];
          }
        }
        assert PicksFrom(s, tokens, k - 1);
      }
      if |s| == length && exists start: nat :: start < k && PicksFrom(s, tokens, start) {
        var start: nat :| start < k && PicksFrom(s, tokens, start);
        if start == k - 1 {
          assert forall i :: 0 <= i < |w| ==> s[i] in w[i];
        }
      }
    }
  }

  /** A variant of a given length picks, in order, one option of each token of some window. */
  lemma LengthVariantsMembers(tokens: seq<Token>, length: nat, s: string)
    ensures s in LengthVariants(tokens, length) <==>
      |s| == length && exists start: nat :: PicksFrom(s, tokens, start)
  {
    if |tokens| >= length {
      VariantsBeforeMembers(tokens, length, |tokens| - length + 1, s);
    }
  }

  /** Fewer tokens than the length: no variant. */
  lemma ShortTokensNoVariants(tokens: seq<Token>, length: nat)
    requires |tokens| < length
    ensures LengthVariants(tokens, length) == {}
  {
  }

  /** x extends current by one option of each token of window from index on. */
  predicate Completes(window: seq<Token>, current: string, index: nat, x: string)
    requires index <= |window|
  {
    |x| == |current| + |window| - index && x[..|current|] == current &&
    forall i :: index <= i < |window| ==> x[|current| + i - index] in window[i]
  }

  lemma CompletesStep(window: seq<Token>, current: string, index: nat, o: char, x: string)
    requires index < |window| && o in window[index]
    ensures Completes(window, current + [o], index + 1, x) <==>
      Completes(window, current, index, x) && x[|current|] == o
  {
    var c := |current|;
    if Completes(window, current + [o], index + 1, x) {
      assert x[..c] == x[..c + 1][..c];
      assert x[c] == x[..c + 1][c];
      forall i | index <= i < |window| ensures x[c + i - index] in window[i] {
        if i > index {
          assert x[c + i - index] == x[|current + [o]| + i - (index + 1)];
        }
      }
    }
  }

  /** generate_combinations: adds to acc every completion of current over window[index:]. */
  method Combinations(window: seq<Token>, current: string, index: nat, acc: set<string>) returns (out: set<string>)
    requires index <= |window|
    ensures forall x :: x in out <==> x in acc || Completes(window, current, index, x)
    decreases |window| - index
  {
    if index == |window| {
      forall x
        ensures Completes(window, current, index, x) <==> x == current
      {
      }
      return acc + {current};
    }
    var options := window[index];
    out := acc;
    var k := 0;
    while k < |options|
      invariant 0 <= k <= |options|
      invariant forall x :: x in out <==> x in acc || (Completes(window, current, index, x) && x[|current|] in options[..k])
    {
      var o := options[k];
      var step := Combinations(window, current + [o], index + 1, out);
      forall x
        ensures x in step <==> x in acc || (Completes(window, current, index, x) && x[|current|] in options[..k + 1])
      {
        CompletesStep(window, current, index, o, x);
        assert options[..k + 1] == options[..k] + [o];
      }
      out := step;
      k := k + 1;
    }
    forall x | Completes(window, current, index, x)
      ensures x[|current|] in options[..k]
    {
      assert options[..k] == options;
      assert x[|current| + index - index] in window[index];
    }
  }

  /** The completions of the empty string over a window are its expansions. */
  lemma CompletesEmpty(window: seq<Token>, x: string)
    ensures Completes(window, "", 0, x) <==> x in Expand(window)
  {
    ExpandMembers(window, x);
    if |x| == |window| {
      assert forall i :: 0 <= i < |window| ==> x[0 + i - 0] == x[i];
    }
  }

  method GenerateVariantsForLength(tokens: seq<Token>, length: nat) returns (variants: set<string>)
    ensures variants == LengthVariants(tokens, length)
  {
    variants := {};
    var n := |tokens|;
    if n < length {
      return;
    }
    var start := 0;
    while start < n - length + 1
      invariant 0 <= start <= n - length + 1
      invariant variants == VariantsBefore(tokens, length, start)
    {
      var window := tokens[start..start + length];
      var step := Combinations(window, "", 0, variants);
      forall x
        ensures x in step <==> x in VariantsBefore(tokens, length, start + 1)
      {
        CompletesEmpty(window, x);
      }
      variants := step;
      start := start + 1;
    }
  }

  /** The variants of one tokenised pattern for each of the lengths. */
  function PatternVariants(tokens: seq<Token>, lengths: seq<nat>): set<string> {
    if lengths == [] then {}
    else PatternVariants(tokens, lengths[..|lengths| - 1]) + LengthVariants(tokens, lengths[|lengths| - 1])
  }

  /** Every variant of any requested length for any of the patterns. */
  function AllVariants(patterns: seq<string>, lengths: seq<nat>): set<string> {
    if patterns == [] then {}
    else AllVariants(patterns[..|patterns| - 1], lengths) + PatternVariants(TokensFrom(patterns[|patterns| - 1], 0), lengths)
  }

  lemma {:induction false} PatternVariantsMembers(tokens: seq<Token>, lengths: seq<nat>, s: string)
    ensures s in PatternVariants(tokens, lengths) <==>
      exists j :: 0 <= j < |lengths| && s in LengthVariants(tokens, lengths[j])
  {
    if lengths != [] {
      var init := lengths[..|lengths| - 1];
      PatternVariantsMembers(tokens, init, s);
      if exists j :: 0 <= j < |lengths| && s in LengthVariants(tokens, lengths[j]) {
        var j :| 0 <= j < |lengths| && s in LengthVariants(tokens, lengths[j]);
        if j < |init| {
          assert init[j] == lengths[j];
        }
      }
      if exists j :: 0 <= j < |init| && s in LengthVariants(tokens, init[j]) {
        var j :| 0 <= j < |init| && s in LengthVariants(tokens, init[j]);
        assert init[j] == lengths[j];
      }
    }
  }

  lemma {:induction false} AllVariantsMembers(patterns: seq<string>, lengths: seq<nat>, s: string)
    ensures s in AllVariants(patterns, lengths) <==>
      exists i :: 0 <= i < |patterns| && s in PatternVariants(TokensFrom(patterns[i], 0), lengths)
  {
    if patterns != [] {
      var init := patterns[..|patterns| - 1];
      AllVariantsMembers(init, lengths, s);
      if exists i :: 0 <= i < |patterns| && s in PatternVariants(TokensFrom(patterns[i], 0), lengths) {
        var i :| 0 <= i < |patterns| && s in PatternVariants(TokensFrom(patterns[i], 0), lengths);
        if i < |init| {
          assert init[i] == patterns[i];
        }
      }
      if exists i :: 0 <= i < |init| && s in PatternVariants(TokensFrom(init[i], 0), lengths) {
        var i :| 0 <= i < |init| && s in PatternVariants(TokensFrom(init[i], 0), lengths);
        assert init[i] == patterns[i];
      }
    }
  }

  /** generate_all_variants: the variants of all patterns and lengths, sorted, each once. */
  method GenerateAllVariants(patterns: seq<string>, lengths: seq<nat>) returns (r: seq<string>)
    ensures StrictlySorted(r)
    ensures forall s :: s in r <==> s in AllVariants(patterns, lengths)
  {
    var all: set<string> := {};
    var i := 0;
    while i < |patterns|
      invariant 0 <= i <= |patterns|
      invariant all == AllVariants(patterns[..i], lengths)
    {
      var tokens := TokenizePattern(patterns[i]);
      var j := 0;
      while j < |lengths|
        invariant 0 <= j <= |lengths|
        invariant all == AllVariants(patterns[..i], lengths) + PatternVariants(tokens, lengths[..j])
      {
        var vs := GenerateVariantsForLength(tokens, lengths[j]);
        assert lengths[..j + 1][..j] == lengths[..j];
        all := all + vs;
        j := j + 1;
      }
      assert lengths[..j] == lengths;
      assert patterns[..i + 1][..i] == patterns[..i];
      i := i + 1;
    }
    assert patterns[..i] == patterns;
    r := SortedFromSet(all);
  }

  /** Every generated variant has one of the requested lengths and comes from a window of one pattern. */
  lemma AllVariantsOrigin(patterns: seq<string>, lengths: seq<nat>, s: string)
    requires s in AllVariants(patterns, lengths)
    ensures exists i, j :: 0 <= i < |patterns| && 0 <= j < |lengths| && |s| == lengths[j] &&
                           (exists start: nat :: PicksFrom(s, TokensFrom(patterns[i], 0), start))
  {
    AllVariantsMembers(patterns, lengths, s);
    var i :| 0 <= i < |patterns| && s in PatternVariants(TokensFrom(patterns[i], 0), lengths);
    PatternVariantsMembers(TokensFrom(patterns[i], 0), lengths, s);
    var j :| 0 <= j < |lengths| && s in LengthVariants(TokensFrom(patterns[i], 0), lengths[j]);
    LengthVariantsMembers(TokensFrom(patterns[i], 0), lengths[j], s);
  }

  // ---------------------------------------------------------------------------
  // MainWindow.apply_filters
  // ---------------------------------------------------------------------------

  /** A result row; a field that is absent or None is None. */
  datatype Row = Row(
    peptide: Option<string>, allele: Option<string>, elScore: Option<real>,
    percentileRank: Option<real>, ic50: Option<real>, immunogenicity: Option<real>)

  /** The filters dictionary; a key that is not present is None. */
  datatype Filters = Filters(
    peptides: Option<seq<string>>, alleles: Option<seq<string>>, elScoreMin: Option<real>,
    percentileMax: Option<real>, ic50Max: Option<real>, immunogenicityMin: Option<real>)


  // One test per key of the filters dictionary; a key that is absent lets every row through.

  predicate PeptideOk(r: Row, f: Filters) {
    f.peptides.Some? ==> r.peptide.Some? && r.peptide.value in f.peptides.value
  }
  predicate AlleleOk(r: Row, f: Filters) {
    f.alleles.Some? ==> r.allele.Some? && r.allele.value in f.alleles.value
  }
  predicate ElScoreOk(r: Row, f: Filters) {
    f.elScoreMin.Some? ==> Frames.AtLeast(r.elScore, f.elScoreMin.value)
  }
  predicate PercentileOk(r: Row, f: Filters) {
    f.percentileMax.Some? ==> Frames.AtMost(r.percentileRank, f.percentileMax.value)
  }
  predicate Ic50Ok(r: Row, f: Filters) {
    f.ic50Max.Some? ==> Frames.AtMost(r.ic50, f.ic50Max.value)
  }
  predicate ImmunogenicityOk(r: Row, f: Filters) {
    f.immunogenicityMin.Some? ==> Frames.AtLeast(r.immunogenicity, f.immunogenicityMin.value)
  }

  /** One comprehension of apply_filters: it runs only when its key is present. */
  function Stage(rows: seq<Row>, present: bool, test: Row -> bool): seq<Row> {
    if present then Filter(rows, test) else rows
  }

  /** The successive list comprehensions of apply_filters, in the program's order. */
  function FilterRows(rows: seq<Row>, f: Filters): seq<Row> {
    var a := Stage(rows, f.peptides.Some?, r => PeptideOk(r, f));
    var b := Stage(a, f.alleles.Some?, r => AlleleOk(r, f));
    var c := Stage(b, f.elScoreMin.Some?, r => ElScoreOk(r, f));
    var d := Stage(c, f.percentileMax.Some?, r => PercentileOk(r, f));
    var e := Stage(d, f.ic50Max.Some?, r => Ic50Ok(r, f));
    Stage(e, f.immunogenicityMin.Some?, r => ImmunogenicityOk(r, f))
  }

  /** The first k tests, in the order apply_filters runs them. */
  predicate PassesFirst(r: Row, f: Filters, k: nat) {
    (k > 0 ==> PeptideOk(r, f)) && (k > 1 ==> AlleleOk(r, f)) && (k > 2 ==> ElScoreOk(r, f)) &&
    (k > 3 ==> PercentileOk(r, f)) && (k > 4 ==> Ic50Ok(r, f)) && (k > 5 ==> ImmunogenicityOk(r, f))
  }

  /** A row passes when every present filter holds: list membership, inclusive bounds, None fails. */
  predicate Passes(r: Row, f: Filters) {
    PeptideOk(r, f) && AlleleOk(r, f) && ElScoreOk(r, f) &&
    PercentileOk(r, f) && Ic50Ok(r, f) && ImmunogenicityOk(r, f)
  }

  /** A skipped stage is a filter by a test that lets everything through. */
  lemma StageIsFilter(rows: seq<Row>, present: bool, test: Row -> bool)
    requires !present ==> forall r :: test(r)
    ensures Stage(rows, present, test) == Filter(rows, test)
  {
    if !present {
      FilterAll(rows, test);
    }
  }

  /** A stage after the first k tests is a filter by the first k + 1 tests. */
  lemma StageAfter(rows: seq<Row>, f: Filters, k: nat, present: bool, test: Row -> bool)
    requires !present ==> forall r :: test(r)
    requires forall r :: PassesFirst(r, f, k + 1) == (PassesFirst(r, f, k) && test(r))
    ensures Stage(Filter(rows, r => PassesFirst(r, f, k)), present, test) == Filter(rows, r => PassesFirst(r, f, k + 1))
  {
    StageIsFilter(Filter(rows, r => PassesFirst(r, f, k)), present, test);
    FilterCompose(rows, r => PassesFirst(r, f, k), test, r => PassesFirst(r, f, k + 1));
  }

  /** The first three comprehensions filter by the first three tests. */
  lemma FirstStages(rows: seq<Row>, f: Filters)
    ensures Stage(Stage(Stage(rows, f.peptides.Some?, r => PeptideOk(r, f)), f.alleles.Some?, r => AlleleOk(r, f)),
                  f.elScoreMin.Some?, r => ElScoreOk(r, f))
         == Filter(rows, r => PassesFirst(r, f, 3))
  {
    FilterAll(rows, r => PassesFirst(r, f, 0));
    StageAfter(rows, f, 0, f.peptides.Some?, r => PeptideOk(r, f));
    StageAfter(rows, f, 1, f.alleles.Some?, r => AlleleOk(r, f));
    StageAfter(rows, f, 2, f.elScoreMin.Some?, r => ElScoreOk(r, f));
  }

  /** The last three comprehensions, after the first three tests, filter by all six. */
  lemma LastStages(rows: seq<Row>, f: Filters)
    ensures Stage(Stage(Stage(Filter(rows, r => PassesFirst(r, f, 3)), f.percentileMax.Some?, r => PercentileOk(r, f)),
                        f.ic50Max.Some?, r => Ic50Ok(r, f)), f.immunogenicityMin.Some?, r => ImmunogenicityOk(r, f))
         == Filter(rows, r => PassesFirst(r, f, 6))
  {
    StageAfter(rows, f, 3, f.percentileMax.Some?, r => PercentileOk(r, f));
    StageAfter(rows, f, 4, f.ic50Max.Some?, r => Ic50Ok(r, f));
    StageAfter(rows, f, 5, f.immunogenicityMin.Some?, r => ImmunogenicityOk(r, f));
  }

  /** The chain of comprehensions is one filter by the conjunction of the present filters. */
  lemma FilterRowsIsPasses(rows: seq<Row>, f: Filters)
    ensures FilterRows(rows, f) == Filter(rows, r => Passes(r, f))
  {
    FirstStages(rows, f);
    LastStages(rows, f);
    FilterExtensional(rows, r => PassesFirst(r, f, 6), r => Passes(r, f));
  }

  /** The filtered rows are a subsequence of the rows, and hold exactly the rows that pass. */
  lemma FilterRowsSpec(rows: seq<Row>, f: Filters)
    ensures IsSubsequence(FilterRows(rows, f), rows)
    ensures forall r :: r in FilterRows(rows, f) <==> r in rows && Passes(r, f)
  {
    FilterRowsIsPasses(rows, f);
    FilterIsSubsequence(rows, r => Passes(r, f));
    FilterMembers(rows, r => Passes(r, f));
  }

  /** The part of the main window that apply_filters updates. */
  class MainWindow {
    var currentResults: seq<Row>
    var filteredResults: seq<Row>
    var isFiltered: bool

    constructor (results: seq<Row>)
      ensures currentResults == results && filteredResults == [] && !isFiltered
    {
      currentResults := results;
      filteredResults := [];
      isFiltered := false;
    }

    /** With no results nothing changes; otherwise the filtered view is replaced. */
    method ApplyFilters(f: Filters)
      modifies this
      ensures currentResults == old(currentResults)
      ensures old(currentResults) == [] ==> filteredResults == old(filteredResults) && isFiltered == old(isFiltered)
      ensures old(currentResults) != [] ==> filteredResults == FilterRows(currentResults, f) && isFiltered
    {
      if currentResults == [] {
        return;
      }
      filteredResults := FilterRows(currentResults, f);
      isFiltered := true;
    }
  }
}

=== FILE: immunogenicity.dfy ===
/**
 * The Immunogenicity class of peptide_analysis/immunogenicity.py: isint, the
 * validation of peptides, mask and allele, the prediction with its stable
 * sort by score, and the list of available alleles.
 */
module Immunogenicity {
  import opened Wrappers
  import opened PyText
  import opened Tables
  import opened AnchorTable
  import opened Alleles
  import opened Scoring
  import opened Seqs
  import Gui

  // ---------------------------------------------------------------------------
  // isint
  // ---------------------------------------------------------------------------

  /**
   * isint: float(x), then whether it equals its truncation; False on
   * ValueError, and the TypeError of float(None) propagates.
   */
  function IsInt(x: PyValue): (r: Result<bool, PyError>)
    ensures r.Err? <==> x.PyNone?
    ensures r == Ok(true) <==> ToFloat(x).Ok? && ToFloat(x).value == Trunc(ToFloat(x).value) as real
    ensures x.PyStr? ==> (r == Ok(false) <==> ParseFloat(x.s).None? || ParseFloat(x.s).value != Trunc(ParseFloat(x.s).value) as real)
  {
    match ToFloat(x)
    case Err(ValueError) => Ok(false)
    case Err(TypeError) => Err(TypeError)
    case Ok(a) => Ok(a == Trunc(a) as real)
  }

  /** Every string int() accepts passes isint. */
  lemma IsIntOfIntText(s: string)
    requires ParseInt(s).Some?
    ensures IsInt(PyStr(s)) == Ok(true)
  {
    ParseIntThenFloat(s);
    var k := ParseInt(s).value;
    assert Trunc(k as real) == k;
  }

  // ---------------------------------------------------------------------------
  // validate_peptides
  // ---------------------------------------------------------------------------

  /** peptide.strip().upper(). */
  function Clean(peptide: string): string {
    Upper(Strip(peptide))
  }

  /** Every peptide, cleaned. */
  function Cleaned(peptides: seq<string>): (r: seq<string>)
    ensures |r| == |peptides| && forall i :: 0 <= i < |peptides| ==> r[i] == Clean(peptides[i])
  {
    seq(|peptides|, i requires 0 <= i < |peptides| => Clean(peptides[i]))
  }

  /** The cleaned peptides that hold only residues, in input order. */
  function ValidPeptides(peptides: seq<string>): (r: seq<string>)
    ensures |r| <= |peptides|
    ensures forall x :: x in r <==> x in Cleaned(peptides) && AllResidues(x)
    ensures forall i :: 0 <= i < |r| ==> AllResidues(r[i])
  {
    FilterMembers(Cleaned(peptides), AllResidues);
    Filter(Cleaned(peptides), AllResidues)
  }

  /** No mask entry is negative. */
  predicate NonNegative(l: seq<int>) {
    forall k :: 0 <= k < |l| ==> l[k] >= 0
  }

  /** max(l). */
  function Max(l: seq<int>): (m: int)
    requires |l| > 0
    ensures forall k :: 0 <= k < |l| ==> l[k] <= m
    ensures exists k :: 0 <= k < |l| && l[k] == m
  {
    if |l| == 1 then l[0]
    else
      var m := Max(l[..|l| - 1]);
      assert forall k :: 0 <= k < |l| - 1 ==> l[..|l| - 1][k] == l[k];
      if l[|l| - 1] > m then l[|l| - 1] else m
  }

  /** Every peptide is at least n long. */
  predicate AllAtLeast(peptides: seq<string>, n: int) {
    forall i :: 0 <= i < |peptides| ==> |peptides[i]| >= n
  }

  /** Every comma-separated piece passes isint. */
  predicate AllIsInt(parts: seq<string>) {
    forall k :: 0 <= k < |parts| ==> IsInt(PyStr(parts[k])) == Ok(true)
  }

  /**
   * The custom mask after validation: kept when it is falsy, or when it
   * parses, has no negative entry, fits every valid peptide and passes isint;
   * None otherwise.
   */
  function CheckedMask(valid: seq<string>, customMask: Option<string>): (r: Option<string>)
    ensures r == customMask || r == None
    ensures Truthy(r) ==> ParseIntList(r.value).Some?
  {
    if !Truthy(customMask) then customMask
    else match ParseIntList(customMask.value)
      case None => None
      case Some(l) =>
        if NonNegative(l) && AllAtLeast(valid, Max(l)) && AllIsInt(Split(customMask.value, ',')) then customMask
        else None
  }

  /** The isint test at the end of the mask validation never rejects a mask that parsed. */
  lemma IsIntCheckRedundant(s: string)
    requires ParseIntList(s).Some?
    ensures AllIsInt(Split(s, ','))
  {
    var parts := Split(s, ',');
    forall k | 0 <= k < |parts|
      ensures IsInt(PyStr(parts[k])) == Ok(true)
    {
      IsIntOfIntText(parts[k]);
    }
  }

  /** validate_peptides' result: the valid peptides, the custom mask to use and the allele. */
  datatype Validation = Validation(peptides: seq<string>, customMask: Option<string>, allele: Option<string>)

  /**
   * A truthy allele is normalised; when the table has it, its entry replaces
   * the custom mask, otherwise the allele becomes None.
   */
  function Validate(peptides: seq<string>, customMask: Option<string>, allele: Option<string>): (r: Validation)
    ensures r.peptides == ValidPeptides(peptides)
    ensures Truthy(r.customMask) ==> ParseIntList(r.customMask.value).Some?
    ensures r.allele.Some? && r.allele.value != "" ==> r.allele.value in AlleleTable
  {
    var valid := ValidPeptides(peptides);
    var mask := CheckedMask(valid, customMask);
    if Truthy(allele) then
      var a := NormalizeAllele(allele.value);
      if a in AlleleTable then
        TableTextParses(a);
        Validation(valid, Some(AlleleTableText(a)), Some(a))
      else Validation(valid, mask, None)
    else Validation(valid, mask, allele)
  }

  /** The inner loop: a peptide is valid when no symbol is outside the alphabet. */
  method CheckPeptide(peptide: string) returns (isValid: bool)
    ensures isValid == AllResidues(peptide)
  {
    isValid := true;
    var i := 0;
    while i < |peptide|
      invariant 0 <= i <= |peptide|
      invariant forall j :: 0 <= j < i ==> IsResidue(peptide[j])
    {
      if peptide[i] !in Alphabet {
        isValid := false;
        break;
      }
      i := i + 1;
    }
  }

  /** The outer loop: clean each peptide and keep the valid ones. */
  method CollectValid(peptides: seq<string>) returns (valid: seq<string>)
    ensures valid == ValidPeptides(peptides)
  {
    valid := [];
    var k := 0;
    while k < |peptides|
      invariant 0 <= k <= |peptides|
      invariant valid == ValidPeptides(peptides[..k])
    {
      var peptide := Upper(Strip(peptides[k]));
      var isValid := CheckPeptide(peptide);
      if isValid {
        valid := valid + [peptide];
      }
      assert Cleaned(peptides[..k + 1])[..k] == Cleaned(peptides[..k]);
      k := k + 1;
    }
    assert peptides[..k] == peptides;
  }

  /** The checks on a truthy custom mask, in the program's order. */
  method ValidateMask(valid: seq<string>, customMask: Option<string>) returns (mask: Option<string>)
    ensures mask == CheckedMask(valid, customMask)
  {
    mask := customMask;
    if Truthy(customMask) {
      var parsed := ParseIntList(customMask.value);
      if parsed.None? {
        mask := None;
      } else {
        var l := parsed.value;
        if !NonNegative(l) {
          mask := None;
        }
        var maxLength := Max(l);
        if !AllAtLeast(valid, maxLength) {
          mask := None;
        }
        if mask.None? || !AllIsInt(Split(mask.value, ',')) {
          mask := None;
        }
      }
    }
  }

  method ValidatePeptides(peptides: seq<string>, customMask: Option<string>, allele: Option<string>)
    returns (valid: seq<string>, mask: Option<string>, alleleOut: Option<string>)
    ensures Validation(valid, mask, alleleOut) == Validate(peptides, customMask, allele)
  {
    valid := CollectValid(peptides);
    mask := ValidateMask(valid, customMask);
    alleleOut := allele;
    if Truthy(allele) {
      var a := NormalizeAllele(allele.value);
      if a in AlleleTable {
        mask := Some(AlleleTableText(a));
        alleleOut := Some(a);
      } else {
        alleleOut := None;
      }
    }
  }

  /** A table allele, in any spelling, overrides whatever custom mask was given. */
  lemma AlleleOverridesMask(peptides: seq<string>, c1: Option<string>, c2: Option<string>, allele: string)
    requires NormalizeAllele(allele) in AlleleTable
    ensures Validate(peptides, c1, Some(allele)).customMask == Some(AlleleTableText(NormalizeAllele(allele)))
    ensures Validate(peptides, c1, Some(allele)) == Validate(peptides, c2, Some(allele))
  {
    EmptyNotAllele();
  }

  /** An allele the table does not have is dropped and the custom mask is checked on its own. */
  lemma UnknownAlleleDropped(peptides: seq<string>, customMask: Option<string>, allele: string)
    requires NormalizeAllele(allele) !in AlleleTable
    ensures Validate(peptides, customMask, Some(allele)).allele.None? || allele == ""
    ensures Validate(peptides, customMask, Some(allele)).customMask == CheckedMask(ValidPeptides(peptides), customMask)
  {
  }

  /** A mask with a negative entry is rejected. */
  lemma NegativeMaskRejected(valid: seq<string>, s: string, k: nat)
    requires ParseIntList(s).Some? && k < |ParseIntList(s).value| && ParseIntList(s).value[k] < 0
    ensures CheckedMask(valid, Some(s)) == None
  {
  }

  /** A mask reaching past the end of some valid peptide is rejected. */
  lemma LongMaskRejected(valid: seq<string>, s: string, i: nat, k: nat)
    requires ParseIntList(s).Some? && k < |ParseIntList(s).value|
    requires i < |valid| && |valid[i]| < ParseIntList(s).value[k]
    ensures CheckedMask(valid, Some(s)) == None
  {
  }

  /** A mask that parses, has no negative entry and fits every valid peptide is kept. */
  lemma GoodMaskKept(valid: seq<string>, s: string)
    requires s != "" && ParseIntList(s).Some?
    requires NonNegative(ParseIntList(s).value)
    requires forall i, k :: 0 <= i < |valid| && 0 <= k < |ParseIntList(s).value| ==> |valid[i]| >= ParseIntList(s).value[k]
    ensures CheckedMask(valid, Some(s)) == Some(s)
  {
    IsIntCheckRedundant(s);
  }

  // ---------------------------------------------------------------------------
  // predict_immunogenicity
  // ---------------------------------------------------------------------------

  /** One entry of the result list: {'peptide', 'length', 'score'}. */
  datatype Prediction = Prediction(peptide: string, length: nat, score: int)

  function ScoreKey(x: Prediction): real {
    x.score as real
  }

  /**
   * The 0-based mask for a peptide of length n: the default without a custom
   * mask, else the parsed mask, else the fallback [0, 1, -1].
   */
  function MaskFor(customMask: Option<string>, n: nat): seq<int> {
    if !Truthy(customMask) then DefaultMask(n)
    else match ParseIntList(customMask.value)
      case Some(l) => ZeroBased(l)
      case None => [0, 1, -1]
  }

  /** One peptide's prediction, upper-cased, or None when its loop raises. */
  function ScoreEntry(v: string, customMask: Option<string>): Option<Prediction> {
    var p := Upper(v);
    match CheckedScore(p, FullWeights(|p|), MaskFor(customMask, |p|))
    case Some(s) => Some(Prediction(p, |p|, s))
    case None => None
  }

  /** The scored peptides in input order; a peptide whose loop raises is skipped. */
  function Scored(valid: seq<string>, customMask: Option<string>): (r: seq<Prediction>)
    ensures |r| <= |valid|
  {
    if valid == [] then []
    else
      var e := ScoreEntry(valid[|valid| - 1], customMask);
      Scored(valid[..|valid| - 1], customMask) + (if e.Some? then [e.value] else [])
  }

  /** predict_immunogenicity: the scored valid peptides, highest score first, ties in input order. */
  function Predict(peptides: seq<string>, customMask: Option<string>, allele: Option<string>): seq<Prediction> {
    var v := Validate(peptides, customMask, allele);
    if v.peptides == [] then [] else SortDesc(Scored(v.peptides, v.customMask), ScoreKey)
  }

  /** The scoring loop over the valid peptides, with the mask chosen once for a custom mask. */
  method ScoreAll(valid: seq<string>, mask: Option<string>) returns (resultList: seq<Prediction>)
    ensures resultList == Scored(valid, mask)
  {
    var maskNum := CustomMaskNum(mask);
    resultList := [];
    var k := 0;
    while k < |valid|
      invariant 0 <= k <= |valid|
      invariant resultList == Scored(valid[..k], mask)
    {
      var entry := ScoreOne(valid[k], mask, maskNum);
      ScoredSnoc(valid, k, mask);
      if entry.Some? {
        resultList := resultList + [entry.value];
      }
      k := k + 1;
    }
    assert valid[..k] == valid;
  }

  lemma ScoredSnoc(valid: seq<string>, k: nat, mask: Option<string>)
    requires k < |valid|
    ensures Scored(valid[..k + 1], mask) ==
      Scored(valid[..k], mask) + (if ScoreEntry(valid[k], mask).Some? then [ScoreEntry(valid[k], mask).value] else [])
  {
    assert valid[..k + 1][..k] == valid[..k];
  }

  /** The custom mask, parsed once before the loop; the fallback [0, 1, -1] when it does not parse. */
  method CustomMaskNum(mask: Option<string>) returns (maskNum: seq<int>)
    ensures Truthy(mask) ==> maskNum == MaskFor(mask, 0)
  {
    maskNum := [];
    if Truthy(mask) {
      var parsed := ParseIntList(mask.value);
      if parsed.Some? {
        maskNum := ZeroBased(parsed.value);
      } else {
        maskNum := [0, 1, -1];
      }
    }
  }

  /**
   * One pass of the scoring loop: without a custom mask the default mask is
   * set for this peptide, otherwise the mask parsed before the loop is used.
   */
  method ScoreOne(v: string, mask: Option<string>, custom: seq<int>) returns (entry: Option<Prediction>)
    requires Truthy(mask) ==> custom == MaskFor(mask, 0)
    ensures entry == ScoreEntry(v, mask)
  {
    var maskNum := custom;
    var peptide := Upper(v);
    var peplen := |peptide|;
    var cterm := peplen - 1;
    if !Truthy(mask) {
      maskNum := [0, 1, cterm];
    }
    var pepweight := if peplen > 9 then BaseWeights[..5] + Repeat(InfillWeight, peplen - 9) + BaseWeights[5..]
                     else BaseWeights;
    assert pepweight == FullWeights(peplen);
    assert maskNum == MaskFor(mask, peplen);
    var r := RaisingLoop(peptide, pepweight, maskNum);
    match r {
      case Some(s) => entry := Some(Prediction(peptide, peplen, s));
      case None => entry := None;
    }
  }

  method PredictImmunogenicity(peptides: seq<string>, customMask: Option<string>, allele: Option<string>)
    returns (results: seq<Prediction>)
    ensures results == Predict(peptides, customMask, allele)
  {
    var valid, mask, a := ValidatePeptides(peptides, customMask, allele);
    if valid == [] {
      return [];
    }
    var resultList := ScoreAll(valid, mask);
    results := SortDesc(resultList, ScoreKey);
  }

  /** The prediction of a valid peptide under the mask it is given. */
  function PredictionOf(p: string, customMask: Option<string>): Prediction {
    Prediction(p, |p|, Score(p, FullWeights(|p|), MaskFor(customMask, |p|)))
  }

  /** Every valid peptide is scored: none is skipped, each under its own mask. */
  lemma {:induction false} ScoredAll(valid: seq<string>, customMask: Option<string>)
    requires forall i :: 0 <= i < |valid| ==> AllResidues(valid[i])
    ensures |Scored(valid, customMask)| == |valid|
    ensures forall i :: 0 <= i < |valid| ==> Scored(valid, customMask)[i] == PredictionOf(valid[i], customMask)
  {
    if valid != [] {
      var init := valid[..|valid| - 1];
      var last := valid[|valid| - 1];
      ScoredAll(init, customMask);
      EntryOfResidues(last, customMask);
      var s := Scored(init, customMask);
      var y := PredictionOf(last, customMask);
      assert Scored(valid, customMask) == s + [y];
      forall i | 0 <= i < |valid|
        ensures Scored(valid, customMask)[i] == PredictionOf(valid[i], customMask)
      {
        if i < |init| {
          assert (s + [y])[i] == s[i];
          assert init[i] == valid[i];
        } else {
          assert (s + [y])[i] == y;
        }
      }
    }
  }

  /** A peptide of residues is never skipped: its entry is its prediction. */
  lemma EntryOfResidues(p: string, customMask: Option<string>)
    requires AllResidues(p)
    ensures ScoreEntry(p, customMask) == Some(PredictionOf(p, customMask))
  {
    Gui.UpperOfResidues(p);
    var c := CheckedScore(p, FullWeights(|p|), MaskFor(customMask, |p|));
    assert c == Some(Score(p, FullWeights(|p|), MaskFor(customMask, |p|)));
  }

  /** Each scored entry is its peptide's prediction, for a peptide of the input. */
  lemma ScoredMembers(valid: seq<string>, customMask: Option<string>)
    requires forall i :: 0 <= i < |valid| ==> AllResidues(valid[i])
    ensures forall x :: x in Scored(valid, customMask) ==> x.peptide in valid && x == PredictionOf(x.peptide, customMask)
  {
    ScoredAll(valid, customMask);
    var s := Scored(valid, customMask);
    forall x | x in s
      ensures x.peptide in valid && x == PredictionOf(x.peptide, customMask)
    {
      var j :| 0 <= j < |s| && s[j] == x;
      assert s[j] == PredictionOf(valid[j], customMask);
    }
  }

  /**
   * The result is sorted by score, highest first, and is a permutation of the
   * valid peptides' predictions, one per valid peptide; each entry is the
   * prediction of a valid peptide under the validated mask.
   */
  lemma PredictSpec(peptides: seq<string>, customMask: Option<string>, allele: Option<string>)
    ensures SortedDesc(Predict(peptides, customMask, allele), ScoreKey)
    ensures multiset(Predict(peptides, customMask, allele))
         == multiset(Scored(ValidPeptides(peptides), Validate(peptides, customMask, allele).customMask))
    ensures |Predict(peptides, customMask, allele)| == |ValidPeptides(peptides)|
    ensures forall x :: x in Predict(peptides, customMask, allele) ==>
      x.peptide in ValidPeptides(peptides) && x == PredictionOf(x.peptide, Validate(peptides, customMask, allele).customMask)
  {
    var v := Validate(peptides, customMask, allele);
    ScoredAll(v.peptides, v.customMask);
    ScoredMembers(v.peptides, v.customMask);
    var s := Scored(v.peptides, v.customMask);
    SortDescMembers(s, ScoreKey);
  }

  /** Predictions with equal scores keep the order of their peptides in the input. */
  lemma PredictStable(peptides: seq<string>, customMask: Option<string>, allele: Option<string>, v: real)
    requires ValidPeptides(peptides) != []
    ensures Filter(Predict(peptides, customMask, allele), KeyIs(ScoreKey, v))
         == Filter(Scored(ValidPeptides(peptides), Validate(peptides, customMask, allele).customMask), KeyIs(ScoreKey, v))
  {
    var w := Validate(peptides, customMask, allele);
    SortDescStable(Scored(w.peptides, w.customMask), ScoreKey, v);
  }

  /** After validation the fallback mask [0, 1, -1] is never used. */
  lemma FallbackUnreachable(peptides: seq<string>, customMask: Option<string>, allele: Option<string>, n: nat)
    ensures var m := Validate(peptides, customMask, allele).customMask;
      MaskFor(m, n) == if Truthy(m) then ZeroBased(ParseIntList(m.value).value) else DefaultMask(n)
  {
  }

  /** The mask a table allele installs is its table entry, made 0-based. */
  lemma TableMaskFor(a: string, n: nat)
    requires a in AlleleTable
    ensures MaskFor(Some(AlleleTableText(a)), n) == ZeroBased(AlleleTable[a])
  {
    TableTextParses(a);
  }

  /** Under a plain table allele's mask a valid peptide scores as in the desktop scorer. */
  lemma TableScoreAgrees(p: string, allele: string)
    requires allele in AlleleTable && '*' !in allele && ':' !in allele
    requires AllResidues(p)
    ensures PredictionOf(p, Some(AlleleTableText(allele))).score == Gui.GuiScore(p, Some(allele))
  {
    var mask := ZeroBased(AlleleTable[allele]);
    TableTextScore(p, allele);
    GuiTableScore(p, allele);
    FullWeightsSameScore(p, mask);
  }

  /** The table text as the custom mask scores with the allele's 0-based anchors. */
  lemma TableTextScore(p: string, allele: string)
    requires allele in AlleleTable
    ensures PredictionOf(p, Some(AlleleTableText(allele))).score == Score(p, FullWeights(|p|), ZeroBased(AlleleTable[allele]))
  {
    TableMaskFor(allele, |p|);
  }

  /** The desktop scorer, on a plain table allele and a peptide of residues, uses the same anchors. */
  lemma GuiTableScore(p: string, allele: string)
    requires allele in AlleleTable && '*' !in allele && ':' !in allele
    requires AllResidues(p)
    ensures Gui.GuiScore(p, Some(allele)) == Score(p, Weights(|p|), ZeroBased(AlleleTable[allele]))
  {
    KeepsPlainNames(allele);
    EmptyNotAllele();
    Gui.UpperOfResidues(p);
  }

  /** With a plain table allele every predicted score is the desktop scorer's. */
  lemma PredictAgreesWithGui(peptides: seq<string>, customMask: Option<string>, allele: string)
    requires allele in AlleleTable && '*' !in allele && ':' !in allele
    ensures forall x :: x in Predict(peptides, customMask, Some(allele)) ==> x.score == Gui.GuiScore(x.peptide, Some(allele))
  {
    KeepsPlainNames(allele);
    AlleleOverridesMask(peptides, customMask, customMask, allele);
    PredictSpec(peptides, customMask, Some(allele));
    var m := Validate(peptides, customMask, Some(allele)).customMask;
    assert m == Some(AlleleTableText(allele));
    forall x | x in Predict(peptides, customMask, Some(allele))
      ensures x.score == Gui.GuiScore(x.peptide, Some(allele))
    {
      assert x == PredictionOf(x.peptide, m);
      TableScoreAgrees(x.peptide, allele);
    }
  }

  // ---------------------------------------------------------------------------
  // get_available_alleles
  // ---------------------------------------------------------------------------

  /** sorted(allele_dict.keys()). */
  method GetAvailableAlleles() returns (alleles: seq<string>)
    ensures StrictlySorted(alleles)
    ensures forall a :: a in alleles <==> a in AlleleTable
    ensures |alleles| == |AlleleTable|
  {
    alleles := SortedFromSet(AlleleTable.Keys);
  }
}

=== FILE: mhc.dfy ===
/**
 * The computational core of mhc.py's IEDBBindingPredictor: the scorer, the
 * threshold filter over a coerced frame, and the recursive variant generator.
 */
module Mhc {
  import opened Wrappers
  import opened PyText
  import opened Tables
  import opened AnchorTable
  import opened Alleles
  import opened Scoring
  import opened Patterns
  import opened Seqs
  import opened Frames
  import Gui

  // ---------------------------------------------------------------------------
  // calculate_immunogenicity_score
  // ---------------------------------------------------------------------------

  /** The same computation as the desktop scorer: normalised allele, truncated weights. */
  method CalculateImmunogenicityScore(peptide: string, allele: Option<string>) returns (score: int)
    ensures score == Gui.GuiScore(peptide, allele)
  {
    var p := Upper(peptide);
    var peplen := |p|;
    var cterm := peplen - 1;
    var maskPositions: seq<int> := [0, 1, cterm];
    if Truthy(allele) {
      var cleanAllele := NormalizeAllele(allele.value);
      if cleanAllele in AlleleTable {
        maskPositions := ZeroBased(AlleleTable[cleanAllele]);
      }
    }
    var pepweight := if peplen > 9 then BaseWeights[..5] + Repeat(InfillWeight, peplen - 9) + BaseWeights[5..]
                     else BaseWeights[..peplen];
    score := GuardedLoop(p, pepweight, maskPositions);
  }

  // ---------------------------------------------------------------------------
  // filter_binders
  // ---------------------------------------------------------------------------

  /** The thresholds of filter_binders; None when not supplied. */
  datatype Thresholds = Thresholds(
    elScore: Option<real>, percentileRank: Option<real>, ic50: Option<real>, immunogenicity: Option<real>)

  const MetricColumns: seq<string> := ["el_score", "percentile_rank", "ic50", "immunogenicity"]

  /**
   * A character float() accepts that pandas' own number parser does not: the
   * digit-group underscore, and whitespace other than ' ' and '\t'..'\r'.
   */
  predicate FloatOnlyChar(c: char) {
    c == '_' || (IsSpace(c) && !(c == ' ' || '\t' <= c <= '\r'))
  }

  /** The number pandas reads from a text cell: float()'s literals without those characters. */
  function PandasFloat(s: string): (r: Option<real>)
    ensures (forall i :: 0 <= i < |s| ==> !FloatOnlyChar(s[i])) ==> r == ParseFloat(s)
    ensures (exists i :: 0 <= i < |s| && FloatOnlyChar(s[i])) ==> r.None?
  {
    if forall i :: 0 <= i < |s| ==> !FloatOnlyChar(s[i]) then ParseFloat(s) else None
  }

  /** pd.to_numeric(errors='coerce') on one cell: numbers stay, numeric text parses, the rest is NaN. */
  function Coerce(v: PyValue): (r: PyValue)
    ensures r.PyInt? || r.PyFloat? || r.PyNone?
    ensures v.PyInt? || v.PyFloat? ==> r == v
    ensures v.PyStr? ==> Num(r) == PandasFloat(v.s)
  {
    match v
    case PyStr(s) => if PandasFloat(s).Some? then PyFloat(PandasFloat(s).value) else PyNone
    case _ => v
  }

  /** Text with a digit-group underscore is NaN to pandas, though float() reads it. */
  lemma UnderscoreIsNaN(s: string, i: nat)
    requires i < |s| && s[i] == '_'
    ensures Coerce(PyStr(s)) == PyNone
  {
    assert FloatOnlyChar(s[i]);
  }

  /** The row after its metric columns have been coerced. */
  function CoerceRow(row: Row): (r: Row)
    ensures r.Keys == row.Keys
  {
    map c | c in row :: if c in MetricColumns then Coerce(row[c]) else row[c]
  }

  function CoerceRows(rows: seq<Row>): (r: seq<Row>)
    ensures |r| == |rows| && forall i :: 0 <= i < |rows| ==> r[i] == CoerceRow(rows[i])
  {
    seq(|rows|, i requires 0 <= i < |rows| => CoerceRow(rows[i]))
  }

  /** Whether a threshold applies: it was supplied and its column exists. */
  predicate Applies(t: Option<real>, column: string, columns: seq<string>) {
    t.Some? && column in columns
  }

  /** The conjunction the mask accumulates for one row. */
  predicate Keep(row: Row, columns: seq<string>, t: Thresholds) {
    (Applies(t.elScore, "el_score", columns) ==> AtLeast(Cell(row, "el_score"), t.elScore.value)) &&
    (Applies(t.percentileRank, "percentile_rank", columns) ==> AtMost(Cell(row, "percentile_rank"), t.percentileRank.value)) &&
    (Applies(t.ic50, "ic50", columns) ==> AtMost(Cell(row, "ic50"), t.ic50.value)) &&
    (Applies(t.immunogenicity, "immunogenicity", columns) ==> AtLeast(Cell(row, "immunogenicity"), t.immunogenicity.value))
  }

  /** The rows filter_binders returns. */
  function FilteredRows(df: Frame, t: Thresholds): seq<Row> {
    Filter(CoerceRows(df.rows), row => Keep(row, df.columns, t))
  }

  /** `mask &= column op threshold`, element by element. */
  function AndColumn(mask: seq<bool>, rows: seq<Row>, column: string, atLeast: bool, bound: real): (r: seq<bool>)
    requires |mask| == |rows|
    ensures |r| == |mask|
    ensures forall i :: 0 <= i < |mask| ==>
      r[i] == (mask[i] && if atLeast then AtLeast(Cell(rows[i], column), bound) else AtMost(Cell(rows[i], column), bound))
  {
    seq(|mask|, i requires 0 <= i < |mask| =>
      mask[i] && if atLeast then AtLeast(Cell(rows[i], column), bound) else AtMost(Cell(rows[i], column), bound))
  }

  method FilterBinders(df: Frame, t: Thresholds) returns (r: Frame)
    ensures Empty(df) ==> r == df
    ensures !Empty(df) ==> r == Frame(df.columns, FilteredRows(df, t))
  {
    if Empty(df) {
      return df;
    }
    var rows := CoerceRows(df.rows);
    var mask := KeepMask(rows, df.columns, t);
    r := Masked(Frame(df.columns, rows), mask);
  }

  /** The mask filter_binders builds with `&=`, one applicable threshold at a time. */
  method KeepMask(rows: seq<Row>, columns: seq<string>, t: Thresholds) returns (mask: seq<bool>)
    ensures |mask| == |rows|
    ensures forall i :: 0 <= i < |rows| ==> mask[i] == Keep(rows[i], columns, t)
  {
    mask := seq(|rows|, _ => true);
    if t.elScore.Some? && "el_score" in columns {
      mask := AndColumn(mask, rows, "el_score", true, t.elScore.value);
    }
    if t.percentileRank.Some? && "percentile_rank" in columns {
      mask := AndColumn(mask, rows, "percentile_rank", false, t.percentileRank.value);
    }
    if t.ic50.Some? && "ic50" in columns {
      mask := AndColumn(mask, rows, "ic50", false, t.ic50.value);
    }
    if t.immunogenicity.Some? && "immunogenicity" in columns {
      mask := AndColumn(mask, rows, "immunogenicity", true, t.immunogenicity.value);
    }
  }

  /** The kept rows are coerced input rows, in order, and meet every applicable threshold. */
  lemma FilteredRowsSpec(df: Frame, t: Thresholds)
    ensures IsSubsequence(FilteredRows(df, t), CoerceRows(df.rows))
    ensures forall row :: row in FilteredRows(df, t) <==> row in CoerceRows(df.rows) && Keep(row, df.columns, t)
  {
    FilterIsSubsequence(CoerceRows(df.rows), row => Keep(row, df.columns, t));
    FilterMembers(CoerceRows(df.rows), row => Keep(row, df.columns, t));
  }

  /** A value that coerces to NaN fails every applicable comparison. */
  lemma NaNIsDropped(df: Frame, t: Thresholds, i: nat)
    requires i < |df.rows|
    requires "el_score" in df.rows[i] && Coerce(df.rows[i]["el_score"]).PyNone?
    requires Applies(t.elScore, "el_score", df.columns)
    ensures CoerceRows(df.rows)[i] !in FilteredRows(df, t)
  {
    FilteredRowsSpec(df, t);
    assert Cell(CoerceRows(df.rows)[i], "el_score") == None;
  }

  /** Without thresholds every row is kept. */
  lemma NoThresholdsKeepsAll(df: Frame)
    ensures FilteredRows(df, Thresholds(None, None, None, None)) == CoerceRows(df.rows)
  {
    FilterAll(CoerceRows(df.rows), row => Keep(row, df.columns, Thresholds(None, None, None, None)));
  }

  /** A threshold whose column is missing has no effect. */
  lemma MissingColumnIgnored(df: Frame, t: Thresholds)
    requires "ic50" !in df.columns
    ensures FilteredRows(df, t) == FilteredRows(df, t.(ic50 := None))
  {
    var u := t.(ic50 := None);
    assert forall row :: Keep(row, df.columns, t) == Keep(row, df.columns, u);
    FilterExtensional(CoerceRows(df.rows), row => Keep(row, df.columns, t), row => Keep(row, df.columns, u));
  }

  // ---------------------------------------------------------------------------
  // generate_variants
  // ---------------------------------------------------------------------------

  /** expand_pattern: appends current + each completion of remaining to acc. */
  method ExpandPattern(current: string, remaining: string, acc: seq<string>) returns (out: seq<string>)
    ensures out == acc + Prepend(current, Expansions(remaining))
    decreases |remaining|
  {
    if remaining == [] {
      PrependDone(current);
      return acc + [current];
    }
    if remaining[0] == '[' {
      var closeIdx := Find(remaining, ']', 0);
      if closeIdx == -1 {
        out := ExpandPattern(current + [remaining[0]], remaining[1..], acc);
        PrependLiteral(current, remaining);
        return;
      }
      ExpansionsOpen(remaining);
      out := ExpandOptions(current, remaining[1..closeIdx], remaining[closeIdx + 1..], acc);
      return;
    }
    out := ExpandPattern(current + [remaining[0]], remaining[1..], acc);
    PrependLiteral(current, remaining);
  }

  /** The `for option in options` loop of expand_pattern, over the text after the bracket. */
  method ExpandOptions(current: string, options: string, after: string, acc: seq<string>) returns (out: seq<string>)
    ensures out == acc + Prepend(current, PrefixAll(options, Expansions(after)))
    decreases |after| + 1
  {
    ghost var rest := Expansions(after);
    out := acc;
    var k := 0;
    while k < |options|
      invariant 0 <= k <= |options|
      invariant out == acc + Prepend(current, PrefixAll(options[..k], rest))
    {
      out := ExpandPattern(current + [options[k]], after, out);
      PrependOptionStep(current, options, k, rest);
      k := k + 1;
    }
    assert options[..k] == options;
  }

  method GenerateVariants(pattern: string) returns (variants: seq<string>)
    ensures variants == BracketVariants(pattern)
  {
    variants := ExpandPattern("", pattern, []);
    PrependEmpty(Expansions(pattern));
    if variants == [] {
      variants := [pattern];
    }
  }
}

=== FILE: patterns.dfy ===
/**
 * Bracket patterns such as "A[CD]E[FY]GH": each bracket offers a choice of
 * residues at one position, every other character stands for itself.
 *
 * Two readings of a pattern occur in the program: a list of tokens (one list
 * of options per position, gui.py) and a direct recursion over the text
 * (mhc.py, core.py).  Both are defined here, and shown to expand alike.
 */
module Patterns {
  import opened PyText

  /** A token: the options of one position. */
  type Token = seq<char>

  // ---------------------------------------------------------------------------
  // Expansion of a token list: one option per position, first position slowest.
  // ---------------------------------------------------------------------------

  /** [o + e for e in es]. */
  function Prefix(o: char, es: seq<string>): (r: seq<string>)
    ensures |r| == |es|
    ensures forall k :: 0 <= k < |es| ==> r[k] == [o] + es[k]
  {
    seq(|es|, k requires 0 <= k < |es| => [o] + es[k])
  }

  /** [o + e for o in opts for e in es]. */
  function PrefixAll(opts: seq<char>, es: seq<string>): seq<string> {
    if opts == [] then [] else Prefix(opts[0], es) + PrefixAll(opts[1..], es)
  }

  lemma PrefixAllSingle(o: char, es: seq<string>)
    ensures PrefixAll([o], es) == Prefix(o, es)
  {
    assert [o][1..] == [];
  }

  /** Each option is followed by each completion. */
  lemma {:induction false} PrefixAllLength(opts: seq<char>, es: seq<string>)
    ensures |PrefixAll(opts, es)| == |opts| * |es|
  {
    if opts != [] {
      PrefixAllLength(opts[1..], es);
      assert |opts| * |es| == |es| + (|opts| - 1) * |es|;
    }
  }

  function Expand(ts: seq<Token>): seq<string> {
    if ts == [] then [""] else PrefixAll(ts[0], Expand(ts[1..]))
  }

  /** The product of the numbers of options. */
  function Product(ts: seq<Token>): nat {
    if ts == [] then 1 else |ts[0]| * Product(ts[1..])
  }

  /** One variant per combination of options. */
  lemma {:induction false} ExpandCount(ts: seq<Token>)
    ensures |Expand(ts)| == Product(ts)
  {
    if ts != [] {
      ExpandCount(ts[1..]);
      PrefixAllLength(ts[0], Expand(ts[1..]));
    }
  }

  lemma {:induction false} PrefixAllMembers(opts: seq<char>, es: seq<string>, s: string)
    ensures s in PrefixAll(opts, es) <==> |s| > 0 && s[0] in opts && s[1..] in es
  {
    if opts != [] {
      PrefixAllMembers(opts[1..], es, s);
      if s in Prefix(opts[0], es) {
        var k :| 0 <= k < |es| && Prefix(opts[0], es)[k] == s;
        assert s[1..] == es[k];
      }
      if |s| > 0 && s[0] == opts[0] && s[1..] in es {
        var k :| 0 <= k < |es| && es[k] == s[1..];
        assert Prefix(opts[0], es)[k] == s;
      }
    }
  }

  /** A string is a variant exactly when it picks one option of every token, in order. */
  lemma {:induction false} ExpandMembers(ts: seq<Token>, s: string)
    ensures s in Expand(ts) <==> |s| == |ts| && forall i :: 0 <= i < |ts| ==> s[i] in ts[i]
  {
    if ts == [] {
    } else {
      PrefixAllMembers(ts[0], Expand(ts[1..]), s);
      if |s| > 0 {
        ExpandMembers(ts[1..], s[1..]);
        if |s| == |ts| && forall i :: 0 <= i < |ts| ==> s[i] in ts[i] {
          forall i | 0 <= i < |ts| - 1
            ensures s[1..][i] in ts[1..][i]
          {
            assert s[1..][i] == s[i + 1];
          }
        }
        if s[0] in ts[0] && s[1..] in Expand(ts[1..]) {
          forall i | 0 <= i < |ts|
            ensures s[i] in ts[i]
          {
            if i > 0 {
              assert s[i] == s[1..][i - 1];
            }
          }
        }
      }
    }
  }

  /** A token without options leaves no variant at all. */
  lemma {:induction false} EmptyTokenNoVariant(ts: seq<Token>, i: nat)
    requires i < |ts| && ts[i] == []
    ensures Expand(ts) == []
  {
    if Expand(ts) != [] {
      var s := Expand(ts)[0];
      ExpandMembers(ts, s);
    }
  }

  // ---------------------------------------------------------------------------
  // Tokenizing a pattern (gui.py tokenize_pattern).
  // ---------------------------------------------------------------------------

  /**
   * The tokens of p from index i on: a '[' with a later ']' is one token
   * holding the characters between them; any other character, including a
   * '[' with no ']' after it, is a one-option token.
   */
  function TokensFrom(p: string, i: nat): seq<Token>
    requires i <= |p|
    decreases |p| - i
  {
    if i == |p| then []
    else if p[i] == '[' && Find(p, ']', i + 1) != -1 then
      [p[i + 1..Find(p, ']', i + 1)]] + TokensFrom(p, Find(p, ']', i + 1) + 1)
    else [[p[i]]] + TokensFrom(p, i + 1)
  }

  /** Without brackets every character is its own token. */
  lemma {:induction false} PlainTokens(p: string, i: nat)
    requires i <= |p|
    requires forall k :: i <= k < |p| ==> p[k] != '['
    ensures |TokensFrom(p, i)| == |p| - i
    ensures forall k :: 0 <= k < |p| - i ==> TokensFrom(p, i)[k] == [p[i + k]]
    decreases |p| - i
  {
    if i < |p| {
      PlainTokens(p, i + 1);
    }
  }

  /** There are at most as many tokens as characters. */
  lemma {:induction false} TokenCountBound(p: string, i: nat)
    requires i <= |p|
    ensures |TokensFrom(p, i)| <= |p| - i
    decreases |p| - i
  {
    if i < |p| {
      var c := Find(p, ']', i + 1);
      if p[i] == '[' && c != -1 {
        TokensBracket(p, i, c);
        TokenCountBound(p, c + 1);
      } else {
        TokensLiteral(p, i);
        TokenCountBound(p, i + 1);
      }
    }
  }

  // ---------------------------------------------------------------------------
  // Direct bracket recursion (mhc.py and core.py generate_variants).
  // ---------------------------------------------------------------------------

  /**
   * The completions the recursion appends for the remaining text r, in its
   * depth-first order: a '[' with a later ']' branches over the characters
   * between them, any other first character is taken literally.
   */
  function Expansions(r: string): seq<string>
    decreases |r|
  {
    if r == [] then [""]
    else if r[0] == '[' && Find(r, ']', 0) != -1 then
      PrefixAll(r[1..Find(r, ']', 0)], Expansions(r[Find(r, ']', 0) + 1..]))
    else PrefixAll([r[0]], Expansions(r[1..]))
  }

  /** str.find on a suffix is str.find on the whole string, shifted. */
  lemma {:induction false} FindShift(p: string, c: char, i: nat, k: nat)
    requires i <= |p|
    ensures Find(p[i..], c, k) == -1 <==> Find(p, c, i + k) == -1
    ensures Find(p[i..], c, k) != -1 ==> Find(p, c, i + k) == i + Find(p[i..], c, k)
    decreases |p| - i - k
  {
    if i + k < |p| && p[i + k] != c {
      FindShift(p, c, i, k + 1);
    }
  }

  /** The recursion on a suffix that opens a closed bracket. */
  lemma ExpansionsBracket(p: string, i: nat, c: int)
    requires i < |p| && p[i] == '[' && c == Find(p, ']', i + 1) != -1
    ensures i < c < |p| && Expansions(p[i..]) == PrefixAll(p[i + 1..c], Expansions(p[c + 1..]))
  {
    var r := p[i..];
    FindShift(p, ']', i, 0);
    FindShift(p, ']', i, 1);
    assert r[0] == p[i];
    assert Find(r, ']', 0) == Find(r, ']', 1);
    var cr := Find(r, ']', 0);
    ExpansionsOpen(r);
    SuffixSlices(p, i, cr, c);
    assert Expansions(r) == PrefixAll(p[i + 1..c], Expansions(p[c + 1..]));
  }

  /** Slices of a suffix are slices of the whole string. */
  lemma SuffixSlices(p: string, i: nat, k: nat, c: nat)
    requires 1 <= k && c == i + k < |p|
    ensures p[i..][1..k] == p[i + 1..c]
    ensures p[i..][k + 1..] == p[c + 1..]
  {
  }

  /** The recursion on a suffix whose first character stands for itself. */
  lemma ExpansionsLiteral(p: string, i: nat)
    requires i < |p| && !(p[i] == '[' && Find(p, ']', i + 1) != -1)
    ensures Expansions(p[i..]) == PrefixAll([p[i]], Expansions(p[i + 1..]))
  {
    var r := p[i..];
    FindShift(p, ']', i, 0);
    FindShift(p, ']', i, 1);
    assert r[0] == p[i];
    if p[i] == '[' {
      assert Find(r, ']', 0) == Find(r, ']', 1);
    }
    assert r[1..] == p[i + 1..];
  }

  /** The first token of a suffix that opens a closed bracket. */
  lemma TokensBracket(p: string, i: nat, c: int)
    requires i < |p| && p[i] == '[' && c == Find(p, ']', i + 1) != -1
    ensures i < c < |p| && TokensFrom(p, i) == [p[i + 1..c]] + TokensFrom(p, c + 1)
  {
  }

  /** The first token of a suffix whose first character stands for itself. */
  lemma TokensLiteral(p: string, i: nat)
    requires i < |p| && !(p[i] == '[' && Find(p, ']', i + 1) != -1)
    ensures TokensFrom(p, i) == [[p[i]]] + TokensFrom(p, i + 1)
  {
  }

  lemma ExpandCons(t: Token, rest: seq<Token>)
    ensures Expand([t] + rest) == PrefixAll(t, Expand(rest))
  {
    assert ([t] + rest)[1..] == rest;
  }

  /** The two readings expand alike: tokenizing then expanding is the direct recursion. */
  lemma {:induction false} ExpansionsAreTokenExpansions(p: string, i: nat)
    requires i <= |p|
    ensures Expansions(p[i..]) == Expand(TokensFrom(p, i))
    decreases |p| - i
  {
    if i == |p| {
      assert p[i..] == [];
    } else {
      var j := TokenEnd(p, i);
      ExpansionsAreTokenExpansions(p, j);
      StepAgrees(p, i, j);
    }
  }

  /** Where the token that starts at i ends: after its closing bracket, or after its one character. */
  function TokenEnd(p: string, i: nat): (j: nat)
    requires i < |p|
    ensures i < j <= |p|
  {
    if p[i] == '[' && Find(p, ']', i + 1) != -1 then Find(p, ']', i + 1) + 1 else i + 1
  }

  /** The inductive step, from the end of the first token back to its start. */
  lemma StepAgrees(p: string, i: nat, j: nat)
    requires i < |p| && j == TokenEnd(p, i)
    requires Expansions(p[j..]) == Expand(TokensFrom(p, j))
    ensures Expansions(p[i..]) == Expand(TokensFrom(p, i))
  {
    if p[i] == '[' && Find(p, ']', i + 1) != -1 {
      BracketAgrees(p, i, j - 1);
    } else {
      LiteralAgrees(p, i);
    }
  }

  /** The inductive step at a closed bracket. */
  lemma BracketAgrees(p: string, i: nat, c: int)
    requires i < |p| && p[i] == '[' && c == Find(p, ']', i + 1) != -1
    requires i < c < |p| && Expansions(p[c + 1..]) == Expand(TokensFrom(p, c + 1))
    ensures Expansions(p[i..]) == Expand(TokensFrom(p, i))
  {
    ExpansionsBracket(p, i, c);
    var options, rest := p[i + 1..c], TokensFrom(p, c + 1);
    TokensBracket(p, i, c);
    ExpandCons(options, rest);
    assert Expand(TokensFrom(p, i)) == PrefixAll(options, Expand(rest));
  }

  /** The inductive step at a character that stands for itself. */
  lemma LiteralAgrees(p: string, i: nat)
    requires i < |p| && !(p[i] == '[' && Find(p, ']', i + 1) != -1)
    requires Expansions(p[i + 1..]) == Expand(TokensFrom(p, i + 1))
    ensures Expansions(p[i..]) == Expand(TokensFrom(p, i))
  {
    ExpansionsLiteral(p, i);
    TokensLiteral(p, i);
    ExpandCons([p[i]], TokensFrom(p, i + 1));
  }

  // ---------------------------------------------------------------------------
  // What the recursive generators return.
  // ---------------------------------------------------------------------------

  /** [c + e for e in es]: the completions appended below a prefix c. */
  function Prepend(c: string, es: seq<string>): (r: seq<string>)
    ensures |r| == |es|
    ensures forall k :: 0 <= k < |es| ==> r[k] == c + es[k]
  {
    seq(|es|, k requires 0 <= k < |es| => c + es[k])
  }

  lemma PrependAppend(c: string, a: seq<string>, b: seq<string>)
    ensures Prepend(c, a + b) == Prepend(c, a) + Prepend(c, b)
  {
  }

  lemma PrependPrefix(c: string, o: char, es: seq<string>)
    ensures Prepend(c, Prefix(o, es)) == Prepend(c + [o], es)
  {
    forall k | 0 <= k < |es| ensures c + ([o] + es[k]) == (c + [o]) + es[k] {
    }
  }

  lemma PrependEmpty(es: seq<string>)
    ensures Prepend("", es) == es
  {
    forall k | 0 <= k < |es| ensures "" + es[k] == es[k] {
    }
  }

  lemma {:induction false} PrefixAllSnoc(opts: seq<char>, o: char, es: seq<string>)
    ensures PrefixAll(opts + [o], es) == PrefixAll(opts, es) + Prefix(o, es)
  {
    if opts == [] {
      assert [o][1..] == [];
    } else {
      assert (opts + [o])[1..] == opts[1..] + [o];
      PrefixAllSnoc(opts[1..], o, es);
    }
  }

  /** Completing a prefix when the remaining text is empty yields the prefix alone. */
  lemma PrependDone(c: string)
    ensures Prepend(c, Expansions("")) == [c]
  {
    assert c + "" == c;
  }

  /** A first character taken literally moves from the remaining text to the prefix. */
  lemma PrependLiteral(c: string, r: string)
    requires |r| > 0 && !(r[0] == '[' && Find(r, ']', 0) != -1)
    ensures Prepend(c, Expansions(r)) == Prepend(c + [r[0]], Expansions(r[1..]))
  {
    var es := Expansions(r[1..]);
    PrefixAllSingle(r[0], es);
    PrependPrefix(c, r[0], es);
  }

  /** A leading closed bracket branches over its options. */
  lemma ExpansionsOpen(r: string)
    requires |r| > 0 && r[0] == '[' && Find(r, ']', 0) != -1
    ensures Expansions(r) == PrefixAll(r[1..Find(r, ']', 0)], Expansions(r[Find(r, ']', 0) + 1..]))
  {
  }

  /** One more option of a bracket: its completions follow those of the earlier options. */
  lemma PrependOptionStep(c: string, options: seq<char>, k: nat, rest: seq<string>)
    requires k < |options|
    ensures Prepend(c, PrefixAll(options[..k + 1], rest)) ==
      Prepend(c, PrefixAll(options[..k], rest)) + Prepend(c + [options[k]], rest)
  {
    assert options[..k + 1] == options[..k] + [options[k]];
    PrefixAllSnoc(options[..k], options[k], rest);
    PrependAppend(c, PrefixAll(options[..k], rest), Prefix(options[k], rest));
    PrependPrefix(c, options[k], rest);
  }

  /**
   * The result of mhc.py and core.py generate_variants: every completion of
   * the pattern, or the pattern itself when there is none.
   */
  function BracketVariants(p: string): seq<string> {
    if Expansions(p) == [] then [p] else Expansions(p)
  }

  lemma {:induction false} ProductZero(ts: seq<Token>)
    ensures Product(ts) == 0 <==> exists i :: 0 <= i < |ts| && ts[i] == []
  {
    if ts != [] {
      ProductZero(ts[1..]);
      if exists i :: 0 <= i < |ts| && ts[i] == [] {
        var i :| 0 <= i < |ts| && ts[i] == [];
        if i > 0 {
          assert ts[1..][i - 1] == [];
        }
      }
      if exists i :: 0 <= i < |ts[1..]| && ts[1..][i] == [] {
        var i :| 0 <= i < |ts[1..]| && ts[1..][i] == [];
        assert ts[i + 1] == [];
      }
    }
  }

  /**
   * One variant per combination of options, each picking one option of every
   * token; the fallback to the pattern happens exactly when some bracket is empty.
   */
  lemma BracketVariantsSpec(p: string)
    ensures Expansions(p) == [] <==> exists i :: 0 <= i < |TokensFrom(p, 0)| && TokensFrom(p, 0)[i] == []
    ensures Expansions(p) != [] ==> |BracketVariants(p)| == Product(TokensFrom(p, 0))
    ensures Expansions(p) != [] ==> forall s :: s in BracketVariants(p) <==>
      |s| == |TokensFrom(p, 0)| && forall i :: 0 <= i < |s| ==> s[i] in TokensFrom(p, 0)[i]
  {
    assert p[0..] == p;
    ExpansionsAreTokenExpansions(p, 0);
    ExpandCount(TokensFrom(p, 0));
    ProductZero(TokensFrom(p, 0));
    forall s {
      ExpandMembers(TokensFrom(p, 0), s);
    }
  }

  /** A pattern without brackets has itself as its only variant. */
  lemma {:induction false} PlainExpansions(r: string)
    requires '[' !in r
    ensures Expansions(r) == [r]
    decreases |r|
  {
    if r != [] {
      PlainExpansions(r[1..]);
      PrefixAllSingle(r[0], [r[1..]]);
      assert Prefix(r[0], [r[1..]])[0] == [r[0]] + r[1..] == r;
      assert Expansions(r) == [r];
    }
  }

  lemma PlainPatternVariant(p: string)
    requires '[' !in p
    ensures BracketVariants(p) == [p]
  {
    PlainExpansions(p);
  }

  /** Depth-first order: option i of the first position comes before option i + 1. */
  lemma {:induction false} PrefixAllIndex(opts: seq<char>, es: seq<string>, i: nat, j: nat)
    requires i < |opts| && j < |es|
    ensures i * |es| + j < |PrefixAll(opts, es)|
    ensures PrefixAll(opts, es)[i * |es| + j] == [opts[i]] + es[j]
  {
    PrefixAllLength(opts, es);
    if i > 0 {
      PrefixAllIndex(opts[1..], es, i - 1, j);
      assert i * |es| + j == |es| + ((i - 1) * |es| + j);
    }
  }
}

=== FILE: pytext.dfy ===
/**
 * The parts of Python's string and number built-ins the drivers rely on:
 * str.upper/lower, str.strip, str.find, str.split, int(...) and float(...).
 */
module PyText {
  import opened Wrappers

  // ---------------------------------------------------------------- characters

  predicate IsDigit(c: char) { '0' <= c <= '9' }

  function DigitValue(c: char): (d: nat)
    requires IsDigit(c)
    ensures d < 10
  {
    c as int - '0' as int
  }

  function DigitChar(d: nat): (c: char)
    requires d < 10
    ensures IsDigit(c) && DigitValue(c) == d
  {
    ('0' as int + d) as char
  }

  /** The characters for which Python's str.isspace() holds. */
  predicate IsSpace(c: char) {
    c == ' ' || ('\t' <= c <= '\r') || ('\U{1C}' <= c <= '\U{1F}') ||
    c == '\U{85}' || c == '\U{A0}' || c == '\U{1680}' || ('\U{2000}' <= c <= '\U{200A}') ||
    c == '\U{2028}' || c == '\U{2029}' || c == '\U{202F}' || c == '\U{205F}' || c == '\U{3000}'
  }

  /** str.upper() on one character, for the ASCII letters. */
  function UpperChar(c: char): char {
    if 'a' <= c <= 'z' then (c as int - 32) as char else c
  }

  /** str.lower() on one character, for the ASCII letters. */
  function LowerChar(c: char): char {
    if 'A' <= c <= 'Z' then (c as int + 32) as char else c
  }

  function Upper(s: string): (r: string)
    ensures |r| == |s|
    ensures forall i :: 0 <= i < |s| ==> r[i] == UpperChar(s[i])
  {
    seq(|s|, i requires 0 <= i < |s| => UpperChar(s[i]))
  }

  function Lower(s: string): (r: string)
    ensures |r| == |s|
    ensures forall i :: 0 <= i < |s| ==> r[i] == LowerChar(s[i])
  {
    seq(|s|, i requires 0 <= i < |s| => LowerChar(s[i]))
  }

  lemma UpperIdempotent(s: string)
    ensures Upper(Upper(s)) == Upper(s)
  {
  }

  // ---------------------------------------------------------------- strip

  function TrimStart(s: string): (r: string)
    ensures |r| <= |s|
    ensures r == [] || !IsSpace(r[0])
  {
    if s == [] || !IsSpace(s[0]) then s else TrimStart(s[1..])
  }

  function TrimEnd(s: string): (r: string)
    ensures |r| <= |s|
    ensures r == [] || (!IsSpace(r[|r| - 1]) && r[0] == s[0])
  {
    if s == [] || !IsSpace(s[|s| - 1]) then s else TrimEnd(s[..|s| - 1])
  }

  /** str.strip(): the whitespace at both ends removed. */
  function Strip(s: string): (r: string)
    ensures r == [] || (!IsSpace(r[0]) && !IsSpace(r[|r| - 1]))
  {
    TrimEnd(TrimStart(s))
  }

  /** TrimStart removes a prefix made of whitespace only. */
  lemma {:induction false} TrimStartSpec(s: string)
    ensures TrimStart(s) == s[|s| - |TrimStart(s)|..]
    ensures forall i :: 0 <= i < |s| - |TrimStart(s)| ==> IsSpace(s[i])
  {
    if s != [] && IsSpace(s[0]) {
      TrimStartSpec(s[1..]);
      assert forall i :: 1 <= i < |s| ==> s[1..][i - 1] == s[i];
    }
  }

  /** TrimEnd removes a suffix made of whitespace only. */
  lemma {:induction false} TrimEndSpec(s: string)
    ensures TrimEnd(s) == s[..|TrimEnd(s)|]
    ensures forall i :: |TrimEnd(s)| <= i < |s| ==> IsSpace(s[i])
  {
    if s != [] && IsSpace(s[|s| - 1]) {
      TrimEndSpec(s[..|s| - 1]);
      assert forall i :: 0 <= i < |s| - 1 ==> s[..|s| - 1][i] == s[i];
    }
  }

  /** A string that starts and ends with non-whitespace is its own strip. */
  lemma StripUnchanged(s: string)
    requires s == [] || (!IsSpace(s[0]) && !IsSpace(s[|s| - 1]))
    ensures Strip(s) == s
  {
  }

  // ---------------------------------------------------------------- find, split

  /** str.find(c, from): the first index at or after `from` holding `c`, or -1. */
  function Find(s: string, c: char, from: nat): (r: int)
    ensures r == -1 || (from <= r < |s| && s[r] == c)
    decreases |s| - from
  {
    if from >= |s| then -1 else if s[from] == c then from else Find(s, c, from + 1)
  }

  /** str.find returns the first occurrence at or after `from`, and -1 only when there is none. */
  lemma {:induction false} FindFirst(s: string, c: char, from: nat)
    ensures Find(s, c, from) == -1 ==> forall k :: from <= k < |s| ==> s[k] != c
    ensures Find(s, c, from) != -1 ==> forall k :: from <= k < Find(s, c, from) ==> s[k] != c
    decreases |s| - from
  {
    if from < |s| && s[from] != c {
      FindFirst(s, c, from + 1);
    }
  }

  /** Python's `sub in s` for a four-character needle and `c in s` for one character. */
  predicate Contains(s: string, needle: string) {
    exists i :: 0 <= i <= |s| - |needle| && OccursAt(s, needle, i)
  }

  predicate OccursAt(s: string, needle: string, i: nat)
    requires i + |needle| <= |s|
  {
    s[i..i + |needle|] == needle
  }

  /** str.split(sep) for a one-character separator. */
  function Split(s: string, sep: char): (parts: seq<string>)
    ensures |parts| >= 1
    ensures forall k :: 0 <= k < |parts| ==> sep !in parts[k]
    decreases |s|
  {
    var i := Find(s, sep, 0);
    FindFirst(s, sep, 0);
    if i < 0 then [s] else [s[..i]] + Split(s[i + 1..], sep)
  }

  /** sep.join(parts). */
  function Join(parts: seq<string>, sep: char): string {
    if |parts| == 0 then "" else if |parts| == 1 then parts[0] else parts[0] + [sep] + Join(parts[1..], sep)
  }

  /** Joining the pieces of a split gives back the original string. */
  lemma {:induction false} JoinSplit(s: string, sep: char)
    ensures Join(Split(s, sep), sep) == s
    decreases |s|
  {
    var i := Find(s, sep, 0);
    if i >= 0 {
      JoinSplit(s[i + 1..], sep);
      assert s == s[..i] + [sep] + s[i + 1..];
    }
  }

  // ---------------------------------------------------------------- int(...)

  /**
   * One or more decimal digits, single underscores allowed between two
   * digits: the digit part Python's int() and float() accept.
   */
  predicate IsDigitGroup(s: string)
    decreases |s|
  {
    |s| > 0 && IsDigit(s[|s| - 1]) &&
    (|s| == 1 || IsDigitGroup(s[..|s| - 1]) || (|s| >= 3 && s[|s| - 2] == '_' && IsDigitGroup(s[..|s| - 2])))
  }

  /** A digit group starts with a digit and holds nothing but digits and underscores. */
  lemma {:induction false} GroupChars(s: string)
    requires IsDigitGroup(s)
    ensures IsDigit(s[0])
    ensures forall k :: 0 <= k < |s| ==> IsDigit(s[k]) || s[k] == '_'
    decreases |s|
  {
    if |s| > 1 {
      var n := if IsDigitGroup(s[..|s| - 1]) then |s| - 1 else |s| - 2;
      GroupChars(s[..n]);
      assert forall k :: 0 <= k < n ==> s[..n][k] == s[k];
    }
  }

  /** The value of the digits of `s`, underscores ignored. */
  function GroupValue(s: string): nat {
    if s == [] then 0
    else if IsDigit(s[|s| - 1]) then GroupValue(s[..|s| - 1]) * 10 + DigitValue(s[|s| - 1])
    else GroupValue(s[..|s| - 1])
  }

  /** The number of digits of `s`. */
  function DigitCount(s: string): nat {
    if s == [] then 0
    else (if IsDigit(s[|s| - 1]) then 1 else 0) + DigitCount(s[..|s| - 1])
  }

  predicate IsSign(c: char) { c == '+' || c == '-' }

  /** int(s) for a string: Some(value), or None where Python raises ValueError. */
  function ParseInt(s: string): Option<int> {
    var t := Strip(s);
    if |t| > 0 && IsSign(t[0]) then
      if IsDigitGroup(t[1..]) then Some(if t[0] == '-' then -(GroupValue(t[1..]) as int) else GroupValue(t[1..]) as int) else None
    else if IsDigitGroup(t) then Some(GroupValue(t))
    else None
  }

  /** The decimal digits of n, without leading zeros. */
  function DecimalDigits(n: nat): (s: string)
    ensures |s| > 0 && forall i :: 0 <= i < |s| ==> IsDigit(s[i])
  {
    if n < 10 then [DigitChar(n)] else DecimalDigits(n / 10) + [DigitChar(n % 10)]
  }

  /** str(k) for an int. */
  function FormatInt(k: int): string {
    if k < 0 then "-" + DecimalDigits(-k) else DecimalDigits(k)
  }

  lemma {:induction false} DecimalDigitsValue(n: nat)
    ensures GroupValue(DecimalDigits(n)) == n
    ensures DigitCount(DecimalDigits(n)) == |DecimalDigits(n)|
    decreases n
  {
    var s := DecimalDigits(n);
    if n >= 10 {
      DecimalDigitsValue(n / 10);
      assert s[..|s| - 1] == DecimalDigits(n / 10);
    } else {
      assert s[..|s| - 1] == [];
    }
  }

  /** A string of plain digits is a digit group and has no whitespace at its ends. */
  lemma {:induction false} AllDigitsIsGroup(s: string)
    requires |s| > 0 && forall i :: 0 <= i < |s| ==> IsDigit(s[i])
    ensures IsDigitGroup(s)
    decreases |s|
  {
    if |s| > 1 {
      var p := s[..|s| - 1];
      assert forall i :: 0 <= i < |p| ==> p[i] == s[i];
      AllDigitsIsGroup(p);
    }
  }

  /** Plain digits parse as their value, with or without a leading minus sign. */
  lemma DigitsParse(d: string)
    requires |d| > 0 && forall i :: 0 <= i < |d| ==> IsDigit(d[i])
    ensures ParseInt(d) == Some(GroupValue(d) as int)
    ensures ParseInt("-" + d) == Some(-(GroupValue(d) as int))
  {
    AllDigitsIsGroup(d);
    UnsignedDigitsParse(d);
    SignedDigitsParse(d);
  }

  /** A digit group parses as its value. */
  lemma UnsignedDigitsParse(g: string)
    requires IsDigitGroup(g)
    ensures ParseInt(g) == Some(GroupValue(g) as int)
  {
    GroupChars(g);
    StripUnchanged(g);
  }

  /** A minus sign before a digit group parses as the negated value. */
  lemma SignedDigitsParse(g: string)
    requires IsDigitGroup(g)
    ensures ParseInt("-" + g) == Some(-(GroupValue(g) as int))
  {
    GroupChars(g);
    var f := "-" + g;
    assert f[1..] == g && f[0] == '-' && f[|f| - 1] == g[|g| - 1];
    StripUnchanged(f);
  }

  /** int(str(k)) == k. */
  lemma FormatIntParses(k: int)
    ensures ParseInt(FormatInt(k)) == Some(k)
  {
    var n: nat := if k < 0 then -k else k;
    var d := DecimalDigits(n);
    DecimalDigitsValue(n);
    DigitsParse(d);
  }

  // ---------------------------------------------------------------- float(...)

  function Pow10(n: nat): (p: nat)
    ensures p >= 1
  {
    if n == 0 then 1 else 10 * Pow10(n - 1)
  }

  /** The first index holding 'e' or 'E', or -1. */
  function ExponentMark(s: string, from: nat): (r: int)
    ensures r == -1 || (from <= r < |s| && (s[r] == 'e' || s[r] == 'E'))
    ensures r == -1 ==> forall k :: from <= k < |s| ==> s[k] != 'e' && s[k] != 'E'
    decreases |s| - from
  {
    if from >= |s| then -1 else if s[from] == 'e' || s[from] == 'E' then from else ExponentMark(s, from + 1)
  }

  /** A mantissa: digits with an optional fraction point, at least one digit in all. */
  function ParseMantissa(m: string): Option<real> {
    var dot := Find(m, '.', 0);
    if dot < 0 then
      if IsDigitGroup(m) then Some(GroupValue(m) as real) else None
    else
      var ip, fp := m[..dot], m[dot + 1..];
      if (ip == "" || IsDigitGroup(ip)) && (fp == "" || IsDigitGroup(fp)) && !(ip == "" && fp == "") then
        Some(GroupValue(ip) as real + GroupValue(fp) as real / Pow10(DigitCount(fp)) as real)
      else None
  }

  /** An optionally signed digit group, the exponent of a float literal. */
  function ParseExponent(e: string): Option<int> {
    if |e| > 0 && IsSign(e[0]) then
      if IsDigitGroup(e[1..]) then Some(if e[0] == '-' then -(GroupValue(e[1..]) as int) else GroupValue(e[1..]) as int) else None
    else if IsDigitGroup(e) then Some(GroupValue(e))
    else None
  }

  function Scale10(v: real, e: int): real {
    if e >= 0 then v * Pow10(e) as real else v / Pow10(-e) as real
  }

  function ParseUnsignedFloat(t: string): Option<real> {
    var e := ExponentMark(t, 0);
    if e < 0 then ParseMantissa(t)
    else
      match (ParseMantissa(t[..e]), ParseExponent(t[e + 1..]))
      case (Some(v), Some(x)) => Some(Scale10(v, x))
      case _ => None
  }

  /**
   * float(s) for a string holding a finite decimal literal: Some(exact value),
   * or None where Python raises ValueError.
   */
  function ParseFloat(s: string): Option<real> {
    var t := Strip(s);
    if |t| > 0 && IsSign(t[0]) then
      match ParseUnsignedFloat(t[1..])
      case Some(v) => Some(if t[0] == '-' then -v else v)
      case None => None
    else ParseUnsignedFloat(t)
  }

  /** A mantissa that is empty or starts with neither a digit nor a point is rejected. */
  lemma MantissaRejected(m: string)
    requires m == [] || (!IsDigit(m[0]) && m[0] != '.')
    ensures ParseMantissa(m).None?
  {
    var dot := Find(m, '.', 0);
    if dot < 0 {
      NotDigitGroup(m);
    } else {
      var ip := m[..dot];
      assert ip != "" && ip[0] == m[0];
      NotDigitGroup(ip);
    }
  }

  lemma NotDigitGroup(s: string)
    requires s == [] || !IsDigit(s[0])
    ensures !IsDigitGroup(s)
  {
    if IsDigitGroup(s) {
      GroupChars(s);
    }
  }

  /**
   * Text that starts with no digit, point, sign or space, such as "Error" or
   * "N/A", is not a float literal.
   */
  lemma NonNumericText(s: string)
    requires |s| > 0 && !IsSpace(s[0]) && !IsSpace(s[|s| - 1])
    requires !IsDigit(s[0]) && s[0] != '.' && !IsSign(s[0])
    ensures ParseFloat(s).None?
  {
    StripUnchanged(s);
    var e := ExponentMark(s, 0);
    if e < 0 {
      MantissaRejected(s);
    } else {
      if e > 0 {
        assert s[..e][0] == s[0];
      }
      MantissaRejected(s[..e]);
    }
  }

  /** A digit group holds neither a fraction point nor an exponent mark. */
  lemma DigitGroupIsPlainFloat(g: string)
    requires IsDigitGroup(g)
    ensures ParseUnsignedFloat(g) == Some(GroupValue(g) as real)
  {
    GroupMarks(g);
  }

  lemma GroupMarks(g: string)
    requires IsDigitGroup(g)
    ensures ExponentMark(g, 0) == -1 && Find(g, '.', 0) == -1
  {
    GroupChars(g);
  }

  /** Whatever int() accepts, float() accepts with the same value. */
  lemma ParseIntThenFloat(s: string)
    requires ParseInt(s).Some?
    ensures ParseFloat(s) == Some(ParseInt(s).value as real)
  {
    var t := Strip(s);
    if |t| > 0 && IsSign(t[0]) {
      DigitGroupIsPlainFloat(t[1..]);
    } else {
      DigitGroupIsPlainFloat(t);
    }
  }

  /** The comma-separated integer list `list(map(int, s.split(",")))`. */
  function ParseIntList(s: string): (r: Option<seq<int>>)
    ensures r.Some? ==> |r.value| == |Split(s, ',')|
  {
    ParseAll(Split(s, ','))
  }

  function ParseAll(parts: seq<string>): (r: Option<seq<int>>)
    ensures r.Some? <==> forall k :: 0 <= k < |parts| ==> ParseInt(parts[k]).Some?
    ensures r.Some? ==> |r.value| == |parts| && forall k :: 0 <= k < |parts| ==> r.value[k] == ParseInt(parts[k]).value
  {
    if parts == [] then Some([])
    else match (ParseInt(parts[0]), ParseAll(parts[1..]))
      case (Some(x), Some(xs)) => Some([x] + xs)
      case _ => None
  }

  /** The text form ",".join(str(x) for x in l) of an integer list. */
  function FormatIntList(l: seq<int>): string {
    Join(seq(|l|, i requires 0 <= i < |l| => FormatInt(l[i])), ',')
  }

  lemma FormatIntHasNoComma(k: int)
    ensures ',' !in FormatInt(k)
  {
    var d := DecimalDigits(if k < 0 then -k else k);
    assert forall i :: 0 <= i < |d| ==> d[i] != ',';
    if k < 0 {
      assert FormatInt(k) == "-" + d;
    }
  }

  /** Splitting a join of separator-free pieces gives back the pieces. */
  lemma {:induction false} SplitJoin(parts: seq<string>, sep: char)
    requires |parts| >= 1
    requires forall k :: 0 <= k < |parts| ==> sep !in parts[k]
    ensures Split(Join(parts, sep), sep) == parts
    decreases |parts|
  {
    var s := Join(parts, sep);
    if |parts| == 1 {
      assert Find(s, sep, 0) == -1;
    } else {
      var rest := Join(parts[1..], sep);
      assert s == parts[0] + [sep] + rest;
      var i := |parts[0]|;
      assert s[i] == sep;
      assert forall k :: 0 <= k < i ==> s[k] == parts[0][k];
      FindFirst(s, sep, 0);
      assert Find(s, sep, 0) == i;
      assert s[..i] == parts[0];
      assert s[i + 1..] == rest;
      SplitJoin(parts[1..], sep);
    }
  }

  /** The text form of a non-empty integer list parses back to the list. */
  lemma IntListRoundTrip(l: seq<int>)
    requires |l| >= 1
    ensures ParseIntList(FormatIntList(l)) == Some(l)
  {
    var parts := seq(|l|, i requires 0 <= i < |l| => FormatInt(l[i]));
    forall k | 0 <= k < |parts| ensures ',' !in parts[k] && ParseInt(parts[k]) == Some(l[k]) {
      FormatIntHasNoComma(l[k]);
      FormatIntParses(l[k]);
    }
    SplitJoin(parts, ',');
    assert Split(FormatIntList(l), ',') == parts;
    var r := ParseAll(parts);
    assert r.Some? && |r.value| == |l|;
    assert forall k :: 0 <= k < |l| ==> r.value[k] == l[k];
    assert r.value == l;
    assert ParseIntList(FormatIntList(l)) == r;
  }

  // ---------------------------------------------------------------- values

  /** The dynamically typed values that reach int(...) and float(...). */
  datatype PyValue = PyInt(i: int) | PyFloat(r: real) | PyStr(s: string) | PyNone

  /** The exceptions those conversions raise. */
  datatype PyError = ValueError | TypeError

  /** Truncation toward zero, Python's int() on a float. */
  function Trunc(r: real): int {
    if r >= 0.0 then r.Floor else -((-r).Floor)
  }

  /** float(v). */
  function ToFloat(v: PyValue): (r: Result<real, PyError>)
    ensures v.PyInt? ==> r == Ok(v.i as real)
    ensures v.PyFloat? ==> r == Ok(v.r)
    ensures v.PyStr? ==> (r.Ok? <==> ParseFloat(v.s).Some?) && (r.Ok? ==> r.value == ParseFloat(v.s).value)
    ensures v.PyStr? ==> r != Err(TypeError)
    ensures v.PyNone? <==> r == Err(TypeError)
  {
    match v
    case PyInt(i) => Ok(i as real)
    case PyFloat(x) => Ok(x)
    case PyStr(s) => if ParseFloat(s).Some? then Ok(ParseFloat(s).value) else Err(ValueError)
    case PyNone => Err(TypeError)
  }

  /** int(v). */
  function ToInt(v: PyValue): Result<int, PyError> {
    match v
    case PyInt(i) => Ok(i)
    case PyFloat(x) => Ok(Trunc(x))
    case PyStr(s) => if ParseInt(s).Some? then Ok(ParseInt(s).value) else Err(ValueError)
    case PyNone => Err(TypeError)
  }
}

=== FILE: ranking.dfy ===
/**
 * The composite score and the category ladder shared by
 * add_immunogenicity_scores.py and peptide_analysis/combined_result.py, and
 * Python's round(x, 4) on exact reals.
 */
module Ranking {

  // ---------------------------------------------------------------------------
  // The composite score
  // ---------------------------------------------------------------------------

  /** imm * 0.5 + (1 - pr / 100) * 0.3 + score * 0.2, without rounding. */
  function Composite(imm: real, pr: real, score: real): real {
    imm * 0.5 + (1.0 - pr / 100.0) * 0.3 + score * 0.2
  }

  /** A higher immunogenicity, a lower rank or a higher binding score never lowers the composite. */
  lemma CompositeMonotone(imm1: real, pr1: real, s1: real, imm2: real, pr2: real, s2: real)
    requires imm1 <= imm2 && pr2 <= pr1 && s1 <= s2
    ensures Composite(imm1, pr1, s1) <= Composite(imm2, pr2, s2)
  {
    assert (1.0 - pr1 / 100.0) * 0.3 <= (1.0 - pr2 / 100.0) * 0.3;
  }

  /** For inputs in their natural ranges the composite is a weighted average, between 0 and 1. */
  lemma CompositeBounds(imm: real, pr: real, score: real)
    requires 0.0 <= imm <= 1.0 && 0.0 <= pr <= 100.0 && 0.0 <= score <= 1.0
    ensures 0.0 <= Composite(imm, pr, score) <= 1.0
  {
    CompositeMonotone(0.0, 100.0, 0.0, imm, pr, score);
    CompositeMonotone(imm, pr, score, 1.0, 0.0, 1.0);
  }

  // ---------------------------------------------------------------------------
  // The category ladder
  // ---------------------------------------------------------------------------

  /** The four rungs; the last one is labelled differently by the two callers. */
  datatype Category = Excellent | Good | Consider | Low

  predicate ExcellentBand(imm: real, pr: real, score: real) {
    imm > 0.3 && pr < 0.1 && score > 0.95
  }

  predicate GoodBand(imm: real, pr: real, score: real) {
    imm > 0.0 && pr < 0.5 && score > 0.9
  }

  predicate ConsiderBand(imm: real, pr: real, score: real) {
    imm > 0.0 && pr < 1.0 && score > 0.8
  }

  /** The first rung whose conditions hold. */
  function Ladder(imm: real, pr: real, score: real): Category {
    if ExcellentBand(imm, pr, score) then Excellent
    else if GoodBand(imm, pr, score) then Good
    else if ConsiderBand(imm, pr, score) then Consider
    else Low
  }

  /** The height of a rung. */
  function Tier(c: Category): (t: nat)
    ensures t <= 3
  {
    match c
    case Excellent => 3
    case Good => 2
    case Consider => 1
    case Low => 0
  }

  /** The bands nest: an excellent peptide is good, and a good one is worth considering. */
  lemma BandsNest(imm: real, pr: real, score: real)
    ensures ExcellentBand(imm, pr, score) ==> GoodBand(imm, pr, score)
    ensures GoodBand(imm, pr, score) ==> ConsiderBand(imm, pr, score)
  {
  }

  /**
   * Because the bands nest, the first match is the highest rung reached: the
   * tier counts the bands whose conditions hold.
   */
  lemma LadderCountsBands(imm: real, pr: real, score: real)
    ensures Tier(Ladder(imm, pr, score)) ==
      (if ExcellentBand(imm, pr, score) then 1 else 0) +
      (if GoodBand(imm, pr, score) then 1 else 0) +
      (if ConsiderBand(imm, pr, score) then 1 else 0)
  {
    BandsNest(imm, pr, score);
  }

  /** Better inputs never give a lower rung. */
  lemma LadderMonotone(imm1: real, pr1: real, s1: real, imm2: real, pr2: real, s2: real)
    requires imm1 <= imm2 && pr2 <= pr1 && s1 <= s2
    ensures Tier(Ladder(imm1, pr1, s1)) <= Tier(Ladder(imm2, pr2, s2))
  {
    LadderCountsBands(imm1, pr1, s1);
    LadderCountsBands(imm2, pr2, s2);
  }

  /** A non-positive immunogenicity reaches no rung above the last. */
  lemma NonPositiveIsLow(imm: real, pr: real, score: real)
    requires imm <= 0.0
    ensures Ladder(imm, pr, score) == Low
  {
  }

  // ---------------------------------------------------------------------------
  // round(x, 4)
  // ---------------------------------------------------------------------------

  /** The integer nearest to y, ties to the even neighbour. */
  function RoundHalfEven(y: real): (n: int)
    ensures -0.5 <= n as real - y <= 0.5
  {
    var f := y.Floor;
    var d := y - f as real;
    if d < 0.5 then f
    else if d > 0.5 then f + 1
    else if f % 2 == 0 then f else f + 1
  }

  lemma RoundHalfEvenMonotone(a: real, b: real)
    requires a <= b
    ensures RoundHalfEven(a) <= RoundHalfEven(b)
  {
    var fa, fb := a.Floor, b.Floor;
    if fa == fb {
      assert a - fa as real <= b - fb as real;
    } else {
      assert fa < fb;
    }
  }

  lemma RoundHalfEvenOfInt(n: int)
    ensures RoundHalfEven(n as real) == n
  {
    assert (n as real).Floor == n;
  }

  /** round(x, 4) on the exact value: within half a unit of the fourth decimal. */
  function Round4(x: real): (r: real)
    ensures -0.00005 <= r - x <= 0.00005
  {
    RoundHalfEven(x * 10000.0) as real / 10000.0
  }

  lemma Round4Monotone(x: real, y: real)
    requires x <= y
    ensures Round4(x) <= Round4(y)
  {
    RoundHalfEvenMonotone(x * 10000.0, y * 10000.0);
  }

  /** A value already rounded to four decimals is left as it is. */
  lemma Round4Idempotent(x: real)
    ensures Round4(Round4(x)) == Round4(x)
  {
    var n := RoundHalfEven(x * 10000.0);
    assert Round4(x) * 10000.0 == n as real;
    RoundHalfEvenOfInt(n);
  }
}

=== FILE: scoring.dfy ===
/**
 * The position-weighted immunogenicity score, in exact fixed point.
 *
 * A score is an integer count of 1e-5 units: weight (hundredths) times scale
 * (thousandths).  Rounding to five decimals, as every scorer does before
 * returning, is therefore the identity on these values.
 */
module Scoring {
  import opened Wrappers
  import opened Tables

  predicate AllResidues(p: string) {
    forall i :: 0 <= i < |p| ==> IsResidue(p[i])
  }

  /** Every position that is not masked holds a residue of the scale. */
  predicate ScorableUnder(p: string, mask: seq<int>, k: nat)
    requires k <= |p|
  {
    forall i :: 0 <= i < k && i !in mask ==> IsResidue(p[i])
  }

  /** The contribution of position i: nothing when it is masked. */
  function Term(p: string, w: seq<int>, mask: seq<int>, i: nat): int
    requires i < |p| && i < |w|
    requires i in mask || IsResidue(p[i])
  {
    if i in mask then 0 else w[i] * Scale(p[i])
  }

  /** The sum of the contributions of the first k positions. */
  function Sum(p: string, w: seq<int>, mask: seq<int>, k: nat): int
    requires k <= |p| && k <= |w|
    requires ScorableUnder(p, mask, k)
  {
    if k == 0 then 0 else Sum(p, w, mask, k - 1) + Term(p, w, mask, k - 1)
  }

  /**
   * The score of peptide p under weights w and mask: 0 when p holds a symbol
   * outside the scale, else the weighted sum over the unmasked positions.
   */
  function Score(p: string, w: seq<int>, mask: seq<int>): int
    requires |p| <= |w|
  {
    if AllResidues(p) then Sum(p, w, mask, |p|) else 0
  }

  /**
   * The scoring loop of gui.py and mhc.py: an unknown residue returns 0 at
   * once, and a position contributes when it is unmasked and has a weight.
   */
  method GuardedLoop(p: string, w: seq<int>, mask: seq<int>) returns (score: int)
    requires |p| <= |w|
    ensures score == Score(p, w, mask)
    ensures !AllResidues(p) ==> score == 0
  {
    score := 0;
    var i := 0;
    while i < |p|
      invariant 0 <= i <= |p|
      invariant forall j :: 0 <= j < i ==> IsResidue(p[j])
      invariant score == Sum(p, w, mask, i)
    {
      if p[i] !in ImmunoScale {
        ScaleCoversAlphabet(p[i]);
        return 0;
      }
      ScaleCoversAlphabet(p[i]);
      if i !in mask && i < |w| {
        score := score + w[i] * ImmunoScale[p[i]];
      }
      i := i + 1;
    }
  }

  /**
   * The scoring loop of core.py: an unknown residue returns 0 at once, an
   * unmasked position contributes w[min(i, |w| - 1)].
   */
  method ClampedLoop(p: string, w: seq<int>, mask: seq<int>) returns (score: int)
    requires |p| <= |w|
    ensures score == Score(p, w, mask)
  {
    score := 0;
    var count := 0;
    while count < |p|
      invariant 0 <= count <= |p|
      invariant forall j :: 0 <= j < count ==> IsResidue(p[j])
      invariant score == Sum(p, w, mask, count)
    {
      ScaleCoversAlphabet(p[count]);
      if p[count] !in ImmunoScale {
        return 0;
      } else if count !in mask {
        var k := if count < |w| - 1 then count else |w| - 1;
        score := score + w[k] * ImmunoScale[p[count]];
      }
      count := count + 1;
    }
  }

  /** The score of a peptide whose every symbol is a residue, None (a KeyError) otherwise. */
  function CheckedScore(p: string, w: seq<int>, mask: seq<int>): (r: Option<int>)
    requires |p| <= |w|
    ensures r.Some? <==> AllResidues(p)
    ensures r.Some? ==> r.value == Score(p, w, mask)
  {
    if AllResidues(p) then Some(Sum(p, w, mask, |p|)) else None
  }

  /**
   * The scoring loop of immunogenicity.py: an unknown residue raises KeyError
   * (None here) whether or not its position is masked.
   */
  method RaisingLoop(p: string, w: seq<int>, mask: seq<int>) returns (r: Option<int>)
    requires |p| <= |w|
    ensures r == CheckedScore(p, w, mask)
  {
    var score := 0;
    var pos := 0;
    while pos < |p|
      invariant 0 <= pos <= |p|
      invariant forall j :: 0 <= j < pos ==> IsResidue(p[j])
      invariant score == Sum(p, w, mask, pos)
    {
      ScaleCoversAlphabet(p[pos]);
      if p[pos] !in ImmunoScale {
        return None;
      } else if pos !in mask {
        score := score + w[pos] * ImmunoScale[p[pos]];
      }
      pos := pos + 1;
    }
    return Some(score);
  }

  /** The score when every unmasked symbol is a residue, None (a KeyError) otherwise. */
  function LookupScore(p: string, w: seq<int>, mask: seq<int>): (r: Option<int>)
    requires |p| <= |w|
    ensures r.Some? <==> ScorableUnder(p, mask, |p|)
  {
    if ScorableUnder(p, mask, |p|) then Some(Sum(p, w, mask, |p|)) else None
  }

  /**
   * The scoring loop of add_immunogenicity_scores.py: the scale is looked up
   * only at unmasked positions, where an unknown symbol raises KeyError.
   */
  method LookupLoop(p: string, w: seq<int>, mask: seq<int>) returns (r: Option<int>)
    requires |p| <= |w|
    ensures r == LookupScore(p, w, mask)
  {
    var score := 0;
    var count := 0;
    while count < |p|
      invariant 0 <= count <= |p|
      invariant ScorableUnder(p, mask, count)
      invariant score == Sum(p, w, mask, count)
    {
      if count !in mask {
        ScaleCoversAlphabet(p[count]);
        if p[count] !in ImmunoScale {
          return None;
        }
        score := score + w[count] * ImmunoScale[p[count]];
      }
      count := count + 1;
    }
    return Some(score);
  }

  /** A peptide of residues is scorable under any mask, to the same score. */
  lemma LookupOfResidues(p: string, w: seq<int>, mask: seq<int>)
    requires |p| <= |w| && AllResidues(p)
    ensures LookupScore(p, w, mask) == CheckedScore(p, w, mask)
  {
  }

  // ---------------------------------------------------------------------------
  // Properties of the score.
  // ---------------------------------------------------------------------------

  /** Sums agree when the weights agree on every position that is unmasked in either mask. */
  lemma {:induction false} SumAgrees(p: string, w1: seq<int>, m1: seq<int>, w2: seq<int>, m2: seq<int>, k: nat)
    requires k <= |p| && k <= |w1| && k <= |w2|
    requires forall i :: 0 <= i < k ==> IsResidue(p[i])
    requires forall i :: 0 <= i < k && i !in m1 && i !in m2 ==> w1[i] == w2[i]
    requires forall i :: 0 <= i < k && (i in m1) != (i in m2) ==> w1[i] == 0 && w2[i] == 0
    ensures Sum(p, w1, m1, k) == Sum(p, w2, m2, k)
  {
    if k > 0 {
      var i := k - 1;
      SumAgrees(p, w1, m1, w2, m2, i);
      assert IsResidue(p[i]);
      assert Term(p, w1, m1, i) == Term(p, w2, m2, i) by {
        if (i in m1) != (i in m2) {
          assert w1[i] == 0 && w2[i] == 0;
        } else if i !in m1 {
          assert w1[i] == w2[i];
        }
      }
    }
  }

  /** Only the weights of the peptide's own positions matter. */
  lemma WeightsBeyondIrrelevant(p: string, w1: seq<int>, w2: seq<int>, mask: seq<int>)
    requires |p| <= |w1| && |p| <= |w2|
    requires forall i :: 0 <= i < |p| ==> w1[i] == w2[i]
    ensures Score(p, w1, mask) == Score(p, w2, mask)
  {
    if AllResidues(p) {
      SumAgrees(p, w1, mask, w2, mask, |p|);
    }
  }

  /** The full and the truncated weight vectors give the same score. */
  lemma FullWeightsSameScore(p: string, mask: seq<int>)
    ensures Score(p, FullWeights(|p|), mask) == Score(p, Weights(|p|), mask)
  {
    WeightsBeyondIrrelevant(p, FullWeights(|p|), Weights(|p|), mask);
  }

  /** For peptides of length 9 or more the default mask removes only zero weights. */
  lemma DefaultMaskInert(p: string)
    requires |p| >= 9
    ensures Score(p, Weights(|p|), DefaultMask(|p|)) == Score(p, Weights(|p|), [])
  {
    var n := |p|;
    AnchorWeightsZero(n);
    if AllResidues(p) {
      SumAgrees(p, Weights(n), DefaultMask(n), Weights(n), [], n);
    }
  }

  /** Sums are unchanged by a change of residue at a masked position. */
  lemma {:induction false} SumMaskedChange(p: string, q: string, w: seq<int>, mask: seq<int>, k: nat)
    requires k <= |p| == |q| && k <= |w|
    requires ScorableUnder(p, mask, k) && ScorableUnder(q, mask, k)
    requires forall i :: 0 <= i < k && i !in mask ==> p[i] == q[i]
    ensures Sum(p, w, mask, k) == Sum(q, w, mask, k)
  {
    if k > 0 {
      SumMaskedChange(p, q, w, mask, k - 1);
    }
  }

  /** Replacing a masked residue by another residue of the scale leaves the score unchanged. */
  lemma MaskedResidueIrrelevant(p: string, q: string, w: seq<int>, mask: seq<int>)
    requires |p| == |q| <= |w|
    requires AllResidues(p) && AllResidues(q)
    requires forall i :: 0 <= i < |p| && i !in mask ==> p[i] == q[i]
    ensures Score(p, w, mask) == Score(q, w, mask)
  {
    SumMaskedChange(p, q, w, mask, |p|);
  }
}

=== FILE: seqs.dfy ===
/**
 * Sequence utilities standing for Python's list comprehensions with a
 * condition, the stable `list.sort(key=..., reverse=True)` and `sorted(set)`.
 */
module Seqs {

  /** `[x for x in s if p(x)]`, defined from the back so that loops appending one element match it. */
  function Filter<T>(s: seq<T>, p: T -> bool): (r: seq<T>)
    ensures |r| <= |s|
  {
    if s == [] then []
    else Filter(s[..|s| - 1], p) + (if p(s[|s| - 1]) then [s[|s| - 1]] else [])
  }

  /** The filter holds exactly the elements of s that satisfy p. */
  lemma {:induction false} FilterMembers<T>(s: seq<T>, p: T -> bool)
    ensures forall x :: x in Filter(s, p) <==> x in s && p(x)
  {
    if s != [] {
      FilterMembers(s[..|s| - 1], p);
      assert s == s[..|s| - 1] + [s[|s| - 1]];
    }
  }

  /** The set of the elements of a sequence. */
  function Elements<T(!new)>(s: seq<T>): (r: set<T>)
    ensures forall x :: x in r <==> x in s
  {
    set x | x in s
  }

  /** `[f(x) for x in s]`, defined from the back like Filter. */
  function MapSeq<A, B>(f: A -> B, s: seq<A>): (r: seq<B>)
    ensures |r| == |s|
  {
    if s == [] then [] else MapSeq(f, s[..|s| - 1]) + [f(s[|s| - 1])]
  }

  /** The i-th element of the image is the image of the i-th element. */
  lemma {:induction false} MapSeqPointwise<A, B>(f: A -> B, s: seq<A>, i: nat)
    requires i < |s|
    ensures MapSeq(f, s)[i] == f(s[i])
  {
    if i < |s| - 1 {
      MapSeqPointwise(f, s[..|s| - 1], i);
    }
  }

  /** Mapping a prefix one element longer appends one image. */
  lemma MapSeqSnoc<A, B>(f: A -> B, s: seq<A>, k: nat)
    requires k < |s|
    ensures MapSeq(f, s[..k + 1]) == MapSeq(f, s[..k]) + [f(s[k])]
  {
    assert s[..k + 1][..k] == s[..k];
  }

  /** The elements of b whose flag in m is set, in order: `b[m]` for a boolean mask. */
  function Select<T>(b: seq<T>, m: seq<bool>): seq<T>
    requires |m| == |b|
  {
    if b == [] then []
    else Select(b[..|b| - 1], m[..|m| - 1]) + (if m[|m| - 1] then [b[|b| - 1]] else [])
  }

  /** `a` is obtained from `b` by deleting elements, keeping order. */
  ghost predicate IsSubsequence<T>(a: seq<T>, b: seq<T>) {
    exists m: seq<bool> :: |m| == |b| && a == Select(b, m)
  }

  /** The flags of a filter: which elements satisfy its condition. */
  function Flags<T>(s: seq<T>, p: T -> bool): (m: seq<bool>)
    ensures |m| == |s|
  {
    seq(|s|, i requires 0 <= i < |s| => p(s[i]))
  }

  lemma {:induction false} FilterIsSelect<T>(s: seq<T>, p: T -> bool)
    ensures Filter(s, p) == Select(s, Flags(s, p))
  {
    if s != [] {
      var init := s[..|s| - 1];
      FilterIsSelect(init, p);
      assert Flags(s, p)[..|s| - 1] == Flags(init, p);
    }
  }

  /** Selecting by a mask that holds p of each element is filtering by p. */
  lemma SelectByMask<T>(s: seq<T>, m: seq<bool>, p: T -> bool)
    requires |m| == |s| && forall i :: 0 <= i < |s| ==> m[i] == p(s[i])
    ensures Select(s, m) == Filter(s, p)
  {
    FilterIsSelect(s, p);
    assert m == Flags(s, p);
  }

  /** Selecting by a mask is filtering by every predicate the mask holds. */
  lemma SelectFilters<T>(s: seq<T>, m: seq<bool>)
    requires |m| == |s|
    ensures forall p: T -> bool :: (forall i :: 0 <= i < |s| ==> m[i] == p(s[i])) ==> Select(s, m) == Filter(s, p)
  {
    forall p: T -> bool | forall i :: 0 <= i < |s| ==> m[i] == p(s[i])
      ensures Select(s, m) == Filter(s, p)
    {
      SelectByMask(s, m, p);
    }
  }

  /** A filter keeps the order of its input: its result is a subsequence. */
  lemma FilterIsSubsequence<T>(s: seq<T>, p: T -> bool)
    ensures IsSubsequence(Filter(s, p), s)
  {
    FilterIsSelect(s, p);
  }

  /** The number of set flags. */
  function Count(m: seq<bool>): nat {
    if m == [] then 0 else Count(m[..|m| - 1]) + (if m[|m| - 1] then 1 else 0)
  }

  lemma {:induction false} SelectLength<T>(b: seq<T>, m: seq<bool>)
    requires |m| == |b|
    ensures |Select(b, m)| == Count(m)
  {
    if b != [] {
      SelectLength(b[..|b| - 1], m[..|m| - 1]);
    }
  }

  /** The mask on c of selecting with m2 and then with m1. */
  function Compose(m2: seq<bool>, m1: seq<bool>): (m: seq<bool>)
    requires |m1| == Count(m2)
    ensures |m| == |m2|
  {
    if m2 == [] then []
    else if m2[|m2| - 1] then Compose(m2[..|m2| - 1], m1[..|m1| - 1]) + [m1[|m1| - 1]]
    else Compose(m2[..|m2| - 1], m1) + [false]
  }

  lemma {:induction false} SelectCompose<T>(c: seq<T>, m2: seq<bool>, m1: seq<bool>)
    requires |m2| == |c| && |m1| == Count(m2)
    ensures |Select(c, m2)| == |m1|
    ensures Select(Select(c, m2), m1) == Select(c, Compose(m2, m1))
  {
    SelectLength(c, m2);
    if c != [] {
      var c0, m20 := c[..|c| - 1], m2[..|m2| - 1];
      var s0 := Select(c0, m20);
      SelectLength(c0, m20);
      var m := Compose(m2, m1);
      if m2[|m2| - 1] {
        var m10 := m1[..|m1| - 1];
        SelectCompose(c0, m20, m10);
        var s := s0 + [c[|c| - 1]];
        assert s[..|s| - 1] == s0;
        assert m[..|m| - 1] == Compose(m20, m10);
      } else {
        SelectCompose(c0, m20, m1);
        assert Select(c, m2) == s0;
        assert m[..|m| - 1] == Compose(m20, m1) && !m[|m| - 1];
        assert Select(c, m) == Select(c0, Compose(m20, m1));
      }
    }
  }

  /** A subsequence of a subsequence is a subsequence. */
  lemma SubsequenceTransitive<T>(a: seq<T>, b: seq<T>, c: seq<T>)
    requires IsSubsequence(a, b) && IsSubsequence(b, c)
    ensures IsSubsequence(a, c)
  {
    var m1 :| |m1| == |b| && a == Select(b, m1);
    var m2 :| |m2| == |c| && b == Select(c, m2);
    SelectLength(c, m2);
    SelectCompose(c, m2, m1);
  }

  /** A sequence is a subsequence of itself. */
  lemma SubsequenceReflexive<T>(a: seq<T>)
    ensures IsSubsequence(a, a)
  {
    FilterAll(a, x => true);
    FilterIsSubsequence(a, x => true);
  }

  /** A one-element list is kept exactly when its element passes. */
  lemma FilterSingle<T>(x: T, p: T -> bool)
    ensures Filter([x], p) == if p(x) then [x] else []
  {
    assert [x][..0] == [];
  }

  /** The filter of a concatenation is the concatenation of the filters. */
  lemma {:induction false} FilterAppend<T>(a: seq<T>, b: seq<T>, p: T -> bool)
    ensures Filter(a + b, p) == Filter(a, p) + Filter(b, p)
    decreases |b|
  {
    if b == [] {
      assert a + b == a;
    } else {
      var bi := b[..|b| - 1];
      var x := b[|b| - 1];
      var tail := if p(x) then [x] else [];
      FilterAppend(a, bi, p);
      assert (a + b)[..|a + b| - 1] == a + bi;
      assert (a + b)[|a + b| - 1] == x;
      calc {
        Filter(a + b, p);
        Filter(a + bi, p) + tail;
        (Filter(a, p) + Filter(bi, p)) + tail;
        Filter(a, p) + (Filter(bi, p) + tail);
        Filter(a, p) + Filter(b, p);
      }
    }
  }

  /** Filtering with p and then with q is filtering with a condition that is both. */
  lemma {:induction false} FilterCompose<T>(s: seq<T>, p: T -> bool, q: T -> bool, pq: T -> bool)
    requires forall x :: pq(x) == (p(x) && q(x))
    ensures Filter(Filter(s, p), q) == Filter(s, pq)
  {
    if s != [] {
      var init := s[..|s| - 1];
      var x := s[|s| - 1];
      FilterCompose(init, p, q, pq);
      FilterAppend(Filter(init, p), if p(x) then [x] else [], q);
      if p(x) {
        assert Filter([x], q) == (if q(x) then [x] else []) by {
          assert [x][..0] == [];
        }
      }
    }
  }

  /** Filtering is idempotent. */
  lemma FilterIdempotent<T>(s: seq<T>, p: T -> bool)
    ensures Filter(Filter(s, p), p) == Filter(s, p)
  {
    FilterCompose(s, p, p, p);
  }

  /** Filters with pointwise equal conditions on s are equal. */
  lemma {:induction false} FilterExtensional<T>(s: seq<T>, p: T -> bool, q: T -> bool)
    requires forall x :: x in s ==> p(x) == q(x)
    ensures Filter(s, p) == Filter(s, q)
  {
    if s != [] {
      FilterExtensional(s[..|s| - 1], p, q);
    }
  }

  /** A filter whose condition holds everywhere keeps everything. */
  lemma {:induction false} FilterAll<T>(s: seq<T>, p: T -> bool)
    requires forall x :: x in s ==> p(x)
    ensures Filter(s, p) == s
  {
    if s != [] {
      FilterAll(s[..|s| - 1], p);
      assert s[..|s| - 1] + [s[|s| - 1]] == s;
    }
  }

  // ---------------------------------------------------------------------------
  // Stable sort by a real key, largest first: `l.sort(key=key, reverse=True)`.
  // ---------------------------------------------------------------------------

  predicate SortedDesc<T>(s: seq<T>, key: T -> real) {
    forall i, j :: 0 <= i < j < |s| ==> key(s[i]) >= key(s[j])
  }

  /** The index before which x goes: past every element whose key is at least key(x). */
  function InsertPos<T>(x: T, t: seq<T>, key: T -> real): (k: nat)
    ensures k <= |t|
    ensures forall i :: 0 <= i < k ==> key(t[i]) >= key(x)
    ensures k < |t| ==> key(t[k]) < key(x)
  {
    if t == [] || key(t[0]) < key(x) then 0 else 1 + InsertPos(x, t[1..], key)
  }

  function Insert<T>(x: T, t: seq<T>, key: T -> real): (r: seq<T>)
  {
    var k := InsertPos(x, t, key);
    t[..k] + [x] + t[k..]
  }

  lemma InsertSorted<T>(x: T, t: seq<T>, key: T -> real)
    requires SortedDesc(t, key)
    ensures SortedDesc(Insert(x, t, key), key)
    ensures multiset(Insert(x, t, key)) == multiset(t) + multiset{x}
  {
    InsertIsSorted(x, t, key);
    InsertMultiset(x, t, key);
  }

  /** The element at each index of the insertion. */
  lemma InsertIndex<T>(x: T, t: seq<T>, key: T -> real, i: nat)
    requires i <= |t|
    ensures |Insert(x, t, key)| == |t| + 1
    ensures var k := InsertPos(x, t, key);
      Insert(x, t, key)[i] == if i < k then t[i] else if i == k then x else t[i - 1]
  {
  }

  lemma InsertIsSorted<T>(x: T, t: seq<T>, key: T -> real)
    requires SortedDesc(t, key)
    ensures SortedDesc(Insert(x, t, key), key)
  {
    var k := InsertPos(x, t, key);
    var r := Insert(x, t, key);
    forall i, j | 0 <= i < j < |r|
      ensures key(r[i]) >= key(r[j])
    {
      InsertIndex(x, t, key, i);
      InsertIndex(x, t, key, j);
      if j < k || i > k {
      } else if i == k {
        assert j - 1 == k || key(t[j - 1]) <= key(t[k]);
      } else if j == k {
      } else {
        assert j - 1 == k || key(t[j - 1]) <= key(t[k]);
      }
    }
  }

  lemma InsertMultiset<T>(x: T, t: seq<T>, key: T -> real)
    ensures multiset(Insert(x, t, key)) == multiset(t) + multiset{x}
  {
    var k := InsertPos(x, t, key);
    var a, b := t[..k], t[k..];
    assert Insert(x, t, key) == a + [x] + b;
    assert multiset(a + [x] + b) == multiset(a) + multiset{x} + multiset(b);
    assert a + b == t;
    assert multiset(t) == multiset(a) + multiset(b);
  }

  /** Python's stable sort, largest key first, as an insertion sort from the left. */
  function SortDesc<T>(s: seq<T>, key: T -> real): (r: seq<T>)
    ensures SortedDesc(r, key)
    ensures multiset(r) == multiset(s)
  {
    if s == [] then []
    else
      var t := SortDesc(s[..|s| - 1], key);
      InsertLast(s, t, key);
      Insert(s[|s| - 1], t, key)
  }

  /** One step of the sort: inserting the last element into the sorted rest. */
  lemma InsertLast<T>(s: seq<T>, t: seq<T>, key: T -> real)
    requires s != [] && SortedDesc(t, key) && multiset(t) == multiset(s[..|s| - 1])
    ensures SortedDesc(Insert(s[|s| - 1], t, key), key)
    ensures multiset(Insert(s[|s| - 1], t, key)) == multiset(s)
  {
    InsertSorted(s[|s| - 1], t, key);
    assert s[..|s| - 1] + [s[|s| - 1]] == s;
  }

  /** The sorted list has the length and the elements of its input. */
  lemma SortDescMembers<T>(s: seq<T>, key: T -> real)
    ensures |SortDesc(s, key)| == |s|
    ensures forall x :: x in SortDesc(s, key) <==> x in s
  {
    var r := SortDesc(s, key);
    assert |r| == |multiset(r)| == |multiset(s)| == |s|;
    forall x
      ensures x in r <==> x in s
    {
      assert x in r <==> x in multiset(r);
      assert x in s <==> x in multiset(s);
    }
  }

  /** The condition "has key v". */
  function KeyIs<T>(key: T -> real, v: real): T -> bool {
    y => key(y) == v
  }

  /** Inserting x into a sorted list adds it after every element with its key. */
  lemma InsertStable<T>(x: T, t: seq<T>, key: T -> real, v: real)
    requires SortedDesc(t, key)
    ensures Filter(Insert(x, t, key), KeyIs(key, v))
         == Filter(t, KeyIs(key, v)) + (if key(x) == v then [x] else [])
  {
    var p := KeyIs(key, v);
    assert p(x) == (key(x) == v);
    var k := InsertPos(x, t, key);
    var a, b := t[..k], t[k..];
    assert a + b == t;
    assert Insert(x, t, key) == a + [x] + b;
    if key(x) == v {
      TailBelow(x, t, key);
      NoneAbove(b, key, v);
    }
    FilterMoved(a, x, b, p);
  }

  /** An element that nothing after it passes moves to the end of the filter. */
  lemma FilterMoved<T>(a: seq<T>, x: T, b: seq<T>, p: T -> bool)
    requires p(x) ==> Filter(b, p) == []
    ensures Filter(a + [x] + b, p) == Filter(a + b, p) + (if p(x) then [x] else [])
  {
    FilterSplit(a, x, b, p);
    FilterSingle(x, p);
    var fa, fb := Filter(a, p), Filter(b, p);
    if p(x) {
      assert fb == [];
      assert fa + [x] + fb == fa + [x];
      assert fa + fb == fa;
    } else {
      assert fa + [] + fb == fa + fb;
    }
  }

  /** A filter of a list with one element singled out. */
  lemma FilterSplit<T>(a: seq<T>, x: T, b: seq<T>, p: T -> bool)
    ensures Filter(a + [x] + b, p) == Filter(a, p) + Filter([x], p) + Filter(b, p)
    ensures Filter(a + b, p) == Filter(a, p) + Filter(b, p)
    ensures Filter([x], p) == if p(x) then [x] else []
  {
    FilterAppend(a + [x], b, p);
    FilterAppend(a, [x], p);
    FilterAppend(a, b, p);
    FilterSingle(x, p);
  }

  /** What follows the insertion point has keys below key(x). */
  lemma TailBelow<T>(x: T, t: seq<T>, key: T -> real)
    requires SortedDesc(t, key)
    ensures forall i :: 0 <= i < |t| - InsertPos(x, t, key) ==> key(t[InsertPos(x, t, key)..][i]) < key(x)
  {
    var k := InsertPos(x, t, key);
    forall i | 0 <= i < |t| - k
      ensures key(t[k..][i]) < key(x)
    {
      assert t[k..][i] == t[k + i];
      assert key(t[k + i]) <= key(t[k]);
    }
  }

  lemma {:induction false} NoneAbove<T>(t: seq<T>, key: T -> real, v: real)
    requires forall i :: 0 <= i < |t| ==> key(t[i]) < v
    ensures Filter(t, KeyIs(key, v)) == []
  {
    if t != [] {
      NoneAbove(t[..|t| - 1], key, v);
    }
  }

  /** Stability: the elements with any one key keep their input order. */
  lemma {:induction false} SortDescStable<T>(s: seq<T>, key: T -> real, v: real)
    ensures Filter(SortDesc(s, key), KeyIs(key, v)) == Filter(s, KeyIs(key, v))
  {
    if s != [] {
      var init := s[..|s| - 1];
      SortDescStable(init, key, v);
      InsertStable(s[|s| - 1], SortDesc(init, key), key, v);
    }
  }

  // ---------------------------------------------------------------------------
  // String order (Python compares code point by code point) and sorted(set).
  // ---------------------------------------------------------------------------

  predicate LexLess(a: string, b: string) {
    if a == [] then b != []
    else if b == [] then false
    else if a[0] == b[0] then LexLess(a[1..], b[1..])
    else a[0] < b[0]
  }

  lemma {:induction false} LexIrreflexive(a: string)
    ensures !LexLess(a, a)
  {
    if a != [] {
      LexIrreflexive(a[1..]);
    }
  }

  lemma {:induction false} LexTransitive(a: string, b: string, c: string)
    requires LexLess(a, b) && LexLess(b, c)
    ensures LexLess(a, c)
  {
    if a != [] && b != [] && c != [] && a[0] == b[0] && b[0] == c[0] {
      LexTransitive(a[1..], b[1..], c[1..]);
    }
  }

  lemma {:induction false} LexTotal(a: string, b: string)
    ensures a == b || LexLess(a, b) || LexLess(b, a)
  {
    if a != [] && b != [] && a[0] == b[0] {
      LexTotal(a[1..], b[1..]);
      if a[1..] == b[1..] {
        assert a == [a[0]] + a[1..] && b == [b[0]] + b[1..];
      }
    }
  }

  predicate StrictlySorted(s: seq<string>) {
    forall i, j :: 0 <= i < j < |s| ==> LexLess(s[i], s[j])
  }

  predicate IsLeast(m: string, s: set<string>) {
    m in s && forall y :: y in s && y != m ==> LexLess(m, y)
  }

  /** Every finite non-empty set of strings has a least element. */
  lemma {:induction false} LeastExists(s: set<string>)
    requires s != {}
    ensures exists m :: IsLeast(m, s)
    decreases |s|
  {
    var x :| x in s;
    if s == {x} {
      assert IsLeast(x, s);
    } else {
      var rest := s - {x};
      LeastExists(rest);
      var m :| IsLeast(m, rest);
      LexTotal(x, m);
      if LexLess(x, m) {
        forall y | y in s && y != x
          ensures LexLess(x, y)
        {
          if y != m {
            LexTransitive(x, m, y);
          }
        }
        assert IsLeast(x, s);
      } else {
        assert IsLeast(m, s);
      }
    }
  }

  /** A strictly sorted list holds each element once. */
  lemma StrictlySortedDistinct(s: seq<string>)
    requires StrictlySorted(s)
    ensures forall i, j :: 0 <= i < j < |s| ==> s[i] != s[j]
  {
    forall i, j | 0 <= i < j < |s|
      ensures s[i] != s[j]
    {
      LexIrreflexive(s[i]);
    }
  }

  /** `sorted(list(s))` for a set of strings: its elements, ascending, once each. */
  method SortedFromSet(s: set<string>) returns (r: seq<string>)
    ensures StrictlySorted(r)
    ensures forall x :: x in r <==> x in s
    ensures |r| == |s|
  {
    r := [];
    var rest := s;
    while rest != {}
      invariant forall x :: x in s <==> x in r || x in rest
      invariant forall x :: x in r ==> x !in rest
      invariant StrictlySorted(r)
      invariant forall i, y :: 0 <= i < |r| && y in rest ==> LexLess(r[i], y)
      invariant |r| + |rest| == |s|
      decreases |rest|
    {
      LeastExists(rest);
      var m :| IsLeast(m, rest);
      forall i, y | 0 <= i < |r| && y in rest - {m}
        ensures LexLess(r[i], y)
      {
      }
      StrictlySortedDistinct(r);
      assert m !in r;
      r := r + [m];
      rest := rest - {m};
    }
  }
}

=== FILE: sequence_variants.dfy ===
/**
 * peptide_analysis/sequence_variants.py: every string made by choosing one
 * option per position, and the variants of several sequences together.
 */
module SequenceVariants {

  /** The options of one position: strings, one letter each in practice. */
  type Options = seq<string>

  // ---------------------------------------------------------------------------
  // The specification
  // ---------------------------------------------------------------------------

  /** `[p + o for o in options]`. */
  function Expand(p: string, options: Options): (r: seq<string>)
    ensures |r| == |options| && forall j :: 0 <= j < |options| ==> r[j] == p + options[j]
  {
    seq(|options|, j requires 0 <= j < |options| => p + options[j])
  }

  /** One step of the outer loop: every partial string, in order, followed by each option in order. */
  function Extend(partials: seq<string>, options: Options): seq<string> {
    if partials == [] then []
    else Extend(partials[..|partials| - 1], options) + Expand(partials[|partials| - 1], options)
  }

  /** Every partial string is extended by every option. */
  lemma {:induction false} ExtendLength(partials: seq<string>, options: Options)
    ensures |Extend(partials, options)| == |partials| * |options|
  {
    if partials != [] {
      ExtendLength(partials[..|partials| - 1], options);
      assert |partials| * |options| == (|partials| - 1) * |options| + |options|;
    }
  }

  /** The variants of a sequence: [""] extended by each position in turn. */
  function Variants(sequence: seq<Options>): seq<string> {
    if sequence == [] then [""]
    else Extend(Variants(sequence[..|sequence| - 1]), sequence[|sequence| - 1])
  }

  /** The product of the option counts. */
  function Product(sequence: seq<Options>): nat {
    if sequence == [] then 1 else Product(sequence[..|sequence| - 1]) * |sequence[|sequence| - 1]|
  }

  /** A choice of one option index per position. */
  predicate IsChoice(sequence: seq<Options>, js: seq<nat>) {
    |js| == |sequence| && forall i :: 0 <= i < |js| ==> js[i] < |sequence[i]|
  }

  /** The string a choice spells: the chosen options concatenated in position order. */
  function Spell(sequence: seq<Options>, js: seq<nat>): string
    requires IsChoice(sequence, js)
  {
    if js == [] then ""
    else Spell(sequence[..|sequence| - 1], js[..|js| - 1]) + sequence[|sequence| - 1][js[|js| - 1]]
  }

  /** The row-major rank of a choice: the first position varies slowest. */
  function Rank(sequence: seq<Options>, js: seq<nat>): nat
    requires IsChoice(sequence, js)
  {
    if js == [] then 0
    else Rank(sequence[..|sequence| - 1], js[..|js| - 1]) * |sequence[|sequence| - 1]| + js[|js| - 1]
  }

  // ---------------------------------------------------------------------------
  // Properties
  // ---------------------------------------------------------------------------

  /** Partial i extended by option j sits at i * |options| + j. */
  lemma {:induction false} ExtendIndex(partials: seq<string>, options: Options, i: nat, j: nat)
    requires i < |partials| && j < |options|
    ensures i * |options| + j < |Extend(partials, options)|
    ensures Extend(partials, options)[i * |options| + j] == partials[i] + options[j]
  {
    var init := partials[..|partials| - 1];
    var m := |options|;
    ExtendLength(init, options);
    if i < |init| {
      ExtendIndex(init, options, i, j);
      assert init[i] == partials[i];
      MulStep(i, |init|, m);
    }
  }

  /** i < n implies (i + 1) * m <= n * m. */
  lemma MulStep(i: nat, n: nat, m: nat)
    requires i < n
    ensures (i + 1) * m <= n * m
  {
    var k := n - (i + 1);
    assert n * m == (i + 1) * m + k * m;
  }

  /** Every string of an extension is a partial string followed by an option. */
  lemma {:induction false} ExtendMembers(partials: seq<string>, options: Options, x: string)
    requires x in Extend(partials, options)
    ensures exists i, j :: 0 <= i < |partials| && 0 <= j < |options| && x == partials[i] + options[j]
  {
    var init := partials[..|partials| - 1];
    if x in Extend(init, options) {
      ExtendMembers(init, options, x);
      var i, j :| 0 <= i < |init| && 0 <= j < |options| && x == init[i] + options[j];
      assert partials[i] == init[i];
    } else {
      var e := Expand(partials[|partials| - 1], options);
      var j :| 0 <= j < |e| && e[j] == x;
      assert x == partials[|partials| - 1] + options[j];
    }
  }

  /** There are as many variants as the product of the option counts. */
  lemma {:induction false} VariantsCount(sequence: seq<Options>)
    ensures |Variants(sequence)| == Product(sequence)
  {
    if sequence != [] {
      VariantsCount(sequence[..|sequence| - 1]);
      ExtendLength(Variants(sequence[..|sequence| - 1]), sequence[|sequence| - 1]);
    }
  }

  /** The empty sequence has the one empty variant; a position without options leaves none. */
  lemma EmptyCases(sequence: seq<Options>, k: nat)
    ensures Variants([]) == [""]
    ensures k < |sequence| && sequence[k] == [] ==> Variants(sequence) == []
  {
    if k < |sequence| && sequence[k] == [] {
      VariantsCount(sequence);
      ProductZero(sequence, k);
    }
  }

  lemma {:induction false} ProductZero(sequence: seq<Options>, k: nat)
    requires k < |sequence| && sequence[k] == []
    ensures Product(sequence) == 0
  {
    var init := sequence[..|sequence| - 1];
    if k < |init| {
      assert init[k] == sequence[k];
      ProductZero(init, k);
    }
  }

  /**
   * The variant at the rank of a choice spells that choice: the variants are
   * in lexicographic order of option indices, first position slowest.
   */
  lemma {:induction false} VariantAtRank(sequence: seq<Options>, js: seq<nat>)
    requires IsChoice(sequence, js)
    ensures Rank(sequence, js) < |Variants(sequence)|
    ensures Variants(sequence)[Rank(sequence, js)] == Spell(sequence, js)
  {
    if js != [] {
      var s0, j0 := sequence[..|sequence| - 1], js[..|js| - 1];
      assert IsChoice(s0, j0) by {
        assert forall i :: 0 <= i < |j0| ==> j0[i] == js[i] && s0[i] == sequence[i];
      }
      VariantAtRank(s0, j0);
      ExtendIndex(Variants(s0), sequence[|sequence| - 1], Rank(s0, j0), js[|js| - 1]);
    }
  }

  /** Extending a choice by one more option index. */
  lemma SpellSnoc(sequence: seq<Options>, js: seq<nat>, j: nat)
    requires sequence != [] && IsChoice(sequence[..|sequence| - 1], js) && j < |sequence[|sequence| - 1]|
    ensures IsChoice(sequence, js + [j])
    ensures Spell(sequence, js + [j]) == Spell(sequence[..|sequence| - 1], js) + sequence[|sequence| - 1][j]
  {
    var s0, ks := sequence[..|sequence| - 1], js + [j];
    assert ks[..|ks| - 1] == js;
    forall k | 0 <= k < |ks|
      ensures ks[k] < |sequence[k]|
    {
      if k < |js| {
        assert ks[k] == js[k] && sequence[k] == s0[k];
      }
    }
  }

  /** Every variant spells some choice. */
  lemma {:induction false} VariantIsSpelled(sequence: seq<Options>, x: string)
    requires x in Variants(sequence)
    ensures exists js :: IsChoice(sequence, js) && x == Spell(sequence, js)
  {
    if sequence == [] {
      assert IsChoice(sequence, []) && x == Spell(sequence, []);
    } else {
      var s0, last := sequence[..|sequence| - 1], sequence[|sequence| - 1];
      var v0 := Variants(s0);
      ExtendMembers(v0, last, x);
      var i, j :| 0 <= i < |v0| && 0 <= j < |last| && x == v0[i] + last[j];
      VariantIsSpelled(s0, v0[i]);
      var j0: seq<nat> :| IsChoice(s0, j0) && v0[i] == Spell(s0, j0);
      SpellSnoc(sequence, j0, j);
    }
  }

  /** The variants are exactly the strings that spell a choice. */
  lemma VariantsMembers(sequence: seq<Options>, x: string)
    ensures x in Variants(sequence) <==> exists js :: IsChoice(sequence, js) && x == Spell(sequence, js)
  {
    if x in Variants(sequence) {
      VariantIsSpelled(sequence, x);
    } else if exists js :: IsChoice(sequence, js) && x == Spell(sequence, js) {
      var js: seq<nat> :| IsChoice(sequence, js) && x == Spell(sequence, js);
      VariantAtRank(sequence, js);
      assert false;
    }
  }

  /** Options of one letter each give variants as long as the sequence. */
  predicate SingleLetters(sequence: seq<Options>) {
    forall i, j :: 0 <= i < |sequence| && 0 <= j < |sequence[i]| ==> |sequence[i][j]| == 1
  }

  lemma {:induction false} SpellLength(sequence: seq<Options>, js: seq<nat>)
    requires IsChoice(sequence, js) && SingleLetters(sequence)
    ensures |Spell(sequence, js)| == |sequence|
  {
    if js != [] {
      var s0, j0 := sequence[..|sequence| - 1], js[..|js| - 1];
      assert IsChoice(s0, j0) by {
        assert forall i :: 0 <= i < |j0| ==> j0[i] == js[i] && s0[i] == sequence[i];
      }
      assert SingleLetters(s0) by {
        assert forall i :: 0 <= i < |s0| ==> s0[i] == sequence[i];
      }
      SpellLength(s0, j0);
    }
  }

  lemma SingleLetterLength(sequence: seq<Options>, x: string)
    requires SingleLetters(sequence) && x in Variants(sequence)
    ensures |x| == |sequence|
  {
    VariantIsSpelled(sequence, x);
    var js :| IsChoice(sequence, js) && x == Spell(sequence, js);
    SpellLength(sequence, js);
  }

  // ---------------------------------------------------------------------------
  // generate_sequence_variants (lines 9-31)
  // ---------------------------------------------------------------------------

  method GenerateSequenceVariants(sequenza: seq<Options>) returns (risultato: seq<string>)
    ensures risultato == Variants(sequenza)
  {
    risultato := [""];
    var k := 0;
    while k < |sequenza|
      invariant 0 <= k <= |sequenza|
      invariant risultato == Variants(sequenza[..k])
    {
      var posizione := sequenza[k];
      var nuoveCombinazioni := ExtendLoop(risultato, posizione);
      assert sequenza[..k + 1][..k] == sequenza[..k];
      risultato := nuoveCombinazioni;
      k := k + 1;
    }
    assert sequenza[..k] == sequenza;
  }

  /** The two inner loops: each partial string followed by each option. */
  method ExtendLoop(partials: seq<string>, posizione: Options) returns (nuove: seq<string>)
    ensures nuove == Extend(partials, posizione)
  {
    nuove := [];
    var i := 0;
    while i < |partials|
      invariant 0 <= i <= |partials|
      invariant nuove == Extend(partials[..i], posizione)
    {
      var stringaParziale := partials[i];
      var j := 0;
      ghost var before := nuove;
      while j < |posizione|
        invariant 0 <= j <= |posizione|
        invariant nuove == before + Expand(stringaParziale, posizione)[..j]
      {
        assert Expand(stringaParziale, posizione)[..j + 1] == Expand(stringaParziale, posizione)[..j] + [stringaParziale + posizione[j]];
        nuove := nuove + [stringaParziale + posizione[j]];
        j := j + 1;
      }
      assert Expand(stringaParziale, posizione)[..j] == Expand(stringaParziale, posizione);
      assert partials[..i + 1][..i] == partials[..i];
      i := i + 1;
    }
    assert partials[..i] == partials;
  }

  // ---------------------------------------------------------------------------
  // generate_all_variants (lines 54-95), without its files
  // ---------------------------------------------------------------------------

  /** The variants of every sequence, concatenated in sequence order. */
  function AllVariants(sequences: seq<seq<Options>>): seq<string> {
    if sequences == [] then [] else AllVariants(sequences[..|sequences| - 1]) + Variants(sequences[|sequences| - 1])
  }

  /** The sum of the per-sequence variant counts. */
  function TotalCount(sequences: seq<seq<Options>>): nat {
    if sequences == [] then 0 else TotalCount(sequences[..|sequences| - 1]) + Product(sequences[|sequences| - 1])
  }

  /** The total is the sum of the products of the option counts. */
  lemma {:induction false} AllVariantsCount(sequences: seq<seq<Options>>)
    ensures |AllVariants(sequences)| == TotalCount(sequences)
  {
    if sequences != [] {
      AllVariantsCount(sequences[..|sequences| - 1]);
      VariantsCount(sequences[|sequences| - 1]);
    }
  }

  /** The count generate_all_variants returns and the list it writes to the combined file. */
  method GenerateAllVariants(sequences: seq<seq<Options>>) returns (total: nat, allVariants: seq<string>)
    ensures allVariants == AllVariants(sequences)
    ensures total == |allVariants|
  {
    allVariants := [];
    var i := 0;
    while i < |sequences|
      invariant 0 <= i <= |sequences|
      invariant allVariants == AllVariants(sequences[..i])
    {
      var variants := GenerateSequenceVariants(sequences[i]);
      assert sequences[..i + 1][..i] == sequences[..i];
      allVariants := allVariants + variants;
      i := i + 1;
    }
    assert sequences[..i] == sequences;
    total := |allVariants|;
  }
}

=== FILE: tables.dfy ===
/**
 * The constant tables every scorer shares (position-weighted model of
 * Calis et al. 2013): the 20-residue immunogenicity scale, the 9-position
 * weight vector with its middle infill, and the allele -> anchor-position table.
 *
 * Fixed point: the scale is in thousandths and the weights in hundredths, so a
 * product weight * scale is an exact count of 1e-5 units.
 */
module Tables {

  /** The 20 amino-acid letters the validators accept. */
  const Alphabet: string := "ACDEFGHIKLMNPQRSTVWY"

  predicate IsResidue(c: char) { c in Alphabet }

  /** The immunogenicity scale, in thousandths (A = 0.127 is 127). */
  const ImmunoScale: map<char, int> := map[
    'A' := 127, 'C' := -175, 'D' := 72, 'E' := 325, 'F' := 380, 'G' := 110,
    'H' := 105, 'I' := 432, 'K' := -700, 'L' := -36, 'M' := -570, 'N' := -21,
    'P' := -36, 'Q' := -376, 'R' := 168, 'S' := -537, 'T' := 126, 'V' := 134,
    'W' := 719, 'Y' := -12
  ]

  /** The scale is defined on exactly the 20 letters of the alphabet. */
  lemma ScaleCoversAlphabet(c: char)
    ensures c in ImmunoScale <==> IsResidue(c)
  {
  }

  /** Every residue is a capital letter. */
  lemma ResidueIsCapital(c: char)
    requires IsResidue(c)
    ensures 'A' <= c <= 'Z'
  {
    var i :| 0 <= i < |Alphabet| && Alphabet[i] == c;
  }

  function Scale(c: char): int
    requires IsResidue(c)
  {
    ImmunoScale[c]
  }

  /** The 9 position weights, in hundredths. */
  const BaseWeights: seq<int> := [0, 0, 10, 31, 30, 29, 26, 18, 0]

  /** The weight of every position inserted in the middle of a peptide longer than 9. */
  const InfillWeight: int := 30

  function Repeat(x: int, n: nat): (r: seq<int>)
    ensures |r| == n && forall i :: 0 <= i < n ==> r[i] == x
  {
    if n == 0 then [] else Repeat(x, n - 1) + [x]
  }

  /** The extended vector base[:5] + [0.30] * (n - 9) + base[5:] used for n > 9. */
  function Extended(n: nat): (w: seq<int>)
    requires n > 9
    ensures |w| == n
    ensures forall i :: 0 <= i < 5 ==> w[i] == BaseWeights[i]
    ensures forall i :: 5 <= i < n - 4 ==> w[i] == InfillWeight
    ensures forall i :: n - 4 <= i < n ==> w[i] == BaseWeights[i - (n - 9)]
  {
    BaseWeights[..5] + Repeat(InfillWeight, n - 9) + BaseWeights[5..]
  }

  /**
   * The weight vector of the truncating scorers (gui.py, mhc.py): the extended
   * vector above 9, the first n base weights otherwise.  Its length is always n.
   */
  function Weights(n: nat): (w: seq<int>)
    ensures |w| == n
  {
    if n > 9 then Extended(n) else BaseWeights[..n]
  }

  /**
   * The weight vector of the other scorers (core.py, immunogenicity.py,
   * add_immunogenicity_scores.py): the whole 9-entry base up to length 9.
   * On every position of the peptide it agrees with Weights(n).
   */
  function FullWeights(n: nat): (w: seq<int>)
    ensures |w| == if n > 9 then n else 9
    ensures forall i :: 0 <= i < n ==> w[i] == Weights(n)[i]
  {
    if n > 9 then Extended(n) else BaseWeights
  }

  /** For n >= 9 the first, second and last weights are zero. */
  lemma AnchorWeightsZero(n: nat)
    requires n >= 9
    ensures Weights(n)[0] == 0 && Weights(n)[1] == 0 && Weights(n)[n - 1] == 0
  {
  }

  /** The default anchors: first, second and C-terminal position (0-based). */
  function DefaultMask(n: nat): seq<int> {
    [0, 1, n - 1]
  }

  /** 1-based positions made 0-based, `[x - 1 for x in positions]`. */
  function ZeroBased(positions: seq<int>): (r: seq<int>)
    ensures |r| == |positions| && forall i :: 0 <= i < |r| ==> r[i] == positions[i] - 1
  {
    seq(|positions|, i requires 0 <= i < |positions| => positions[i] - 1)
  }
}

/** The allele -> anchor-position table. */
module AnchorTable {
  import opened Wrappers
  import opened PyText

  /** The mouse alleles of the anchor table, 1-based positions (the program writes "2,5,9"). */
  const MouseAlleles: map<string, seq<int>> := map[
    "H-2-Db" := [2, 5, 9], "H-2-Dd" := [2, 3, 5], "H-2-Kb" := [2, 3, 9], "H-2-Kd" := [2, 5, 9],
    "H-2-Kk" := [2, 8, 9], "H-2-Ld" := [2, 5, 9]
  ]

  /** The HLA-A alleles of the anchor table. */
  const HlaAAlleles: map<string, seq<int>> := map[
    "HLA-A0101" := [2, 3, 9], "HLA-A0201" := [1, 2, 9], "HLA-A0202" := [1, 2, 9], "HLA-A0203" := [1, 2, 9],
    "HLA-A0206" := [1, 2, 9], "HLA-A0211" := [1, 2, 9], "HLA-A0301" := [1, 2, 9], "HLA-A1101" := [1, 2, 9],
    "HLA-A2301" := [2, 7, 9], "HLA-A2402" := [2, 7, 9], "HLA-A2601" := [1, 2, 9], "HLA-A2902" := [2, 7, 9],
    "HLA-A3001" := [1, 3, 9], "HLA-A3002" := [2, 7, 9], "HLA-A3101" := [1, 2, 9], "HLA-A3201" := [1, 2, 9],
    "HLA-A3301" := [1, 2, 9], "HLA-A6801" := [1, 2, 9], "HLA-A6802" := [1, 2, 9], "HLA-A6901" := [1, 2, 9]
  ]

  /** The HLA-B alleles of the anchor table. */
  const HlaBAlleles: map<string, seq<int>> := map[
    "HLA-B0702" := [1, 2, 9], "HLA-B0801" := [2, 5, 9], "HLA-B1501" := [1, 2, 9], "HLA-B1502" := [1, 2, 9],
    "HLA-B1801" := [1, 2, 9], "HLA-B2705" := [2, 3, 9], "HLA-B3501" := [1, 2, 9], "HLA-B3901" := [1, 2, 9],
    "HLA-B4001" := [1, 2, 9], "HLA-B4002" := [1, 2, 9], "HLA-B4402" := [2, 3, 9], "HLA-B4403" := [2, 3, 9],
    "HLA-B4501" := [1, 2, 9], "HLA-B4601" := [1, 2, 9], "HLA-B5101" := [1, 2, 9], "HLA-B5301" := [1, 2, 9],
    "HLA-B5401" := [1, 2, 9], "HLA-B5701" := [1, 2, 9], "HLA-B5801" := [1, 2, 9]
  ]

  /** The allele -> anchor table: 45 alleles, three anchor positions each. */
  const AlleleTable: map<string, seq<int>> := MouseAlleles + HlaAAlleles + HlaBAlleles

  /** The table entry as the text the program stores, e.g. "2,5,9". */
  function AlleleTableText(key: string): string
    requires key in AlleleTable
  {
    FormatIntList(AlleleTable[key])
  }

  /** Three positions between 1 and 9. */
  predicate WellFormedAnchors(positions: seq<int>) {
    |positions| == 3 && forall i :: 0 <= i < 3 ==> 1 <= positions[i] <= 9
  }

  lemma MouseWellFormed()
    ensures forall key :: key in MouseAlleles ==> WellFormedAnchors(MouseAlleles[key])
  {
  }

  lemma HlaAWellFormed()
    ensures forall key :: key in HlaAAlleles ==> WellFormedAnchors(HlaAAlleles[key])
  {
  }

  lemma HlaBWellFormed()
    ensures forall key :: key in HlaBAlleles ==> WellFormedAnchors(HlaBAlleles[key])
  {
  }

  /** Every entry lists three positions between 1 and 9. */
  lemma TableEntriesWellFormed(key: string)
    requires key in AlleleTable
    ensures WellFormedAnchors(AlleleTable[key])
  {
    MouseWellFormed();
    HlaAWellFormed();
    HlaBWellFormed();
  }

  /** The text of every entry parses back to its positions. */
  lemma TableTextParses(key: string)
    requires key in AlleleTable
    ensures ParseIntList(AlleleTableText(key)) == Some(AlleleTable[key])
  {
    TableEntriesWellFormed(key);
    IntListRoundTrip(AlleleTable[key]);
  }

  lemma MouseKeys()
    ensures forall key :: key in MouseAlleles ==> |key| == 6
  {
  }

  lemma HlaAKeys()
    ensures forall key :: key in HlaAAlleles ==> |key| == 9 && key[4] == 'A'
  {
  }

  lemma HlaBKeys()
    ensures forall key :: key in HlaBAlleles ==> |key| == 9 && key[4] == 'B'
  {
  }

  /** The mouse names have six characters, the HLA names nine. */
  lemma KeyLengths(key: string)
    requires key in AlleleTable
    ensures |key| == 6 || |key| == 9
  {
    MouseKeys();
    HlaAKeys();
    HlaBKeys();
  }

  /** The display form of an allele is not a key of the table. */
  lemma DisplayFormKey()
    ensures "HLA-A*02:01" !in AlleleTable
  {
    if "HLA-A*02:01" in AlleleTable {
      KeyLengths("HLA-A*02:01");
    }
  }

  lemma A0201InHlaA()
    ensures "HLA-A0201" in HlaAAlleles && HlaAAlleles["HLA-A0201"] == [1, 2, 9]
  {
  }

  /** HLA-A*02:01 anchors at positions 1, 2 and 9. */
  lemma A0201Anchors()
    ensures "HLA-A0201" in AlleleTable && AlleleTable["HLA-A0201"] == [1, 2, 9]
  {
    A0201InHlaA();
    A0201NotHlaB();
  }

  lemma A0201NotHlaB()
    ensures "HLA-A0201" !in HlaBAlleles
  {
    var key := "HLA-A0201";
    assert key[4] == 'A';
    HlaBKeys();
  }

  /** The empty name is not an allele of the table. */
  lemma EmptyNotAllele()
    ensures "" !in AlleleTable
  {
    if "" in AlleleTable {
      KeyLengths("");
    }
  }
}

=== FILE: utils.dfy ===
/**
 * The result filters of peptide_analysis/utils.py: by percentile rank, by
 * immunogenicity score, by IC50, and the three in a row.  Each chooses a
 * comparison from an operator string, with a fallback for an unknown one.
 */
module ResultFilters {
  import opened Wrappers
  import opened PyText
  import opened Seqs

  /** A result dictionary: its keys in insertion order and its values. */
  datatype Record = Record(keys: seq<string>, values: map<string, PyValue>)

  /** What a list comprehension over the records can raise: KeyError, or TypeError from an ordering. */
  datatype FilterError = MissingKey | Unordered

  datatype Op = Lt | Le | Gt | Ge | Eq

  /** The operator an operator string names, or the fallback for any other string. */
  function OpFrom(text: string, fallback: Op): Op {
    if text == "<" then Lt
    else if text == "<=" then Le
    else if text == ">" then Gt
    else if text == ">=" then Ge
    else if text == "==" then Eq
    else fallback
  }

  predicate KnownOp(text: string) {
    text == "<" || text == "<=" || text == ">" || text == ">=" || text == "=="
  }

  predicate Holds(x: real, op: Op, t: real) {
    match op
    case Lt => x < t
    case Le => x <= t
    case Gt => x > t
    case Ge => x >= t
    case Eq => x == t
  }

  /** The value as a number, when Python compares it with a float. */
  function Number(v: PyValue): Option<real> {
    match v
    case PyInt(i) => Some(i as real)
    case PyFloat(x) => Some(x)
    case _ => None
  }

  /**
   * `value <op> threshold`: an ordering of a string or None against a number
   * raises TypeError, while `==` is simply false.
   */
  function Compare(v: PyValue, op: Op, t: real): (r: Result<bool, FilterError>)
    ensures r == Ok(true) <==> Number(v).Some? && Holds(Number(v).value, op, t)
    ensures r.Err? <==> Number(v).None? && op != Eq
  {
    match Number(v)
    case Some(x) => Ok(Holds(x, op, t))
    case None => if op == Eq then Ok(false) else Err(Unordered)
  }

  // ---------------------------------------------------------------------------
  // List comprehensions that may raise
  // ---------------------------------------------------------------------------

  type Test = Record -> Result<bool, FilterError>

  /**
   * `[r for r in rs if test(r)]`, evaluated in order: the error of the first
   * record whose test raises, or the records that pass.
   */
  function Comprehension(rs: seq<Record>, test: Test): Result<seq<Record>, FilterError> {
    if rs == [] then Ok([])
    else match Comprehension(rs[..|rs| - 1], test)
      case Err(e) => Err(e)
      case Ok(t) =>
        match test(rs[|rs| - 1])
        case Err(e) => Err(e)
        case Ok(b) => Ok(t + if b then [rs[|rs| - 1]] else [])
  }

  /** Whether the condition evaluates, without raising, on every record. */
  predicate AllDecided(rs: seq<Record>, test: Test) {
    forall i :: 0 <= i < |rs| ==> test(rs[i]).Ok?
  }

  function Accepted(test: Test): Record -> bool {
    (r: Record) => test(r) == Ok(true)
  }

  /** The comprehension succeeds exactly when no test raises, and then it is the filter. */
  lemma {:induction false} ComprehensionIsFilter(rs: seq<Record>, test: Test)
    ensures Comprehension(rs, test).Ok? <==> AllDecided(rs, test)
    ensures Comprehension(rs, test).Ok? ==> Comprehension(rs, test).value == Filter(rs, Accepted(test))
  {
    if rs != [] {
      var init := rs[..|rs| - 1];
      ComprehensionIsFilter(init, test);
      assert AllDecided(rs, test) ==> AllDecided(init, test) by {
        assert forall i :: 0 <= i < |init| ==> init[i] == rs[i];
      }
    }
  }

  /** A successful comprehension keeps, in order, exactly the records that pass. */
  lemma ComprehensionSpec(rs: seq<Record>, test: Test)
    ensures Comprehension(rs, test).Ok? ==>
      IsSubsequence(Comprehension(rs, test).value, rs) &&
      forall r :: r in Comprehension(rs, test).value <==> r in rs && test(r) == Ok(true)
  {
    ComprehensionIsFilter(rs, test);
    FilterIsSubsequence(rs, Accepted(test));
    FilterMembers(rs, Accepted(test));
  }

  /** Running a successful comprehension on its own result gives that result back. */
  lemma ComprehensionIdempotent(rs: seq<Record>, test: Test)
    requires Comprehension(rs, test).Ok?
    ensures Comprehension(Comprehension(rs, test).value, test) == Comprehension(rs, test)
  {
    var y := Comprehension(rs, test).value;
    ComprehensionIsFilter(rs, test);
    FilterMembers(rs, Accepted(test));
    assert forall i :: 0 <= i < |y| ==> y[i] in y;
    ComprehensionIsFilter(y, test);
    FilterIdempotent(rs, Accepted(test));
  }

  // ---------------------------------------------------------------------------
  // The three filters (lines 82-208)
  // ---------------------------------------------------------------------------

  /** `r[key] <op> threshold`, a KeyError when the key is missing. */
  function FieldTest(key: string, op: Op, t: real): Test {
    (r: Record) => if key !in r.values then Err(MissingKey) else Compare(r.values[key], op, t)
  }

  /** `r[key] is not None`, a KeyError when the key is missing. */
  function PresentTest(key: string): Test {
    (r: Record) => if key !in r.values then Err(MissingKey) else Ok(r.values[key] != PyNone)
  }

  /** filter_results_by_percentile: an unknown operator is `<`. */
  function ByPercentile(rs: seq<Record>, t: real, opText: string): Result<seq<Record>, FilterError> {
    Comprehension(rs, FieldTest("percentile_rank", OpFrom(opText, Lt), t))
  }

  /** The records with a value, then those that satisfy the comparison. */
  function ByPresentField(rs: seq<Record>, key: string, op: Op, t: real): Result<seq<Record>, FilterError> {
    match Comprehension(rs, PresentTest(key))
    case Err(e) => Err(e)
    case Ok(valid) => Comprehension(valid, FieldTest(key, op, t))
  }

  /**
   * filter_results_by_immunogenicity: the input itself when it is empty or its
   * first record has no immunogenicity_score; an unknown operator is `>`.
   */
  function ByImmunogenicity(rs: seq<Record>, t: real, opText: string): Result<seq<Record>, FilterError> {
    if rs == [] || "immunogenicity_score" !in rs[0].values then Ok(rs)
    else ByPresentField(rs, "immunogenicity_score", OpFrom(opText, Gt), t)
  }

  /** The first key whose lower-case form contains "ic50". */
  function Ic50Field(keys: seq<string>): (f: Option<string>)
    ensures f.Some? ==> f.value in keys && Contains(Lower(f.value), "ic50")
    ensures f.None? ==> forall k :: k in keys ==> !Contains(Lower(k), "ic50")
  {
    if keys == [] then None
    else if Contains(Lower(keys[0]), "ic50") then Some(keys[0])
    else Ic50Field(keys[1..])
  }

  /**
   * filter_results_by_ic50: the input itself when it is empty or the first
   * record has no IC50 key; an unknown operator is `<`.
   */
  function ByIc50(rs: seq<Record>, t: real, opText: string): Result<seq<Record>, FilterError> {
    if rs == [] then Ok(rs)
    else match Ic50Field(rs[0].keys)
      case None => Ok(rs)
      case Some(field) => ByPresentField(rs, field, OpFrom(opText, Lt), t)
  }

  /** filter_results_combined: percentile, then immunogenicity, then IC50. */
  function Combined(rs: seq<Record>, pt: real, pop: string, it: real, iop: string, ct: real, cop: string): Result<seq<Record>, FilterError> {
    match ByPercentile(rs, pt, pop)
    case Err(e) => Err(e)
    case Ok(a) =>
      match ByImmunogenicity(a, it, iop)
      case Err(e) => Err(e)
      case Ok(b) => ByIc50(b, ct, cop)
  }

  // ---------------------------------------------------------------------------
  // Properties
  // ---------------------------------------------------------------------------

  /** An operator string the filters do not know behaves as the filter's default. */
  lemma UnknownOperators(rs: seq<Record>, t: real, opText: string)
    requires !KnownOp(opText)
    ensures ByPercentile(rs, t, opText) == ByPercentile(rs, t, "<")
    ensures ByImmunogenicity(rs, t, opText) == ByImmunogenicity(rs, t, ">")
    ensures ByIc50(rs, t, opText) == ByIc50(rs, t, "<")
  {
  }

  /**
   * The percentile filter keeps, in order, exactly the records whose
   * percentile_rank is a number satisfying the comparison; it raises when a
   * record lacks the key, or holds a non-number under an ordering operator.
   */
  lemma ByPercentileSpec(rs: seq<Record>, t: real, opText: string)
    ensures ByPercentile(rs, t, opText).Ok? <==>
      forall i :: 0 <= i < |rs| ==> ("percentile_rank" in rs[i].values &&
        (Number(rs[i].values["percentile_rank"]).Some? || OpFrom(opText, Lt) == Eq))
    ensures ByPercentile(rs, t, opText).Ok? ==> IsSubsequence(ByPercentile(rs, t, opText).value, rs)
    ensures ByPercentile(rs, t, opText).Ok? ==> forall r :: r in ByPercentile(rs, t, opText).value <==>
      r in rs && Number(r.values["percentile_rank"]).Some? && Holds(Number(r.values["percentile_rank"]).value, OpFrom(opText, Lt), t)
  {
    var test := FieldTest("percentile_rank", OpFrom(opText, Lt), t);
    ComprehensionIsFilter(rs, test);
    ComprehensionSpec(rs, test);
  }

  /** Some record lacks the key: a KeyError. */
  predicate SomeMissing(rs: seq<Record>, key: string) {
    exists i :: 0 <= i < |rs| && key !in rs[i].values
  }

  /** Some record holds a value other than None that is not a number, under an ordering: a TypeError. */
  predicate SomeUnordered(rs: seq<Record>, key: string, op: Op) {
    exists i :: 0 <= i < |rs| && key in rs[i].values && rs[i].values[key] != PyNone && Number(rs[i].values[key]).None? && op != Eq
  }

  /**
   * With a field to filter on, the records kept are, in order, those whose
   * field holds a number satisfying the comparison; the records whose field
   * is None are dropped.
   */
  lemma ByPresentFieldSpec(rs: seq<Record>, key: string, op: Op, t: real)
    ensures ByPresentField(rs, key, op, t).Ok? ==> IsSubsequence(ByPresentField(rs, key, op, t).value, rs)
    ensures ByPresentField(rs, key, op, t).Ok? ==> forall r :: r in ByPresentField(rs, key, op, t).value <==>
      r in rs && key in r.values && Number(r.values[key]).Some? && Holds(Number(r.values[key]).value, op, t)
  {
    var present := PresentTest(key);
    ComprehensionSpec(rs, present);
    if Comprehension(rs, present).Ok? {
      var valid := Comprehension(rs, present).value;
      ComprehensionSpec(valid, FieldTest(key, op, t));
      if Comprehension(valid, FieldTest(key, op, t)).Ok? {
        SubsequenceTransitive(Comprehension(valid, FieldTest(key, op, t)).value, valid, rs);
      }
    }
  }

  /** The field filter raises exactly on a missing key or on a value that cannot be ordered. */
  lemma ByPresentFieldRaises(rs: seq<Record>, key: string, op: Op, t: real)
    ensures ByPresentField(rs, key, op, t).Err? <==> SomeMissing(rs, key) || SomeUnordered(rs, key, op)
  {
    var present := PresentTest(key);
    ComprehensionIsFilter(rs, present);
    MissingIsUndecided(rs, key);
    if !SomeMissing(rs, key) {
      var valid := Comprehension(rs, present).value;
      ComprehensionIsFilter(valid, FieldTest(key, op, t));
      UnorderedIsUndecided(rs, key, op, t);
    }
  }

  /** The presence test raises on some record exactly when some record lacks the key. */
  lemma MissingIsUndecided(rs: seq<Record>, key: string)
    ensures SomeMissing(rs, key) <==> !AllDecided(rs, PresentTest(key))
  {
    if SomeMissing(rs, key) {
      var i :| 0 <= i < |rs| && key !in rs[i].values;
      assert PresentTest(key)(rs[i]).Err?;
    }
  }

  /**
   * Among the records with a value, the comparison raises on some record
   * exactly when some record's value is neither None nor a number.
   */
  lemma UnorderedIsUndecided(rs: seq<Record>, key: string, op: Op, t: real)
    requires !SomeMissing(rs, key)
    requires Comprehension(rs, PresentTest(key)).Ok?
    ensures SomeUnordered(rs, key, op) <==> !AllDecided(Comprehension(rs, PresentTest(key)).value, FieldTest(key, op, t))
  {
    var present := PresentTest(key);
    var test := FieldTest(key, op, t);
    var valid := Comprehension(rs, present).value;
    ComprehensionSpec(rs, present);
    if SomeUnordered(rs, key, op) {
      var i :| 0 <= i < |rs| && key in rs[i].values && rs[i].values[key] != PyNone && Number(rs[i].values[key]).None? && op != Eq;
      assert present(rs[i]) == Ok(true);
      assert rs[i] in valid;
      var j :| 0 <= j < |valid| && valid[j] == rs[i];
      assert test(valid[j]).Err?;
    } else {
      forall j | 0 <= j < |valid|
        ensures test(valid[j]).Ok?
      {
        assert valid[j] in valid;
        assert valid[j] in rs && present(valid[j]) == Ok(true);
        var i :| 0 <= i < |rs| && rs[i] == valid[j];
        assert !(key in rs[i].values && rs[i].values[key] != PyNone && Number(rs[i].values[key]).None? && op != Eq);
      }
    }
  }

  /** filter_results_by_immunogenicity keeps its input's order and raises only on a record without the key. */
  lemma ByImmunogenicitySpec(rs: seq<Record>, t: real, opText: string)
    ensures rs == [] || "immunogenicity_score" !in rs[0].values ==> ByImmunogenicity(rs, t, opText) == Ok(rs)
    ensures ByImmunogenicity(rs, t, opText).Ok? ==> IsSubsequence(ByImmunogenicity(rs, t, opText).value, rs)
    ensures rs != [] && "immunogenicity_score" in rs[0].values && ByImmunogenicity(rs, t, opText).Ok? ==>
      forall r :: r in ByImmunogenicity(rs, t, opText).value <==>
        r in rs && "immunogenicity_score" in r.values && Number(r.values["immunogenicity_score"]).Some? &&
        Holds(Number(r.values["immunogenicity_score"]).value, OpFrom(opText, Gt), t)
  {
    if rs == [] || "immunogenicity_score" !in rs[0].values {
      SubsequenceReflexive(rs);
    } else {
      ByPresentFieldSpec(rs, "immunogenicity_score", OpFrom(opText, Gt), t);
    }
  }

  /** filter_results_by_ic50 filters on the first IC50 key of the first record, in order. */
  lemma ByIc50Spec(rs: seq<Record>, t: real, opText: string)
    ensures rs == [] || Ic50Field(rs[0].keys).None? ==> ByIc50(rs, t, opText) == Ok(rs)
    ensures ByIc50(rs, t, opText).Ok? ==> IsSubsequence(ByIc50(rs, t, opText).value, rs)
    ensures rs != [] && Ic50Field(rs[0].keys).Some? && ByIc50(rs, t, opText).Ok? ==>
      var f := Ic50Field(rs[0].keys).value;
      forall r :: r in ByIc50(rs, t, opText).value <==>
        r in rs && f in r.values && Number(r.values[f]).Some? && Holds(Number(r.values[f]).value, OpFrom(opText, Lt), t)
  {
    if rs == [] || Ic50Field(rs[0].keys).None? {
      SubsequenceReflexive(rs);
    } else {
      ByPresentFieldSpec(rs, Ic50Field(rs[0].keys).value, OpFrom(opText, Lt), t);
    }
  }

  /** The combined filter keeps its input's order. */
  lemma CombinedSpec(rs: seq<Record>, pt: real, pop: string, it: real, iop: string, ct: real, cop: string)
    ensures Combined(rs, pt, pop, it, iop, ct, cop).Ok? ==> IsSubsequence(Combined(rs, pt, pop, it, iop, ct, cop).value, rs)
    ensures Combined(rs, pt, pop, it, iop, ct, cop).Ok? ==> forall r :: r in Combined(rs, pt, pop, it, iop, ct, cop).value ==>
      r in rs && "percentile_rank" in r.values &&
      Number(r.values["percentile_rank"]).Some? && Holds(Number(r.values["percentile_rank"]).value, OpFrom(pop, Lt), pt)
  {
    ByPercentileSpec(rs, pt, pop);
    if ByPercentile(rs, pt, pop).Ok? {
      var a := ByPercentile(rs, pt, pop).value;
      ByImmunogenicitySpec(a, it, iop);
      if ByImmunogenicity(a, it, iop).Ok? {
        var b := ByImmunogenicity(a, it, iop).value;
        ByIc50Spec(b, ct, cop);
        if ByIc50(b, ct, cop).Ok? {
          var c := ByIc50(b, ct, cop).value;
          SubsequenceTransitive(b, a, rs);
          SubsequenceTransitive(c, b, rs);
          SubsequenceMembers(c, b);
          SubsequenceMembers(b, a);
        }
      }
    }
  }

  /** A record's field holds a number satisfying the comparison. */
  predicate FieldMeets(r: Record, key: string, op: Op, t: real) {
    key in r.values && Number(r.values[key]).Some? && Holds(Number(r.values[key]).value, op, t)
  }

  /** The immunogenicity stage filters: its input is non-empty and its first record has the key. */
  predicate ImmunogenicityApplies(a: seq<Record>) {
    a != [] && "immunogenicity_score" in a[0].values
  }

  /** The IC50 stage filters: its input is non-empty and its first record has an IC50 key. */
  predicate Ic50Applies(b: seq<Record>) {
    b != [] && Ic50Field(b[0].keys).Some?
  }

  /**
   * With a the percentile stage's output and b the immunogenicity stage's,
   * the combined filter is the IC50 stage on b, and when it completes it
   * keeps exactly the records of rs meeting every condition whose stage
   * filters.
   */
  lemma CombinedKeeps(rs: seq<Record>, pt: real, pop: string, it: real, iop: string, ct: real, cop: string,
                      a: seq<Record>, b: seq<Record>)
    requires ByPercentile(rs, pt, pop) == Ok(a) && ByImmunogenicity(a, it, iop) == Ok(b)
    ensures Combined(rs, pt, pop, it, iop, ct, cop) == ByIc50(b, ct, cop)
    ensures Combined(rs, pt, pop, it, iop, ct, cop).Ok? ==>
      forall r :: r in Combined(rs, pt, pop, it, iop, ct, cop).value <==>
        r in rs && FieldMeets(r, "percentile_rank", OpFrom(pop, Lt), pt) &&
        (ImmunogenicityApplies(a) ==> FieldMeets(r, "immunogenicity_score", OpFrom(iop, Gt), it)) &&
        (Ic50Applies(b) ==> FieldMeets(r, Ic50Field(b[0].keys).value, OpFrom(cop, Lt), ct))
  {
    ByPercentileSpec(rs, pt, pop);
    ByImmunogenicitySpec(a, it, iop);
    ByIc50Spec(b, ct, cop);
  }

  /** Every element of a subsequence is an element of the sequence. */
  lemma SubsequenceMembers(a: seq<Record>, b: seq<Record>)
    requires IsSubsequence(a, b)
    ensures forall x :: x in a ==> x in b
  {
    var m :| |m| == |b| && a == Select(b, m);
    SelectMembers(b, m);
  }

  lemma {:induction false} SelectMembers(b: seq<Record>, m: seq<bool>)
    requires |m| == |b|
    ensures forall x :: x in Select(b, m) ==> x in b
  {
    if b != [] {
      SelectMembers(b[..|b| - 1], m[..|m| - 1]);
    }
  }

  /** Applying the percentile filter twice is applying it once. */
  lemma ByPercentileIdempotent(rs: seq<Record>, t: real, opText: string)
    requires ByPercentile(rs, t, opText).Ok?
    ensures ByPercentile(ByPercentile(rs, t, opText).value, t, opText) == ByPercentile(rs, t, opText)
  {
    ComprehensionIdempotent(rs, FieldTest("percentile_rank", OpFrom(opText, Lt), t));
  }

  /** A comprehension whose test accepts every record keeps them all. */
  lemma ComprehensionKeepsAll(rs: seq<Record>, test: Test)
    requires forall r :: r in rs ==> test(r) == Ok(true)
    ensures Comprehension(rs, test) == Ok(rs)
  {
    assert AllDecided(rs, test) by {
      assert forall i :: 0 <= i < |rs| ==> rs[i] in rs;
    }
    ComprehensionIsFilter(rs, test);
    FilterAll(rs, Accepted(test));
  }

  /** Filtering on a field twice is filtering once: every kept record has a value. */
  lemma ByPresentFieldIdempotent(rs: seq<Record>, key: string, op: Op, t: real)
    requires ByPresentField(rs, key, op, t).Ok?
    ensures ByPresentField(ByPresentField(rs, key, op, t).value, key, op, t) == ByPresentField(rs, key, op, t)
  {
    var present := PresentTest(key);
    var field := FieldTest(key, op, t);
    var valid := Comprehension(rs, present).value;
    var y := Comprehension(valid, field).value;
    ComprehensionSpec(rs, present);
    ComprehensionSpec(valid, field);
    assert forall r :: r in y ==> present(r) == Ok(true);
    ComprehensionKeepsAll(y, present);
    ComprehensionIdempotent(valid, field);
  }

  /** Applying the immunogenicity filter twice is applying it once. */
  lemma ByImmunogenicityIdempotent(rs: seq<Record>, t: real, opText: string)
    requires ByImmunogenicity(rs, t, opText).Ok?
    ensures ByImmunogenicity(ByImmunogenicity(rs, t, opText).value, t, opText) == ByImmunogenicity(rs, t, opText)
  {
    var key := "immunogenicity_score";
    if rs != [] && key in rs[0].values {
      var y := ByImmunogenicity(rs, t, opText).value;
      ByPresentFieldSpec(rs, key, OpFrom(opText, Gt), t);
      ByPresentFieldIdempotent(rs, key, OpFrom(opText, Gt), t);
      if y != [] {
        assert y[0] in y;
      }
    }
  }

  /** Records of one schema: every record has the key list of the first. */
  predicate OneSchema(rs: seq<Record>) {
    forall i :: 0 <= i < |rs| ==> rs[i].keys == rs[0].keys
  }

  /**
   * Applying the IC50 filter twice is applying it once, for records of one
   * schema: the field is looked up in the first record, which may change.
   */
  lemma ByIc50Idempotent(rs: seq<Record>, t: real, opText: string)
    requires ByIc50(rs, t, opText).Ok? && OneSchema(rs)
    ensures ByIc50(ByIc50(rs, t, opText).value, t, opText) == ByIc50(rs, t, opText)
  {
    if rs != [] && Ic50Field(rs[0].keys).Some? {
      var f := Ic50Field(rs[0].keys).value;
      var y := ByIc50(rs, t, opText).value;
      ByPresentFieldSpec(rs, f, OpFrom(opText, Lt), t);
      ByPresentFieldIdempotent(rs, f, OpFrom(opText, Lt), t);
      if y != [] {
        assert y[0] in y;
        var j :| 0 <= j < |rs| && rs[j] == y[0];
      }
    }
  }
}

=== FILE: wrappers.dfy ===
/** Option and Result, the stock failure-carrying datatypes used across the model. */
module Wrappers {

  datatype Option<+T> = None | Some(value: T)

  /** Python's truthiness of an optional string: None and "" are both false. */
  predicate Truthy(o: Option<string>) {
    o.Some? && o.value != ""
  }

  datatype Result<+R, +E> = Ok(value: R) | Err(error: E)
}
